=== FILE: README.md ===
# SmartChat core, modelled in Dafny

SmartChat is a customer-support chatbot builder. An owner uploads documents to
a bot. The documents are split into chunks, embedded and stored. Visitors then
chat with the bot, and each answer is grounded in the chunks most similar to
the question, streamed from the owner's chosen model vendor (OpenAI-compatible
or Anthropic). This project models the logic at the heart of that pipeline:

- the sentence splitter and overlapping chunker;
- the embedding policy and its cache of local model pipelines;
- retrieval and the grounded system prompt;
- the provider preset table and the streaming transports;
- the upload route: validation, batch embedding and insertion, and the
  document's status;
- the chat route: access, the conversation, the prompt messages, the event
  stream and the stored reply;
- the AI-settings route: key masking and the partial update;
- the demo quota route and the demo page's scripted replies and quota guard;
- bot creation.

The model is organised in modules:

- Shared modules:
  - `Wrappers`: `Option`, and `Result` for a thrown error.
  - `Text`: the JavaScript string operations the core uses, on `seq<char>`.
  - `Json`: JSON values with JavaScript truthiness, `||` and `??`.
  - `Streams`: a finite stream of items that may end in a failure, and the
    filter over it.
- One module per core source file:
  - `Chunker` and `Embedding`: `src/lib/ai/openai.ts`.
  - `Rag`: `src/lib/ai/rag.ts`.
  - `Providers`: `src/lib/ai/providers.ts`.
  - `ChatProvider`: `src/lib/ai/provider.ts`.
  - `UploadRoute`: `src/app/api/upload/route.ts`.
  - `ChatRoute`: `src/app/api/chat/route.ts`.
  - `AiSettingsRoute`: `src/app/api/user/ai-settings/route.ts`.
  - `DemoRoute`: `src/app/api/demo/route.ts`.
  - `DemoPage`: `src/app/demo/page.tsx`.
  - `BotsRoute`: `src/app/api/bots/route.ts`.

Code that changes state step by step is written imperatively, and each such
method is proved against a specification function:

- the chunking loop;
- the upload's batch loops and its document store;
- the chat route's message list, event relay and message store;
- the settings update and profile row;
- the quota counter;
- the demo page's chat state.

Everything else is functions and lemmas.

Collaborators are parameters:

- the database's answers and the outcome of each write;
- the vendor endpoints, as functions from a request to a stream or an outcome;
- the document parsers and the local model runtime;
- the clock and the vector search.

## Model

| member | source | states |
|---|---|---|
| `Chunker.ContainsCjk` | src/lib/ai/openai.ts:79 | the CJK test on the whole text: some character lies in one of the seven CJK ranges; it selects the mode stated by `Chunker.StepShape` and `Chunker.OverlapSeedIsSuffix`, and `DemoPage.ChineseIsCjk` relates it to the demo page's test |
| `Chunker.NextBoundary` | src/lib/ai/openai.ts:86 | the next cut falls just after a sentence terminator (`.!?。！？` or newline), or at the end, with no terminator before it |
| `Chunker.Sentences` | src/lib/ai/openai.ts:86 | splitting after terminators always yields at least one piece |
| `Chunker.SentencesShape` | src/lib/ai/openai.ts:86 | every piece but the last ends with a terminator and has none before it; no piece after the first starts with white space |
| `Chunker.SentencesCoverText` | src/lib/ai/openai.ts:86 | apart from white space swallowed at the cuts, the pieces concatenated are the text |
| `Chunker.SentencesOfUnbroken` | src/lib/ai/openai.ts:86 | a text with no terminator before its last character is a single sentence |
| `Chunker.OverlapSeedIsSuffix` | src/lib/ai/openai.ts:94-99 | in CJK mode the carried overlap is the buffer's last `overlap` characters (all of it for 0); otherwise it is a suffix of the buffer that starts at a word boundary, splits into exactly the buffer's last `overlap` space-separated words (all of them for 0), and is followed by one space |
| `Chunker.OverlapSeed` | src/lib/ai/openai.ts:94-99 | the overlap carried into the next buffer, as `Chunker.OverlapSeedIsSuffix` states it |
| `Chunker.Step` | src/lib/ai/openai.ts:92-102 | one pass of the loop body, as `Chunker.StepShape` states it |
| `Chunker.CarriesShortBuffer` | src/lib/ai/openai.ts:97-98 | outside CJK mode a flushed, already trimmed buffer of at most `overlap` words (of any length when `overlap` is 0) is carried over whole: the next buffer is the pushed chunk, a space and the sentence |
| `Chunker.StepShape` | src/lib/ai/openai.ts:91-102 | a chunk is flushed exactly when the buffer is non-empty and buffer plus sentence exceeds the maximum; the flushed chunk is the trimmed buffer and the new buffer is overlap plus sentence; otherwise the new buffer is the old one, then one space when the old one is non-empty outside CJK mode (nothing in CJK mode or after an empty buffer), then the sentence |
| `Chunker.Fold` | src/lib/ai/openai.ts:91-103 | the loop over all sentences, from an empty buffer; `Chunker.FoldChunksTrimmed` and `Chunker.FoldChunksPrefix` state what it yields |
| `Chunker.FoldChunksTrimmed` | src/lib/ai/openai.ts:93 | every chunk flushed in the loop is trimmed |
| `Chunker.ChunksAreTrimmed` | src/lib/ai/openai.ts:104-106 | every emitted chunk is trimmed, and a chunk added after the loop is never empty |
| `Chunker.FoldChunksPrefix` | src/lib/ai/openai.ts:104-107 | the result is the loop's chunks plus at most one final chunk |
| `Chunker.ChunksOf` | src/lib/ai/openai.ts:81-108 | the chunks of a text, stated by `Chunker.ChunksAreTrimmed`, `Chunker.ChunksCoverSentences` and `Chunker.CjkChunksBounded`, and computed by the loop of `Chunker.SplitTextIntoChunks` |
| `Chunker.ChunksCoverSentences` | src/lib/ai/openai.ts:86-106 | no sentence is lost: the trimmed text of every non-blank sentence lies inside some chunk, and the index of the chunk that holds sentence i never decreases as i grows |
| `Chunker.CjkChunksBounded` | src/lib/ai/openai.ts:92-95 | in CJK mode with a positive overlap, no chunk is longer than the larger of the maximum and the overlap plus the longest sentence, so with an overlap of at most the maximum no chunk exceeds the maximum by more than one sentence |
| `Chunker.ChunksGrowPastMaximum` | src/lib/ai/openai.ts:91-106 | outside CJK mode, three one-word sentences that each fit the maximum but no two of which fit together (such as `ab.`, `cd.` and `ef.` at maximum 3, with overlap 0 or at least 2) are chunked as `a`, `a b` and `a b c`; the last chunk exceeds the maximum by more than the last sentence |
| `Chunker.ChunksOfEmpty` | src/lib/ai/openai.ts:86-107 | empty text yields no chunks |
| `Chunker.LongSentenceKeptWhole` | src/lib/ai/openai.ts:100-102 | a non-blank text with no terminator before its last character is one trimmed chunk, whatever the maximum, so a sentence longer than the maximum is never cut |
| `Chunker.SentencesOfExample` | src/lib/ai/openai.ts:86 | `"\nab"` splits into `"\n"` and `"ab"` |
| `Chunker.FoldOfExample` | src/lib/ai/openai.ts:91-102 | with maximum 1, those two sentences flush the blank buffer `"\n"` as an empty chunk |
| `Chunker.BlankFirstChunk` | src/lib/ai/openai.ts:92-93 | the flush tests the untrimmed buffer, so `"\nab"` with maximum 1 yields an empty first chunk |
| `Chunker.SplitTextIntoChunks` | src/lib/ai/openai.ts:81-108 | the loop over sentences returns exactly the chunks of the specification above |
| `Embedding.HuggingFaceModel` | src/lib/ai/openai.ts:33 | a local identifier loads its mapped model, an unmapped one the MiniLM fallback; the result is always a mapped model |
| `Embedding.RemoteRequest` | src/lib/ai/openai.ts:53-72 | the request the remote path would send, as `Embedding.RemoteRequestShape` states it |
| `Embedding.RemoteRequestShape` | src/lib/ai/openai.ts:53-72 | the key is the config's key when non-empty, else the environment's; the base URL is the config's when set and non-empty, and DashScope's when it is missing or `''`; 512 dimensions of the given model and text; no request exactly when both keys are empty |
| `Embedding.GenerateEmbedding` | src/lib/ai/openai.ts:39-77 | a local model never fails, and every failure carries the fixed "Failed to generate embedding: " prefix |
| `Embedding.EmbeddingPolicy` | src/lib/ai/openai.ts:44-76 | a local failure becomes `[]`; a missing key gives `[]` whatever the vendor does; otherwise the vendor's vector, or its error with the prefix |
| `Embedding.EmbeddingModelsTable` | src/lib/ai/openai.ts:3-7 | the table's local identifiers are exactly the mapped ones, and the default identifier is remote |
| `Embedding.LocalPipelineCache.constructor` | src/lib/ai/openai.ts:12 | the cache starts empty |
| `Embedding.LocalPipelineCache.GetLocalPipeline` | src/lib/ai/openai.ts:14-25 | a model's pipeline is created on first use only; later calls return the cached one, and no other entry changes |
| `Embedding.LocalPipelineCache.GenerateLocalEmbedding` | src/lib/ai/openai.ts:32-37 | the mapped model's cached pipeline is run on the text, which is the cache's runtime applied to the mapped model; a failed load stays cached, so every later call for that model fails too |
| `Embedding.CachedRunner` | src/lib/ai/openai.ts:32-37 | the local runtime as the cache provides it; `Embedding.LocalPipelineCache.GenerateLocalEmbedding` returns its result on the cached entries |
| `Embedding.EmbeddingThroughCache` | src/lib/ai/openai.ts:32-50 | `generateEmbedding` over the cache: a local model whose pipeline loaded yields the extracted vector, or `[]` when extraction fails; one whose cached load failed yields `[]` on every call |
| `Rag.Normalize` | src/lib/ai/rag.ts:33-37 | a row keeps its content and similarity, and missing metadata becomes `{}` |
| `Rag.RetrieveContext` | src/lib/ai/rag.ts:10-38 | a blank query retrieves nothing, and the only failure is the embedding's |
| `Rag.SearchRequestFor` | src/lib/ai/rag.ts:19-26 | the `match_documents` request, as `Rag.RetrieveContextOutcomes` states it |
| `Rag.BlankQueryRetrievesNothing` | src/lib/ai/rag.ts:15-17 | a blank query retrieves nothing, whatever the embedder and the search would do |
| `Rag.RetrieveContextOutcomes` | src/lib/ai/rag.ts:19-37 | the search asks for threshold 0.5 and 5 matches with the query's embedding; a search error yields `[]`; otherwise each row becomes one context, in order |
| `Rag.DocumentBlocks` | src/lib/ai/rag.ts:46-47 | block k is `[Document k+1]`, a newline and the k-th content |
| `Rag.JoinContainsPart` | src/lib/ai/rag.ts:48 | a joined string contains each of its parts |
| `Rag.NoContextKeepsPrompt` | src/lib/ai/rag.ts:44 | with no contexts the system prompt is returned unchanged |
| `Rag.BuildContextPrompt` | src/lib/ai/rag.ts:40-57 | the grounded system prompt, as `Rag.NoContextKeepsPrompt`, `Rag.DocumentBlocks` and `Rag.ContextPromptGrounds` state it |
| `Rag.ContextPromptGrounds` | src/lib/ai/rag.ts:50-56 | the prompt starts with the system prompt, contains the grounding instruction, contains every numbered document block and ends with `</context>` |
| `Streams.FilterMapAppend` | src/lib/ai/provider.ts:49-54 | filtering a concatenation is concatenating the filtered parts |
| `Streams.FilterMapLength` | src/lib/ai/provider.ts:49-54 | the filter yields one item per kept event |
| `Streams.FilterMapPlaces` | src/lib/ai/provider.ts:49-54 | a kept event lands at the position given by the kept events before it, so order is preserved |
| `Streams.FilterMapFrom` | src/lib/ai/provider.ts:79-83 | every yielded item comes from some event |
| `Streams.FilterMapKeepsAll` | src/lib/ai/provider.ts:66-68 | when every element is kept, the filter yields one item per element, each mapped in place |
| `Streams.CountKeptGrows` | src/app/api/chat/route.ts:76 | a kept element adds one to the count of every longer prefix, so kept elements keep their relative order |
| `ChatProvider.ShouldUseAnthropicSdk` | src/lib/ai/provider.ts:28-31 | the transport choice, as `ChatProvider.AnthropicSdkExactlyForAnthropic` states it |
| `ChatProvider.AnthropicSdkExactlyForAnthropic` | src/lib/ai/provider.ts:28-31 | the Anthropic SDK is used exactly when the provider is `anthropic` |
| `ChatProvider.BaseUrlOption` | src/lib/ai/provider.ts:39 | an empty base URL is sent as absent, any other as given |
| `ChatProvider.NonSystem` | src/lib/ai/provider.ts:66-68 | the Anthropic message list, as `ChatProvider.NonSystemSelects` states it |
| `ChatProvider.NonSystemSelects` | src/lib/ai/provider.ts:66-68 | the Anthropic message list is the non-system messages, in order, and all of them |
| `ChatProvider.SystemParam` | src/lib/ai/provider.ts:65-75 | the Anthropic system parameter is the first system message's content, or `''` without one |
| `ChatProvider.EmptyKeyRefused` | src/lib/ai/provider.ts:34-36 | with an empty key the stream yields nothing and fails with the key error, whatever the vendors would do |
| `ChatProvider.MissingConfigFails` | src/lib/ai/provider.ts:28-30 | without a configuration the transport choice throws before anything is yielded |
| `ChatProvider.OpenAIText` | src/lib/ai/provider.ts:50 | the delta text of a chunk, kept when non-empty, as `ChatProvider.OpenAITransport` states it |
| `ChatProvider.StreamOpenAI` | src/lib/ai/provider.ts:33-55 | the OpenAI transport, as `ChatProvider.OpenAITransport` and `ChatProvider.EmptyKeyRefused` state it |
| `ChatProvider.OpenAITransport` | src/lib/ai/provider.ts:33-55 | the OpenAI request carries the key, base URL, model, temperature, token limit and messages; every non-empty delta text is yielded in order, and nothing else; the vendor's failure passes through |
| `ChatProvider.AnthropicText` | src/lib/ai/provider.ts:80-81 | the text of a text delta, as `ChatProvider.AnthropicTransport` states it |
| `ChatProvider.StreamAnthropic` | src/lib/ai/provider.ts:57-89 | the Anthropic transport, as `ChatProvider.AnthropicTransport` and `ChatProvider.EmptyKeyRefused` state it |
| `ChatProvider.AnthropicTransport` | src/lib/ai/provider.ts:57-89 | the Anthropic request carries the system parameter and the non-system messages; exactly the text deltas are yielded, in order; a vendor failure is rethrown with the Anthropic prefix |
| `ChatProvider.StreamChat` | src/lib/ai/provider.ts:91-97 | the dispatch, as `ChatProvider.StreamChatRoutes` states it |
| `ChatProvider.StreamChatRoutes` | src/lib/ai/provider.ts:91-97 | `anthropic` goes to the Anthropic transport, every other provider to the OpenAI one |
| `Providers.GetPresetById` | src/lib/ai/providers.ts:76-78 | the lookup, as `Providers.FindPreset` and `Providers.LookupById` state it |
| `Providers.FindPreset` | src/lib/ai/providers.ts:76-77 | the result is the first preset with the id, and there is none exactly when no preset has it |
| `Providers.PresetIdsDistinct` | src/lib/ai/providers.ts:9-74 | the preset ids are pairwise distinct |
| `Providers.LookupById` | src/lib/ai/providers.ts:76-77 | every preset is found by its own id, and a found preset has the requested id |
| `Providers.OnlyAnthropicUsesSdk` | src/lib/ai/providers.ts:20-29 | only the `anthropic` preset sets `useAnthropicSdk`, and it sets it to true |
| `Providers.CustomIsTheOnlyEmptyPreset` | src/lib/ai/providers.ts:68-73 | `custom` is the only preset without models and the only one without a base URL |
| `Providers.OpenAIFirst` | src/lib/ai/providers.ts:10-19 | `openai` is the first preset, with three models |
| `UploadRoute.ExtractText` | src/app/api/upload/route.ts:10-40 | the parser dispatch, as `UploadRoute.ExtractTextDispatch` states it |
| `UploadRoute.ExtractTextDispatch` | src/app/api/upload/route.ts:10-40 | PDF uses the PDF parser; DOCX uses mammoth's text when it is not blank, and otherwise word-extractor, as DOC does; a word-extractor failure becomes "Failed to parse Word file."; anything else is decoded as UTF-8 |
| `Text.SplitWithoutSeparator` | src/app/api/upload/route.ts:65 | a name without a dot splits into itself |
| `UploadRoute.LastPieceOfSplit` | src/app/api/upload/route.ts:65 | the last piece of a split is what follows the last dot |
| `UploadRoute.ExtensionOf` | src/app/api/upload/route.ts:65 | the extension, as `UploadRoute.ExtensionAfterLastDot` states it |
| `UploadRoute.ExtensionAfterLastDot` | src/app/api/upload/route.ts:65 | the extension is the lower-cased text after the last dot, or the whole name when it has no dot |
| `UploadRoute.CheckUpload` | src/app/api/upload/route.ts:49-99 | an accepted upload has a known embedding model, a supported extension and non-blank text; every refusal is an error reply |
| `UploadRoute.MissingFieldsRefusedFirst` | src/app/api/upload/route.ts:55-57 | a missing path, name or bot id is refused with 400 before the bot, the storage or the parsers are consulted |
| `UploadRoute.EmbeddingModelChecked` | src/app/api/upload/route.ts:59-63 | an absent model defaults to `text-embedding-v3`, and an unknown one is refused with 400 |
| `UploadRoute.CheckUploadOutcomes` | src/app/api/upload/route.ts:49-99 | 401 without a user; once the fields and the model pass, an unsupported extension is 400, a bot the caller does not own 404, a failed download 500, a throwing parser the generic 500 (the outer catch), and white-space-only text 400; a request passing every check is accepted with its model, extension and text |
| `UploadRoute.CeilQuarter` | src/app/api/upload/route.ts:141 | `Math.ceil(n / 4)`: the least q with 4q ≥ n |
| `UploadRoute.TokenSum` | src/app/api/upload/route.ts:141 | the token estimate of a run of chunks, as `UploadRoute.TokenSumBounds` and `UploadRoute.TokenSumSplit` state it |
| `UploadRoute.TokenSumBounds` | src/app/api/upload/route.ts:141 | the token estimate of any run of chunks lies between a quarter of its total length and that plus one per chunk |
| `UploadRoute.TokenSumSplit` | src/app/api/upload/route.ts:119-141 | the estimate of a run of chunks is the sum of the estimates of its two parts at any cut |
| `UploadRoute.Records` | src/app/api/upload/route.ts:143-152 | record k carries chunk k, index k, the document id, the bot id and the file name |
| `UploadRoute.Embed` | src/app/api/upload/route.ts:140 | one chunk's embedding with the upload's model and vendor config, whose outcomes `Embedding.EmbeddingPolicy` states |
| `UploadRoute.FirstEmbeddingFailure` | src/app/api/upload/route.ts:140 | the first chunk whose embedding throws; every chunk before it embeds |
| `UploadRoute.FirstFailingBatch` | src/app/api/upload/route.ts:134-162 | the first batch that contains a failing embedding or whose insert fails; every batch before it went in |
| `UploadRoute.EmbedBatch` | src/app/api/upload/route.ts:138-153 | the inner loop either builds the records of the whole batch with their token sum, or stops at its first failing embedding |
| `UploadRoute.FailingBatchIsFirst` | src/app/api/upload/route.ts:155-161 | a batch that fails is the first failing batch from there |
| `UploadRoute.EmbeddingFailureAt` | src/app/api/upload/route.ts:140 | a failure found after a run of successes is the first embedding failure |
| `UploadRoute.NoEmbeddingFailureIn` | src/app/api/upload/route.ts:140 | a run of successes lies before the first embedding failure |
| `UploadRoute.BatchWentIn` | src/app/api/upload/route.ts:134 | a batch that went in moves the search to the next batch of ten |
| `UploadRoute.RecordsExtend` | src/app/api/upload/route.ts:143-157 | appending a batch's records extends the stored records in order |
| `UploadRoute.ProcessChunks` | src/app/api/upload/route.ts:133-162 | all batches go in exactly when no batch fails; the stored records are those of the batches before the first failing one; on success the token total is the estimate for all chunks |
| `UploadRoute.ConfigFromProfile` | src/app/api/upload/route.ts:128-130 | a vendor config exists exactly when the profile has a key, and it carries the base URL only when one is set |
| `UploadRoute.StoredCount` | src/app/api/upload/route.ts:155-161 | at most every chunk is stored, and every chunk is when all batches go in |
| `UploadRoute.DocumentStore.Upload` | src/app/api/upload/route.ts:42-198 | a refused upload changes nothing and answers the check's error; a failed document insert answers 500 and changes nothing; otherwise the outcome is the one `StoreAndIngest` states |
| `UploadRoute.DocumentStore.StoreAndIngest` | src/app/api/upload/route.ts:101-193 | the document is added after the existing ones as processing with the text; the records of the batches before the first failing one are stored; it ends ready with the token total and a reply carrying the chunk count, or in error (or still processing if that update fails) with a 500 |
| `UploadRoute.IngestOutcome` | src/app/api/upload/route.ts:101-193 | the stores after an accepted upload, which `UploadRoute.DocumentStore.StoreAndIngest` establishes |
| `UploadRoute.EveryChunkRecordedOnce` | src/app/api/upload/route.ts:143-152 | when all batches go in, every chunk is stored once, with its own index |
| `UploadRoute.IngestionFailsAtABatch` | src/app/api/upload/route.ts:155-161 | processing fails exactly when some batch has a failing embedding or a failing insert |
| `ChatRoute.CheckChatAccess` | src/app/api/chat/route.ts:10-36 | the turn proceeds exactly when bot id and message are given and the bot exists and is public or owned by the caller; otherwise the reply is 400 or 404 |
| `ChatRoute.PrivateBotHidden` | src/app/api/chat/route.ts:31-35 | someone else's private bot answers 404 "Bot not found or not public", a reply distinct from a missing bot's |
| `ChatRoute.ConversationTitle` | src/app/api/chat/route.ts:46 | the title is the message's first 100 characters |
| `ChatRoute.VisitorIdFor` | src/app/api/chat/route.ts:45 | a given visitor id is kept; without one the id is non-empty and starts with `anon_` |
| `ChatRoute.SourcesOf` | src/app/api/chat/route.ts:97-101 | the sources sent to the visitor, as `ChatRoute.SourcesPreviewContexts` states them |
| `ChatRoute.SourcesPreviewContexts` | src/app/api/chat/route.ts:97-101 | one source per context, in order, with the first 200 characters of its content and its metadata and similarity |
| `ChatRoute.HistoryOf` | src/app/api/chat/route.ts:72-77 | the conversation's stored messages in creation order, as `ChatRoute.HistoryOfSelects` states it |
| `ChatRoute.HistoryOfSelects` | src/app/api/chat/route.ts:72-77 | the history holds exactly the role and content of the rows of that conversation, one message per row, in row order, and nothing from another conversation |
| `ChatRoute.ContentsOf` | src/app/api/chat/route.ts:69 | the prompt is grounded on the contexts' contents, in order |
| `ChatRoute.PromptMessages` | src/app/api/chat/route.ts:79-94 | the prompt's message list, as `ChatRoute.PromptMessagesShape` states it |
| `ChatRoute.PromptMessagesShape` | src/app/api/chat/route.ts:79-94 | the list starts with the system prompt, follows with the non-system history in order, and ends with the user's message, which is appended only when the history does not already end with it |
| `ChatRoute.BuildPromptMessages` | src/app/api/chat/route.ts:79-94 | the push loop builds exactly that list |
| `ChatRoute.TextEvents` | src/app/api/chat/route.ts:117-122 | one text event per streamed text, in order |
| `ChatRoute.TurnEvents` | src/app/api/chat/route.ts:114-155 | the events of a turn, as `ChatRoute.TurnEventsShape` states them |
| `ChatRoute.TurnEventsShape` | src/app/api/chat/route.ts:114-155 | the texts come first; a completed stream adds the sources (when there are any) and then done with the conversation id; a failed stream ends with the single "Stream interrupted" event |
| `ChatRoute.RelayStream` | src/app/api/chat/route.ts:112-155 | the relay loop emits those events, accumulates the full response as the concatenated texts, and completes exactly when the stream does not fail |
| `ChatRoute.TurnOptions` | src/app/api/chat/route.ts:104-109 | the bot's model, temperature and token limit, or `gpt-4o-mini`, 0.7 and 1000 when unset |
| `ChatRoute.AsWrittenTurnInterrupted` | src/app/api/chat/route.ts:104-109 | as written, the call passes no AI configuration, so every turn's stream is the single "Stream interrupted" event |
| `ChatRoute.ConfiguredTurnStreams` | src/app/api/chat/route.ts:104-109 | with the owner's configuration passed, the turn streams the chosen transport's texts and, on completion, ends with done |
| `ChatRoute.OwnerAIConfig` | src/lib/ai/provider.ts:10-14 | the `AIConfig` the per-bot route (`src/app/api/chat/[botId]/route.ts`, lines 44-48) builds from the owner's profile, as `ChatRoute.OwnerConfigTurn` states it |
| `ChatRoute.OwnerConfigTurn` | src/lib/ai/provider.ts:91-97 | with the owner's configuration built as in `src/app/api/chat/[botId]/route.ts` lines 44-48 and a stored key, the turn streams from the Anthropic transport exactly when the stored provider is `anthropic` and from the OpenAI one otherwise, an unset provider included; the base URL is passed exactly when one is stored; a completed stream ends with `done` |
| `ChatRoute.TurnAnswer` | src/app/api/chat/route.ts:65-157 | the response and stored row of a turn, as `ChatRoute.TurnAnswerOutcomes` states them |
| `ChatRoute.TurnAnswerOutcomes` | src/app/api/chat/route.ts:65-157 | the reply is a 500 exactly when retrieval throws, and then nothing is stored; at most one row is stored, and only after `done`; after `done` the assistant's row is stored exactly when the insert works, holding the concatenation of the texts sent and the sources shown, which are the retrieved contexts' sources |
| `ChatRoute.SentText` | src/app/api/chat/route.ts:117-122 | the texts the visitor was sent, one after the other, whose stored copy `ChatRoute.TurnAnswerOutcomes` states |
| `ChatRoute.ShownSources` | src/app/api/chat/route.ts:125-129 | the sources the visitor was shown, whose stored copy `ChatRoute.TurnAnswerOutcomes` states |
| `ChatRoute.SentTextOfEvents` | src/app/api/chat/route.ts:117-122 | the text events of the deltas followed by events without text send exactly the concatenated deltas, the `fullResponse` the route accumulates |
| `ChatRoute.RelayOutcome` | src/app/api/chat/route.ts:114-146 | a stream ends with `done` exactly when the transport did not throw; after `done` the assistant row holding the sent texts and shown sources is stored exactly when the insert works |
| `ChatRoute.ComposeAnswer` | src/app/api/chat/route.ts:65-157 | retrieval, prompt, streaming and the assistant row, composed as the turn specification says |
| `ChatRoute.ChatStore.Answer` | src/app/api/chat/route.ts:140-146 | the store gains exactly the turn's stored rows, and conversations are untouched |
| `ChatRoute.ConversationIdFor` | src/app/api/chat/route.ts:39-56 | the given conversation id, or the new conversation's; `ChatRoute.ChatStore.HandleChat` states what is stored under it |
| `ChatRoute.ChatStore.HandleChat` | src/app/api/chat/route.ts:6-170 | a refused request changes nothing; a failed conversation insert answers 500 and changes nothing; otherwise a new conversation is stored when none was given, then the user's row when its insert works, and then the turn is answered and its row stored |
| `ChatRoute.HistoryIsEarliestTen` | src/app/api/chat/route.ts:72-77 | the history used is the conversation's first ten messages in creation order: a row of the conversation is in it exactly when fewer than ten of the conversation's rows precede it, and then at that position with its role and content |
| `AiSettingsRoute.MaskedKey` | src/app/api/user/ai-settings/route.ts:24 | no key shows as `''`; a non-empty key shows as text starting with `****` |
| `AiSettingsRoute.MaskedKeyReveals` | src/app/api/user/ai-settings/route.ts:24 | the mask shows at most the key's last four characters, so a key longer than four is never shown whole |
| `AiSettingsRoute.GetSettings` | src/app/api/user/ai-settings/route.ts:4-29 | 401 without a user, 500 when the profile cannot be read; with a profile, the settings are returned exactly when the stored key can be masked |
| `AiSettingsRoute.GetSettingsDefaults` | src/app/api/user/ai-settings/route.ts:23-27 | a stored provider, base URL or model is returned as stored, and `openai`, `''` or `gpt-4o-mini` when it is missing; the key is shown masked; `has_api_key` says whether a key is stored, and the shown key is empty exactly when none is |
| `AiSettingsRoute.ApiKeyUpdate` | src/app/api/user/ai-settings/route.ts:46-53 | the key rule, as `AiSettingsRoute.ApiKeyRule` states it |
| `AiSettingsRoute.ApiKeyRule` | src/app/api/user/ai-settings/route.ts:46-53 | a trimmed, non-empty value not starting with `****` is stored, and only such a value is; a blank one clears the key; a masked value, `null` or a missing one leaves it alone; only a value that is neither string nor null throws |
| `AiSettingsRoute.MaskedEchoKeepsKey` | src/app/api/user/ai-settings/route.ts:46-53 | sending back the masked key leaves the stored key alone |
| `AiSettingsRoute.ColumnsDistinct` | src/app/api/user/ai-settings/route.ts:42-61 | the four settings fields are distinct |
| `AiSettingsRoute.UpdatesOnlyNamedFields` | src/app/api/user/ai-settings/route.ts:42-61 | only settings fields present in the body are written |
| `AiSettingsRoute.MaskedEchoChangesNothing` | src/app/api/user/ai-settings/route.ts:46-65 | a body that only echoes the masked key is "No changes" |
| `AiSettingsRoute.KeyRuleThenGet` | src/app/api/user/ai-settings/route.ts:24-27 | a key saved by PUT reads back as the mask and its last four characters; a cleared key reads back as no key |
| `AiSettingsRoute.BaseUrlUpdate` | src/app/api/user/ai-settings/route.ts:55-57 | the base-URL rule, as `AiSettingsRoute.BuildUpdates` states it |
| `AiSettingsRoute.FieldUpdate` | src/app/api/user/ai-settings/route.ts:42-61 | one field's update, as `AiSettingsRoute.BuildUpdates` and `AiSettingsRoute.UpdatesOnlyNamedFields` state it |
| `AiSettingsRoute.BuildUpdates` | src/app/api/user/ai-settings/route.ts:39-61 | the updates hold exactly the present fields' rule results: provider or `openai`, the key rule, the trimmed base URL or null, the model as sent; a throwing rule fails the request |
| `AiSettingsRoute.ProfileStore.Put` | src/app/api/user/ai-settings/route.ts:31-77 | 401 without a user; "No changes" and no write for an empty update; otherwise the fields are written over the row and "Settings saved", or 500 and no change when the write fails |
| `DemoRoute.GetQuota` | src/app/api/demo/route.ts:5-31 | guests get quota 3, used 0 and not logged in; an unreadable profile gives the same numbers, logged in; otherwise the profile's counters |
| `DemoRoute.Spend` | src/app/api/demo/route.ts:54-58 | a spend is refused exactly when used has reached the quota; otherwise used rises by one and stays within the quota |
| `DemoRoute.AfterSpends` | src/app/api/demo/route.ts:54-71 | the counter after repeated spends, as `DemoRoute.AfterSpendsCounter` states it |
| `DemoRoute.AfterSpendsCounter` | src/app/api/demo/route.ts:54-71 | after any number of attempts a counter within its quota stops at the quota, and one above it never moves |
| `DemoRoute.QuotaStore.Post` | src/app/api/demo/route.ts:34-72 | 401, 404, 403 with no write, 500 when the write fails; otherwise only the caller's counter rises by one and the reply reports what GET then reads; every counter within its quota stays so |
| `DemoPage.TopicNamesDiffer` | src/app/demo/page.tsx:30-55 | the five topic keys start with different letters, so they are distinct |
| `DemoPage.TablesComplete` | src/app/demo/page.tsx:30-55 | both language tables define exactly the five topics |
| `DemoPage.HasHan` | src/app/demo/page.tsx:59 | true exactly when some character is in U+4E00 to U+9FFF |
| `DemoPage.DetectLanguage` | src/app/demo/page.tsx:58-60 | Chinese exactly when the message holds a character in U+4E00 to U+9FFF |
| `DemoPage.ChineseIsCjk` | src/app/demo/page.tsx:59 | a message answered in Chinese is also CJK text for the chunker |
| `DemoPage.TopicOf` | src/app/demo/page.tsx:66-74 | the topic is one of the five table keys |
| `DemoPage.GetResponseForMessage` | src/app/demo/page.tsx:62-75 | the reply comes from the detected language's table |
| `DemoPage.ReplyPriority` | src/app/demo/page.tsx:66-74 | return, then order, then promotion, then shipping, else default: each topic is chosen exactly when its keywords match and no earlier topic's do |
| `DemoPage.LowerKeepsLanguage` | src/app/demo/page.tsx:63-64 | lower-casing does not change the detected language |
| `DemoPage.ReplyIgnoresCase` | src/app/demo/page.tsx:63 | messages that lower-case alike get the same reply |
| `DemoPage.UpperCaseRefund` | src/app/demo/page.tsx:66-67 | `REFUND` gets the English return reply |
| `DemoPage.DemoChat.constructor` | src/app/demo/page.tsx:105-128 | on mount a signed-in user takes the route's counters and a guest the stored count with quota 3; the limit is reached exactly when used has reached the quota |
| `DemoPage.DemoChat.IncrementGuestCount` | src/app/demo/page.tsx:89-93 | the stored guest count rises by one and the new count is returned |
| `DemoPage.SpentCount` | src/app/demo/page.tsx:155-173 | the count a send spends to, which `DemoPage.DemoChat.HandleSend` sets |
| `DemoPage.DemoChat.HandleSend` | src/app/demo/page.tsx:143-191 | nothing happens once the limit is reached; a 403 shows the message with no reply and sets the limit; otherwise message and reply are shown, used becomes the spent count, and the limit is set when it reaches the quota; a guest gets a reply exactly while the stored count is below 3 |
| `BotsRoute.NewBotRow` | src/app/api/bots/route.ts:45-53 | the name as sent, the caller as owner, and every optional field truthy or the empty description |
| `BotsRoute.CreateBot` | src/app/api/bots/route.ts:27-62 | 401 without a user; 400 for a missing, non-string or blank name; 500 with the database's message when the insert fails; a row is inserted exactly when the reply is 201 |
| `BotsRoute.CreatedBotKeepsName` | src/app/api/bots/route.ts:46 | a created bot belongs to the caller and keeps the name exactly as sent, untrimmed |
| `BotsRoute.DefaultsFillFalsyFields` | src/app/api/bots/route.ts:47-51 | each optional field is kept when truthy and replaced by its fixed default when falsy |
| `BotsRoute.BlankNameRefused` | src/app/api/bots/route.ts:39-41 | a blank name is refused with 400 whatever else the body holds, and nothing is inserted |

## Left out

- Database and storage access are parameters, not a database. Absent rows,
  failed reads and failed writes are inputs: flags, `Option`s and functions.
  Row ordering, server-side defaults and the `match_documents` similarity
  search are not part of this model.
- Vendor SDKs, the local model runtime and the document parsers are
  uninterpreted functions that may fail. The HTTP client setup and the
  `hf-mirror.com` host settings are not modelled.
- Concurrency and the async machinery (`ReadableStream`, `for await`,
  promises) are not modelled. A stream is a finite sequence that may end in a
  failure, and the pipeline cache is a sequential map.
- Floating point: similarity scores and temperature are `real`. Vectors are
  opaque sequences, with no pooling or normalisation.
- Non-determinism:
  - `Date.now()` in the anonymous visitor id is a parameter.
  - Message ids and the reply delay of the demo page are left out.
- Characters: `toLowerCase` is modelled on ASCII letters only. One string
  element is one character, and JavaScript counts UTF-16 code units. So
  `slice` lengths differ for characters outside the Basic Multilingual Plane.
- Request bodies:
  - The settings and bot-creation bodies are maps of JSON values. `Json.Value` has no arrays
    or nested objects.
  - The chat and upload bodies are records of strings, with `""` for a
    missing field.
  - A chat or upload field of another type (say `message: 5` or
    `fileName: 5`) cannot be represented. The route throws a `TypeError` on
    it, and the outer catch turns that into a 500.
  - A body that is not an object, and parsing errors, are not modelled.
- The demo page's guest count is a field. `parseInt` of a corrupted stored
  value is not modelled.
- The typing indicator, scrolling and rendering of the page are not modelled.
- The GET handlers of the bots route, and the listing routes of the
  dashboard, are not part of this model.
- `ChatRoute.ChatStore.HandleChat`: the user-message insert's outcome is a
  flag. The route ignores that outcome, and so does the model; the model does
  not capture what the database would do on a partial failure.
- `Embedding.LocalPipelineCache.GenerateLocalEmbedding`: whether a load works
  is a function of the model name, so a transient failure is not
  distinguished from a permanent one.
- `UploadRoute.DocumentStore.StoreAndIngest`: the final error-status update's outcome
  is a flag. The response is the same either way, as in the route.
- The sibling route `src/app/api/chat/[botId]/route.ts` is modelled only
  through the configuration it builds (`ChatRoute.OwnerAIConfig`), which is
  the correction below. Its 422 reply for a missing key, and the rest of its
  handler, are not part of this model.

## Findings

| source | as written | input that shows it | evidently intended | confidence | as-written member | corrected member |
|---|---|---|---|---|---|---|
| src/app/api/chat/route.ts:104-109 | `streamChat` is called without `aiConfig`, which `src/lib/ai/provider.ts:21` requires; `shouldUseAnthropicSdk(undefined)` throws on the first pull, and the catch at lines 147-155 turns every turn into a single "Stream interrupted" event with no assistant row | any public bot and any non-blank message | pass the owner's configuration (`ai_provider` or `openai`, `ai_api_key`, `ai_base_url`), as `src/app/api/chat/[botId]/route.ts:44-48` does, so the turn streams the chosen transport | not executed | `ChatRoute.AsWrittenTurnInterrupted` | `ChatRoute.ConfiguredTurnStreams` |

Separately, `Chunker.BlankFirstChunk` records an edge case of the chunker.
Its flush tests the untrimmed buffer, so a text that starts with a blank line
and then has a sentence longer than the maximum yields an empty first chunk.
The chunker's contracts are stated for the code as written.

The chunker's size parameter is not a bound on chunk length. A sentence longer
than the maximum is kept whole (`Chunker.LongSentenceKeptWhole`). Outside CJK
mode the carried overlap is a number of words, not characters. A flushed
buffer of at most that many words is carried over whole
(`Chunker.CarriesShortBuffer`), so chunks can keep growing. With `ab.`, `cd.`
and `ef.` at maximum 3 and the default overlap of 50, the chunks are `ab.`, `ab. cd.` and `ab. cd. ef.`
(`Chunker.ChunksGrowPastMaximum`). The bound that does hold is the CJK one: with
a positive overlap, no chunk is longer than the larger of the maximum and the
overlap plus the longest sentence (`Chunker.CjkChunksBounded`). There is no
single evidently intended correction, so these are stated as properties of the
code rather than as a finding.

=== FILE: ai_settings_route.dfy ===
/** The user's AI settings: reading them back with the API key masked, and
    saving a partial update in which each field of the body has its own
    rule. A profile row is a map from column name to JSON value; the
    database write's outcome is a parameter. */
module AiSettingsRoute {
  import opened Wrappers
  import opened Text
  import opened Json

  const PROVIDER_COLUMN: String := "ai_provider"
  const API_KEY_COLUMN: String := "ai_api_key"
  const BASE_URL_COLUMN: String := "ai_base_url"
  const MODEL_COLUMN: String := "default_model"
  const MASK: String := "****"
  const TYPE_ERROR: String := "TypeError"

  /** A column of the profile; an absent column reads as `null`. */
  function Column(row: Record, name: String): Value {
    if name in row then row[name] else Null
  }

  /** The settings as GET returns them. */
  datatype SettingsView = SettingsView(
    aiProvider: Value, aiApiKey: String, aiBaseUrl: Value, defaultModel: Value, hasApiKey: bool)

  datatype SettingsReply =
    | ErrorReply(status: nat, message: String)
    | SettingsOf(view: SettingsView)
    | MessageReply(message: String)

  /** `key ? '****' + key.slice(-4) : ''`. A truthy value that is not a
      string has no `slice`, and calling it throws. */
  function MaskedKey(key: Value): (r: Result<String, String>)
    ensures !Truthy(key) ==> r == Success([])
    ensures key.Str? && key.s != [] ==> r.Success? && StartsWith(r.value, MASK)
  {
    if !Truthy(key) then Success([])
    else if key.Str? then Success(MASK + SliceLast(key.s, 4))
    else Failure(TYPE_ERROR)
  }

  /** The mask shows at most the last four characters of a stored key:
      it is `****` followed by the key's last four (the whole key when it is
      shorter), so only keys of four characters or fewer are revealed. */
  lemma MaskedKeyReveals(key: String)
    requires key != []
    ensures var m := MaskedKey(Str(key)).value;
      && m[..4] == MASK
      && |m| == 4 + (if |key| < 4 then |key| else 4)
      && EndsWith(key, m[4..])
      && (|key| > 4 ==> m[4..] != key)
  {
  }

  /** `GET`: 401 without a user, 500 when the profile cannot be read,
      otherwise the settings with their defaults and the masked key. */
  function GetSettings(user: Option<String>, profile: Option<Record>): (r: SettingsReply)
    ensures user.None? ==> r == ErrorReply(401, "Unauthorized")
    ensures user.Some? && profile.None? ==> r == ErrorReply(500, "Failed to load settings")
    ensures user.Some? && profile.Some? ==>
      (r.SettingsOf? <==> MaskedKey(Column(profile.value, API_KEY_COLUMN)).Success?)
  {
    if user.None? then ErrorReply(401, "Unauthorized")
    else if profile.None? then ErrorReply(500, "Failed to load settings")
    else
      var row := profile.value;
      match MaskedKey(Column(row, API_KEY_COLUMN))
      case Failure(e) => ErrorReply(500, e)
      case Success(masked) =>
        SettingsOf(SettingsView(
          Or(Column(row, PROVIDER_COLUMN), Str("openai")),
          masked,
          Or(Column(row, BASE_URL_COLUMN), Str("")),
          Or(Column(row, MODEL_COLUMN), Str("gpt-4o-mini")),
          Truthy(Column(row, API_KEY_COLUMN))))
  }

  /** What GET shows: a stored provider, base URL or model as stored, and
      `openai`, `''` or `gpt-4o-mini` for a missing one; the key masked;
      `has_api_key` says whether a key is stored, and the key shown is
      empty exactly when none is. */
  lemma GetSettingsDefaults(user: String, row: Record)
    requires var k := Column(row, API_KEY_COLUMN); !Truthy(k) || k.Str?
    ensures var r := GetSettings(Some(user), Some(row));
      && r.SettingsOf?
      && (!Truthy(Column(row, PROVIDER_COLUMN)) ==> r.view.aiProvider == Str("openai"))
      && (!Truthy(Column(row, BASE_URL_COLUMN)) ==> r.view.aiBaseUrl == Str(""))
      && (!Truthy(Column(row, MODEL_COLUMN)) ==> r.view.defaultModel == Str("gpt-4o-mini"))
      && (Truthy(Column(row, PROVIDER_COLUMN)) ==> r.view.aiProvider == Column(row, PROVIDER_COLUMN))
      && (Truthy(Column(row, BASE_URL_COLUMN)) ==> r.view.aiBaseUrl == Column(row, BASE_URL_COLUMN))
      && (Truthy(Column(row, MODEL_COLUMN)) ==> r.view.defaultModel == Column(row, MODEL_COLUMN))
      && r.view.aiApiKey == MaskedKey(Column(row, API_KEY_COLUMN)).value
      && (r.view.hasApiKey <==> Truthy(Column(row, API_KEY_COLUMN)))
      && (r.view.aiApiKey == [] <==> !r.view.hasApiKey)
  {
  }

  /** The rule for `ai_api_key`: `body.ai_api_key?.trim()`; a non-empty
      value not starting with the mask is stored, an empty one clears the
      key, anything else leaves it alone (`None`). A value that is neither
      a string nor null has no `trim`, and calling it throws. */
  function ApiKeyUpdate(v: Value): Result<Option<Value>, String> {
    if v.Undefined? || v.Null? then Success(None)
    else if !v.Str? then Failure(TYPE_ERROR)
    else
      var t := Trim(v.s);
      if t != [] && !StartsWith(t, MASK) then Success(Some(Str(t)))
      else if t == [] then Success(Some(Null))
      else Success(None)
  }

  /** The rule for `ai_base_url`: `body.ai_base_url?.trim() || null`. */
  function BaseUrlUpdate(v: Value): Result<Value, String> {
    if v.Undefined? || v.Null? then Success(Null)
    else if !v.Str? then Failure(TYPE_ERROR)
    else if Trim(v.s) != [] then Success(Str(Trim(v.s)))
    else Success(Null)
  }

  /** The key rule stores exactly trimmed, non-empty, unmasked keys (and
      every such key sent is stored), clears the key exactly on a blank
      string, leaves it alone for a masked value, `null` or a missing one,
      and throws only on a value that is neither a string nor null. */
  lemma ApiKeyRule(v: Value)
    ensures ApiKeyUpdate(v).Failure? <==> !(v.Undefined? || v.Null? || v.Str?)
    ensures ApiKeyUpdate(v) == Success(Some(Null)) <==> v.Str? && IsBlank(v.s)
    ensures ApiKeyUpdate(v).Success? && ApiKeyUpdate(v).value.Some? && ApiKeyUpdate(v).value.value != Null ==>
      v.Str? && ApiKeyUpdate(v).value.value == Str(Trim(v.s)) && IsTrimmed(Trim(v.s))
      && Trim(v.s) != [] && !StartsWith(Trim(v.s), MASK)
    ensures v.Str? && Trim(v.s) != [] && !StartsWith(Trim(v.s), MASK) ==> ApiKeyUpdate(v) == Success(Some(Str(Trim(v.s))))
    ensures v.Str? && Trim(v.s) != [] && StartsWith(Trim(v.s), MASK) ==> ApiKeyUpdate(v) == Success(None)
    ensures v.Undefined? || v.Null? ==> ApiKeyUpdate(v) == Success(None)
  {
  }

  /** Sending back the masked key that GET showed is a no-op: the stored key
      is left as it is. */
  lemma MaskedEchoKeepsKey(key: String)
    requires key != []
    ensures ApiKeyUpdate(Str(MaskedKey(Str(key)).value)) == Success(None)
  {
    var m := MaskedKey(Str(key)).value;
    assert m[0] == '*' && m[3] == '*';
    TrimKeepsPrefix(m, 3);
    assert Trim(m)[..4] == MASK;
  }

  /** The four settings columns have distinct names. */
  lemma ColumnsDistinct()
    ensures PROVIDER_COLUMN != API_KEY_COLUMN && PROVIDER_COLUMN != BASE_URL_COLUMN
    ensures PROVIDER_COLUMN != MODEL_COLUMN && API_KEY_COLUMN != BASE_URL_COLUMN
    ensures API_KEY_COLUMN != MODEL_COLUMN && BASE_URL_COLUMN != MODEL_COLUMN
  {
    assert PROVIDER_COLUMN[3] == 'p' && API_KEY_COLUMN[3] == 'a' && BASE_URL_COLUMN[3] == 'b';
    assert MODEL_COLUMN[0] == 'd' && API_KEY_COLUMN[0] == 'a';
  }

  /** A body field whose rule throws: `trim` called on a value that is
      neither a string nor null. */
  predicate Throws(body: Record) {
    || (API_KEY_COLUMN in body && ApiKeyUpdate(body[API_KEY_COLUMN]).Failure?)
    || (BASE_URL_COLUMN in body && BaseUrlUpdate(body[BASE_URL_COLUMN]).Failure?)
  }

  /** What `PUT` writes to column `f`, or `None` when it leaves it alone:
      only the four settings fields are read, each only when the body has
      it, each by its own rule (the provider falls back to `openai`, the
      model is taken as sent). */
  function FieldUpdate(body: Record, f: String): Option<Value>
    requires !Throws(body)
  {
    if f !in body then None
    else if f == PROVIDER_COLUMN then Some(Or(body[f], Str("openai")))
    else if f == API_KEY_COLUMN then ApiKeyUpdate(body[f]).value
    else if f == BASE_URL_COLUMN then Some(BaseUrlUpdate(body[f]).value)
    else if f == MODEL_COLUMN then Some(body[f])
    else None
  }

  /** A body that changes something. */
  predicate HasUpdate(body: Record)
    requires !Throws(body)
  {
    exists f | f in body :: FieldUpdate(body, f).Some?
  }

  /** Only settings fields present in the body are ever written. */
  lemma UpdatesOnlyNamedFields(body: Record, f: String)
    requires !Throws(body)
    ensures FieldUpdate(body, f).Some? ==>
      f in body && f in {PROVIDER_COLUMN, API_KEY_COLUMN, BASE_URL_COLUMN, MODEL_COLUMN}
  {
  }

  /** A body that only echoes the masked key back changes nothing. */
  lemma MaskedEchoChangesNothing(key: String)
    requires key != []
    ensures var body := map[API_KEY_COLUMN := Str(MaskedKey(Str(key)).value)];
      !Throws(body) && !HasUpdate(body)
  {
    MaskedEchoKeepsKey(key);
  }

  /** What the key rule writes, GET reads back: a saved key shows as the
      mask and its last four characters, a cleared key as no key. */
  lemma KeyRuleThenGet(user: String, row: Record, v: Value)
    requires ApiKeyUpdate(v).Success? && ApiKeyUpdate(v).value.Some?
    ensures var written := ApiKeyUpdate(v).value.value;
      var r := GetSettings(Some(user), Some(row[API_KEY_COLUMN := written]));
      && r.SettingsOf?
      && (v.Str? && !IsBlank(v.s) ==>
            r.view.hasApiKey && r.view.aiApiKey == MASK + SliceLast(Trim(v.s), 4))
      && (v.Str? && IsBlank(v.s) ==> !r.view.hasApiKey && r.view.aiApiKey == [])
  {
  }

  /** `PUT`'s `updates` record: each of the four fields is considered only
      when the body has it, in the route's order; a thrown `trim` ends the
      request. */
  method BuildUpdates(body: Record) returns (r: Result<Record, String>)
    ensures r.Failure? <==> Throws(body)
    ensures r.Success? ==> forall f ::
      (f in r.value <==> FieldUpdate(body, f).Some?)
      && (f in r.value ==> r.value[f] == FieldUpdate(body, f).value)
  {
    ColumnsDistinct();
    var updates: Record := map[];
    if PROVIDER_COLUMN in body {
      updates := updates[PROVIDER_COLUMN := Or(body[PROVIDER_COLUMN], Str("openai"))];
    }
    if API_KEY_COLUMN in body {
      var key := ApiKeyUpdate(body[API_KEY_COLUMN]);
      if key.Failure? {
        return Failure(key.error);
      }
      if key.value.Some? {
        updates := updates[API_KEY_COLUMN := key.value.value];
      }
    }
    if BASE_URL_COLUMN in body {
      var url := BaseUrlUpdate(body[BASE_URL_COLUMN]);
      if url.Failure? {
        return Failure(url.error);
      }
      updates := updates[BASE_URL_COLUMN := url.value];
    }
    if MODEL_COLUMN in body {
      updates := updates[MODEL_COLUMN := body[MODEL_COLUMN]];
    }
    forall f
      ensures f in updates <==> FieldUpdate(body, f).Some?
      ensures f in updates ==> updates[f] == FieldUpdate(body, f).value
    {
      if f == PROVIDER_COLUMN {
      } else if f == API_KEY_COLUMN {
      } else if f == BASE_URL_COLUMN {
      } else if f == MODEL_COLUMN {
      } else {
        assert f !in updates;
      }
    }
    return Success(updates);
  }

  /** The signed-in user's profile row. */
  class ProfileStore {
    var row: Record

    constructor (initial: Record)
      ensures row == initial
    {
      row := initial;
    }

    /** `PUT`: 401 without a user; a throwing field rule is a 500; an update
        with no fields answers "No changes" and writes nothing; otherwise
        the fields are written over the row, unless the write fails. */
    method Put(user: Option<String>, body: Record, writeOk: bool) returns (reply: SettingsReply)
      modifies this
      ensures user.None? ==> reply == ErrorReply(401, "Unauthorized")
      ensures user.Some? && Throws(body) ==> reply == ErrorReply(500, TYPE_ERROR)
      ensures user.Some? && !Throws(body) && !HasUpdate(body) ==> reply == MessageReply("No changes")
      ensures user.Some? && !Throws(body) && HasUpdate(body) ==>
        reply == (if writeOk then MessageReply("Settings saved") else ErrorReply(500, "Failed to save settings"))
      ensures reply != MessageReply("Settings saved") ==> row == old(row)
      ensures reply == MessageReply("Settings saved") ==> !Throws(body) && forall f ::
        (f in row <==> f in old(row) || FieldUpdate(body, f).Some?)
        && (f in row ==> row[f] == if FieldUpdate(body, f).Some? then FieldUpdate(body, f).value else old(row)[f])
    {
      if user.None? {
        return ErrorReply(401, "Unauthorized");
      }
      var updates := BuildUpdates(body);
      if updates.Failure? {
        return ErrorReply(500, TYPE_ERROR);
      }
      if |updates.value| == 0 {
        return MessageReply("No changes");
      }
      if !writeOk {
        return ErrorReply(500, "Failed to save settings");
      }
      row := row + updates.value;
      return MessageReply("Settings saved");
    }
  }
}

=== FILE: bots_route.dfy ===
/** Creating a bot: the name check and the defaults filled in for the
    optional fields. The body is a JSON object, read with JavaScript's
    property semantics; the database insert's outcome is a parameter. */
module BotsRoute {
  import opened Wrappers
  import opened Text
  import opened Json

  const DEFAULT_DESCRIPTION: String := ""
  const DEFAULT_WELCOME_MESSAGE: String := "Hi! How can I help you today?"
  const DEFAULT_SYSTEM_PROMPT: String := "You are a helpful customer support assistant."
  const DEFAULT_THEME_COLOR: String := "#3B82F6"
  const DEFAULT_MODEL: String := "gpt-4o-mini"

  /** `body.key`: an absent property reads as `undefined`. */
  function Field(body: Record, key: String): Value {
    if key in body then body[key] else Undefined
  }

  /** The row handed to the insert. */
  datatype BotRow = BotRow(
    name: String, description: Value, welcomeMessage: Value, systemPrompt: Value,
    themeColor: Value, model: Value, userId: String)

  datatype BotReply = ErrorReply(status: nat, message: String) | Created(row: BotRow)

  /** The reply and the row the table gained, if any. */
  datatype Outcome = Outcome(reply: BotReply, inserted: Option<BotRow>)

  /** A usable name: a string with something other than white space in it. */
  predicate ValidName(v: Value) {
    v.Str? && !IsBlank(v.s)
  }

  /** The row for a valid body: the name as sent, each optional field or its
      default when falsy, and the signed-in user as owner. */
  function NewBotRow(userId: String, body: Record): (row: BotRow)
    requires ValidName(Field(body, "name"))
    ensures row.name == Field(body, "name").s && row.userId == userId
    ensures Truthy(row.description) || row.description == Str(DEFAULT_DESCRIPTION)
    ensures Truthy(row.welcomeMessage) && Truthy(row.systemPrompt) && Truthy(row.themeColor) && Truthy(row.model)
  {
    BotRow(
      Field(body, "name").s,
      Or(Field(body, "description"), Str(DEFAULT_DESCRIPTION)),
      Or(Field(body, "welcome_message"), Str(DEFAULT_WELCOME_MESSAGE)),
      Or(Field(body, "system_prompt"), Str(DEFAULT_SYSTEM_PROMPT)),
      Or(Field(body, "theme_color"), Str(DEFAULT_THEME_COLOR)),
      Or(Field(body, "model"), Str(DEFAULT_MODEL)),
      userId)
  }

  /** `POST`: 401 without a user, 400 for a missing or blank name (nothing is
      inserted), 500 with the database's message when the insert fails,
      otherwise 201 with the new row. */
  function CreateBot(user: Option<String>, body: Record, insertError: Option<String>): (out: Outcome)
    ensures out.inserted.Some? <==> out.reply.Created?
    ensures out.reply.Created? ==> out.inserted == Some(out.reply.row)
    ensures user.None? ==> out.reply == ErrorReply(401, "Unauthorized")
    ensures user.Some? && !ValidName(Field(body, "name")) ==> out.reply == ErrorReply(400, "Bot name is required")
    ensures user.Some? && ValidName(Field(body, "name")) && insertError.Some? ==>
      out.reply == ErrorReply(500, insertError.value)
  {
    if user.None? then Outcome(ErrorReply(401, "Unauthorized"), None)
    else if !ValidName(Field(body, "name")) then Outcome(ErrorReply(400, "Bot name is required"), None)
    else if insertError.Some? then Outcome(ErrorReply(500, insertError.value), None)
    else
      var row := NewBotRow(user.value, body);
      Outcome(Created(row), Some(row))
  }

  /** A created bot belongs to the caller and keeps its name exactly as sent,
      surrounding white space included; only a name with visible content
      gets that far. */
  lemma CreatedBotKeepsName(user: Option<String>, body: Record, insertError: Option<String>)
    ensures var out := CreateBot(user, body, insertError);
      out.reply.Created? ==>
        && user.Some? && out.reply.row.userId == user.value
        && Field(body, "name").Str? && out.reply.row.name == Field(body, "name").s
        && Trim(out.reply.row.name) != []
  {
  }

  /** Each optional field is kept when truthy and replaced by its fixed
      default when falsy (absent, `null`, `''`, `false`, `0`). */
  lemma DefaultsFillFalsyFields(user: String, body: Record)
    requires ValidName(Field(body, "name"))
    ensures var out := CreateBot(Some(user), body, None);
      var row := out.reply.row;
      && out.reply.Created?
      && row.description == (if Truthy(Field(body, "description")) then Field(body, "description") else Str(DEFAULT_DESCRIPTION))
      && row.welcomeMessage == (if Truthy(Field(body, "welcome_message")) then Field(body, "welcome_message") else Str(DEFAULT_WELCOME_MESSAGE))
      && row.systemPrompt == (if Truthy(Field(body, "system_prompt")) then Field(body, "system_prompt") else Str(DEFAULT_SYSTEM_PROMPT))
      && row.themeColor == (if Truthy(Field(body, "theme_color")) then Field(body, "theme_color") else Str(DEFAULT_THEME_COLOR))
      && row.model == (if Truthy(Field(body, "model")) then Field(body, "model") else Str(DEFAULT_MODEL))
  {
  }

  /** A name that is blank after trimming is refused, whatever else the body
      holds, and nothing is inserted. */
  lemma BlankNameRefused(user: String, body: Record, name: String, insertError: Option<String>)
    requires IsBlank(name)
    ensures CreateBot(Some(user), body["name" := Str(name)], insertError)
      == Outcome(ErrorReply(400, "Bot name is required"), None)
  {
  }
}

=== FILE: chat_provider.dfy ===
/** The chat transports: the choice between the Anthropic and the
    OpenAI-compatible transport, and what each yields from its vendor's
    event stream. The vendor endpoints are parameters: functions from the
    request each transport sends to the stream of events it gets back. */
module ChatProvider {
  import opened Wrappers
  import opened Text
  import opened Streams
  import Providers

  datatype Role = System | User | Assistant

  datatype ChatMessage = ChatMessage(role: Role, content: String)

  /** A user's provider choice and credentials. */
  datatype AIConfig = AIConfig(provider: String, apiKey: String, baseUrl: Option<String>)

  /** The options of one streamed completion. `aiConfig` is `None` when a
      caller leaves the field out. */
  datatype StreamChatOptions = StreamChatOptions(
    model: String, temperature: real, maxTokens: int, messages: seq<ChatMessage>, aiConfig: Option<AIConfig>)

  /** What the OpenAI-compatible transport sends. */
  datatype OpenAIRequest = OpenAIRequest(
    apiKey: String, baseUrl: Option<String>, model: String, temperature: real, maxTokens: int,
    messages: seq<ChatMessage>)

  /** One streamed completion chunk: the first choice's delta content, if
      the chunk has one. */
  datatype OpenAIChunk = OpenAIChunk(deltaContent: Option<String>)

  /** What the Anthropic transport sends: the system text apart from the
      conversation turns. */
  datatype AnthropicRequest = AnthropicRequest(
    apiKey: String, baseUrl: Option<String>, model: String, maxTokens: int, temperature: real,
    system: String, messages: seq<ChatMessage>)

  datatype AnthropicDelta = TextDelta(text: String) | OtherDelta(deltaType: String)

  /** A message-stream event; only content-block deltas carry text. */
  datatype AnthropicEvent = ContentBlockDelta(delta: AnthropicDelta) | OtherEvent(eventType: String)

  datatype Vendors = Vendors(
    openai: OpenAIRequest -> Stream<OpenAIChunk>,
    anthropic: AnthropicRequest -> Stream<AnthropicEvent>)

  const API_KEY_ERROR: String := "API Key is not configured. Please set it in Settings."
  const ANTHROPIC_ERROR_PREFIX: String := "Anthropic API error: "
  /** The error reading `provider` of a missing configuration raises. */
  const MISSING_CONFIG_ERROR: String := "TypeError: Cannot read properties of undefined (reading 'provider')"

  /** `shouldUseAnthropicSdk`: the preset of the provider exists and its
      flag is `true`. */
  predicate ShouldUseAnthropicSdk(config: AIConfig) {
    var preset := Providers.GetPresetById(config.provider);
    preset.Some? && preset.value.useAnthropicSdk == Some(true)
  }

  /** Given the preset table, the Anthropic transport serves exactly the
      `anthropic` provider; every other id, known or not, goes to the
      OpenAI-compatible transport. */
  lemma AnthropicSdkExactlyForAnthropic(config: AIConfig)
    ensures ShouldUseAnthropicSdk(config) <==> config.provider == "anthropic"
  {
    Providers.LookupById(config.provider);
    Providers.OnlyAnthropicUsesSdk();
    if config.provider == "anthropic" {
      assert Providers.PROVIDER_PRESETS[1].id == "anthropic";
    }
  }

  /** `baseUrl || undefined`. */
  function BaseUrlOption(baseUrl: Option<String>): (r: Option<String>)
    ensures r.Some? <==> baseUrl.Some? && baseUrl.value != []
    ensures r.Some? ==> r == baseUrl
  {
    if baseUrl.Some? && baseUrl.value != [] then baseUrl else None
  }

  /** `chunk.choices[0]?.delta?.content || ''`, kept only when non-empty. */
  function OpenAIText(chunk: OpenAIChunk): Option<String> {
    if chunk.deltaContent.Some? && chunk.deltaContent.value != [] then Some(chunk.deltaContent.value) else None
  }

  /** A text delta of a content block, empty or not. */
  function AnthropicText(event: AnthropicEvent): Option<String> {
    match event
    case ContentBlockDelta(TextDelta(text)) => Some(text)
    case _ => None
  }

  function KeepNonSystem(m: ChatMessage): Option<ChatMessage> {
    if m.role != System then Some(m) else None
  }

  /** The conversation turns: the messages that are not system messages,
      in their order. */
  function NonSystem(messages: seq<ChatMessage>): seq<ChatMessage> {
    FilterMap(messages, KeepNonSystem)
  }

  /** Extending the messages by one extends the turns by that message
      unless it is a system message. */
  lemma NonSystemSnoc(messages: seq<ChatMessage>, i: nat)
    requires i < |messages|
    ensures NonSystem(messages[..i + 1])
         == NonSystem(messages[..i]) + if messages[i].role != System then [messages[i]] else []
  {
    assert messages[..i + 1] == messages[..i] + [messages[i]];
    FilterMapAppend(messages[..i], [messages[i]], KeepNonSystem);
    assert FilterMap([messages[i]], KeepNonSystem) == if messages[i].role != System then [messages[i]] else [] by {
      assert [messages[i]][1..] == [];
    }
  }

  /** Filtering keeps exactly the non-system messages, unchanged and in
      order. */
  lemma NonSystemSelects(messages: seq<ChatMessage>)
    ensures forall k | 0 <= k < |NonSystem(messages)| :: NonSystem(messages)[k] in messages && NonSystem(messages)[k].role != System
    ensures forall i | 0 <= i < |messages| && messages[i].role != System ::
      CountKept(messages[..i], KeepNonSystem) < |NonSystem(messages)|
      && NonSystem(messages)[CountKept(messages[..i], KeepNonSystem)] == messages[i]
    ensures (forall i | 0 <= i < |messages| :: messages[i].role != System) ==> NonSystem(messages) == messages
  {
    forall k | 0 <= k < |NonSystem(messages)|
      ensures NonSystem(messages)[k] in messages && NonSystem(messages)[k].role != System
    {
      FilterMapFrom(messages, KeepNonSystem, k);
    }
    forall i | 0 <= i < |messages| && messages[i].role != System
      ensures CountKept(messages[..i], KeepNonSystem) < |NonSystem(messages)|
      ensures NonSystem(messages)[CountKept(messages[..i], KeepNonSystem)] == messages[i]
    {
      FilterMapPlaces(messages, KeepNonSystem, i);
    }
    if forall i | 0 <= i < |messages| :: messages[i].role != System {
      FilterMapKeepsAll(messages, KeepNonSystem);
    }
  }

  predicate IsFirstSystem(messages: seq<ChatMessage>, j: int) {
    0 <= j < |messages| && messages[j].role == System
    && forall k | 0 <= k < j :: messages[k].role != System
  }

  /** `messages.find(m => m.role === 'system')?.content ?? ''`: the content
      of the first system message, or `''` when there is none. */
  function SystemParam(messages: seq<ChatMessage>): (r: String)
    ensures (forall i | 0 <= i < |messages| :: messages[i].role != System) ==> r == []
    ensures (exists i | 0 <= i < |messages| :: messages[i].role == System) ==>
      exists j :: IsFirstSystem(messages, j) && r == messages[j].content
    decreases |messages|
  {
    if |messages| == 0 then []
    else if messages[0].role == System then
      assert IsFirstSystem(messages, 0);
      messages[0].content
    else
      var tail := messages[1..];
      var r := SystemParam(tail);
      assert (forall i | 0 <= i < |messages| :: messages[i].role != System) ==>
        (forall i | 0 <= i < |tail| :: tail[i].role != System) by {
        forall i | 0 <= i < |tail| ensures tail[i] == messages[i + 1] { }
      }
      assert (exists i | 0 <= i < |messages| :: messages[i].role == System) ==>
        exists j :: IsFirstSystem(messages, j) && r == messages[j].content by {
        if exists i | 0 <= i < |messages| :: messages[i].role == System {
          var i :| 0 <= i < |messages| && messages[i].role == System;
          assert tail[i - 1] == messages[i];
          var j :| IsFirstSystem(tail, j) && r == tail[j].content;
          assert messages[j + 1] == tail[j];
          forall k | 0 <= k < j + 1 ensures messages[k].role != System {
            if k > 0 { assert messages[k] == tail[k - 1]; }
          }
          assert IsFirstSystem(messages, j + 1);
        }
      }
      r
  }

  /** `streamOpenAI`: no key throws before anything is sent; otherwise the
      non-empty delta texts, in order, and the vendor's error unchanged. */
  function StreamOpenAI(model: String, temperature: real, maxTokens: int, messages: seq<ChatMessage>,
                        config: AIConfig, vendor: OpenAIRequest -> Stream<OpenAIChunk>): Stream<String> {
    if config.apiKey == [] then Stream([], Some(API_KEY_ERROR))
    else
      var events := vendor(OpenAIRequest(config.apiKey, BaseUrlOption(config.baseUrl), model, temperature, maxTokens, messages));
      Stream(FilterMap(events.items, OpenAIText), events.failure)
  }

  /** `streamAnthropic`: no key throws before anything is sent; otherwise
      the texts of the text deltas, in order, and the vendor's error with
      the Anthropic prefix. */
  function StreamAnthropic(model: String, temperature: real, maxTokens: int, messages: seq<ChatMessage>,
                           config: AIConfig, vendor: AnthropicRequest -> Stream<AnthropicEvent>): Stream<String> {
    if config.apiKey == [] then Stream([], Some(API_KEY_ERROR))
    else
      var request := AnthropicRequest(config.apiKey, BaseUrlOption(config.baseUrl), model, maxTokens, temperature,
                                      SystemParam(messages), NonSystem(messages));
      var events := vendor(request);
      Stream(FilterMap(events.items, AnthropicText),
             if events.failure.Some? then Some(ANTHROPIC_ERROR_PREFIX + events.failure.value) else None)
  }

  /** `streamChat`: the transport chosen from the preset table. Without a
      configuration the choice itself throws, before anything is yielded. */
  function StreamChat(options: StreamChatOptions, vendors: Vendors): Stream<String> {
    match options.aiConfig
    case None => Stream([], Some(MISSING_CONFIG_ERROR))
    case Some(config) =>
      if ShouldUseAnthropicSdk(config) then
        StreamAnthropic(options.model, options.temperature, options.maxTokens, options.messages, config, vendors.anthropic)
      else
        StreamOpenAI(options.model, options.temperature, options.maxTokens, options.messages, config, vendors.openai)
  }

  /** Both transports refuse an empty key before calling their vendor: the
      outcome is the key error whatever the vendors would do. */
  lemma EmptyKeyRefused(options: StreamChatOptions, vendors: Vendors)
    requires options.aiConfig.Some? && options.aiConfig.value.apiKey == []
    ensures StreamChat(options, vendors) == Stream([], Some(API_KEY_ERROR))
  {
  }

  /** A missing configuration yields nothing and fails, whatever the
      vendors would do. */
  lemma MissingConfigFails(options: StreamChatOptions, vendors: Vendors)
    requires options.aiConfig.None?
    ensures StreamChat(options, vendors).items == [] && StreamChat(options, vendors).failure.Some?
  {
  }

  /** The OpenAI-compatible transport sends the options unchanged (an empty
      base URL as none) and yields exactly the non-empty delta texts, each
      at the position given by the non-empty ones before it; its error is
      the vendor's. */
  lemma OpenAITransport(model: String, temperature: real, maxTokens: int, messages: seq<ChatMessage>,
                        config: AIConfig, vendor: OpenAIRequest -> Stream<OpenAIChunk>)
    requires config.apiKey != []
    ensures var request := OpenAIRequest(config.apiKey, BaseUrlOption(config.baseUrl), model, temperature, maxTokens, messages);
      var events := vendor(request).items;
      var out := StreamOpenAI(model, temperature, maxTokens, messages, config, vendor);
      && out.failure == vendor(request).failure
      && |out.items| == CountKept(events, OpenAIText)
      && (forall k | 0 <= k < |out.items| :: out.items[k] != [])
      && (forall i | 0 <= i < |events| && events[i].deltaContent.Some? && events[i].deltaContent.value != [] ::
            CountKept(events[..i], OpenAIText) < |out.items|
            && out.items[CountKept(events[..i], OpenAIText)] == events[i].deltaContent.value)
  {
    var request := OpenAIRequest(config.apiKey, BaseUrlOption(config.baseUrl), model, temperature, maxTokens, messages);
    var events := vendor(request).items;
    FilterMapLength(events, OpenAIText);
    forall k | 0 <= k < |FilterMap(events, OpenAIText)|
      ensures FilterMap(events, OpenAIText)[k] != []
    {
      FilterMapFrom(events, OpenAIText, k);
    }
    forall i | 0 <= i < |events| && events[i].deltaContent.Some? && events[i].deltaContent.value != []
      ensures CountKept(events[..i], OpenAIText) < |FilterMap(events, OpenAIText)|
      ensures FilterMap(events, OpenAIText)[CountKept(events[..i], OpenAIText)] == events[i].deltaContent.value
    {
      FilterMapPlaces(events, OpenAIText, i);
    }
  }

  /** The Anthropic transport sends the first system text (or `''`) apart
      from the non-system turns, yields exactly the text-delta texts in
      order, and prefixes the vendor's error. */
  lemma AnthropicTransport(model: String, temperature: real, maxTokens: int, messages: seq<ChatMessage>,
                           config: AIConfig, vendor: AnthropicRequest -> Stream<AnthropicEvent>)
    requires config.apiKey != []
    ensures var request := AnthropicRequest(config.apiKey, BaseUrlOption(config.baseUrl), model, maxTokens, temperature,
                                            SystemParam(messages), NonSystem(messages));
      var events := vendor(request).items;
      var out := StreamAnthropic(model, temperature, maxTokens, messages, config, vendor);
      && (vendor(request).failure.None? ==> out.failure.None?)
      && (vendor(request).failure.Some? ==> out.failure == Some(ANTHROPIC_ERROR_PREFIX + vendor(request).failure.value))
      && |out.items| == CountKept(events, AnthropicText)
      && (forall i | 0 <= i < |events| && events[i].ContentBlockDelta? && events[i].delta.TextDelta? ::
            CountKept(events[..i], AnthropicText) < |out.items|
            && out.items[CountKept(events[..i], AnthropicText)] == events[i].delta.text)
  {
    var request := AnthropicRequest(config.apiKey, BaseUrlOption(config.baseUrl), model, maxTokens, temperature,
                                    SystemParam(messages), NonSystem(messages));
    var events := vendor(request).items;
    FilterMapLength(events, AnthropicText);
    forall i | 0 <= i < |events| && events[i].ContentBlockDelta? && events[i].delta.TextDelta?
      ensures CountKept(events[..i], AnthropicText) < |FilterMap(events, AnthropicText)|
      ensures FilterMap(events, AnthropicText)[CountKept(events[..i], AnthropicText)] == events[i].delta.text
    {
      FilterMapPlaces(events, AnthropicText, i);
    }
  }

  /** `streamChat` yields exactly what the selected transport yields: the
      Anthropic one for the `anthropic` provider, the OpenAI-compatible one
      for every other. */
  lemma StreamChatRoutes(options: StreamChatOptions, vendors: Vendors)
    requires options.aiConfig.Some?
    ensures var c := options.aiConfig.value;
      && (c.provider == "anthropic" ==>
            StreamChat(options, vendors)
            == StreamAnthropic(options.model, options.temperature, options.maxTokens, options.messages, c, vendors.anthropic))
      && (c.provider != "anthropic" ==>
            StreamChat(options, vendors)
            == StreamOpenAI(options.model, options.temperature, options.maxTokens, options.messages, c, vendors.openai))
  {
    AnthropicSdkExactlyForAnthropic(options.aiConfig.value);
  }
}

=== FILE: chat_route.dfy ===
/** One chat turn: the access checks, the conversation and message rows it
    writes, the prompt it sends, and the server-sent events it answers
    with. The bot lookup, the database writes' outcomes, retrieval and the
    vendors are parameters; the conversation and message tables are
    sequences of rows in creation order. */
module ChatRoute {
  import opened Wrappers
  import opened Text
  import opened Streams
  import Json
  import Embedding
  import Rag
  import ChatProvider

  type Role = ChatProvider.Role
  type ChatMessage = ChatProvider.ChatMessage

  const TITLE_LENGTH: nat := 100
  const SOURCE_PREVIEW_LENGTH: nat := 200
  const HISTORY_LIMIT: nat := 10
  const DEFAULT_CHAT_MODEL: String := "gpt-4o-mini"
  const DEFAULT_TEMPERATURE: real := 0.7
  const DEFAULT_MAX_TOKENS: int := 1000
  const STREAM_INTERRUPTED: String := "Stream interrupted"

  /** The JSON body of a chat request; `""` is a missing field. */
  datatype ChatRequest = ChatRequest(botId: String, message: String, conversationId: String, visitorId: String)

  /** The columns of a bot the route reads. */
  datatype Bot = Bot(
    id: String, userId: String, isPublic: bool, systemPrompt: String,
    model: String, temperature: Option<real>, maxTokens: int)

  /** A source shown with the answer. */
  datatype Source = Source(content: String, metadata: Json.Record, similarity: Option<real>)

  /** The `data:` events of the response stream. */
  datatype ChatEvent =
    | TextEvent(text: String)
    | SourcesEvent(sources: seq<Source>)
    | DoneEvent(conversationId: String)
    | ErrorEvent(error: String)

  datatype ChatResponse = JsonError(status: nat, error: String) | EventStream(events: seq<ChatEvent>)

  datatype ConversationRow = ConversationRow(id: String, botId: String, visitorId: String, title: String)

  datatype MessageRow = MessageRow(conversationId: String, role: Role, content: String, sources: seq<Source>)

  /** The checks before anything is written: both fields present, the bot
      exists, and a private bot is only served to its owner. */
  function CheckChatAccess(req: ChatRequest, bot: Option<Bot>, user: Option<String>): (r: Option<ChatResponse>)
    ensures r.Some? ==> r.value.JsonError? && r.value.status in {400, 404}
    ensures r.None? <==> req.botId != [] && req.message != [] && bot.Some?
                         && (bot.value.isPublic || user == Some(bot.value.userId))
  {
    if req.botId == [] || req.message == [] then Some(JsonError(400, "botId and message are required"))
    else if bot.None? then Some(JsonError(404, "Bot not found"))
    else if !bot.value.isPublic && (user.None? || user.value != bot.value.userId) then
      Some(JsonError(404, "Bot not found or not public"))
    else None
  }

  /** A private bot requested by anyone but its owner reads as not found:
      the route answers 404, never 403, so it does not reveal the bot. */
  lemma PrivateBotHidden(req: ChatRequest, bot: Bot, user: Option<String>)
    requires req.botId != [] && req.message != []
    requires !bot.isPublic && user != Some(bot.userId)
    ensures CheckChatAccess(req, Some(bot), user) == Some(JsonError(404, "Bot not found or not public"))
    ensures CheckChatAccess(req, Some(bot), user) != CheckChatAccess(req, None, user)
  {
  }

  /** A new conversation's title: the first hundred characters of the
      message. */
  function ConversationTitle(message: String): (title: String)
    ensures title <= message
    ensures |title| == if |message| < TITLE_LENGTH then |message| else TITLE_LENGTH
  {
    Take(message, TITLE_LENGTH)
  }

  /** `visitorId || anon_${now}`. */
  function VisitorIdFor(visitorId: String, now: nat): (v: String)
    ensures v != []
    ensures visitorId != [] ==> v == visitorId
    ensures visitorId == [] ==> StartsWith(v, "anon_")
  {
    if visitorId != [] then visitorId else "anon_" + NatToDecimal(now)
  }

  function SourceOf(context: Rag.RetrievedContext): Source {
    Source(Take(context.content, SOURCE_PREVIEW_LENGTH), context.metadata, context.similarity)
  }

  /** `contexts.map(...)`: one source per retrieved chunk. */
  function SourcesOf(contexts: seq<Rag.RetrievedContext>): seq<Source> {
    seq(|contexts|, i requires 0 <= i < |contexts| => SourceOf(contexts[i]))
  }

  /** One source per retrieved chunk, in order: its content is the first
      two hundred characters of the chunk, and its metadata and similarity
      are the chunk's. */
  lemma SourcesPreviewContexts(contexts: seq<Rag.RetrievedContext>)
    ensures |SourcesOf(contexts)| == |contexts|
    ensures forall i | 0 <= i < |contexts| ::
      && SourcesOf(contexts)[i].content <= contexts[i].content
      && |SourcesOf(contexts)[i].content| == (if |contexts[i].content| < 200 then |contexts[i].content| else 200)
      && SourcesOf(contexts)[i].metadata == contexts[i].metadata
      && SourcesOf(contexts)[i].similarity == contexts[i].similarity
  {
  }

  /** A stored row as a chat message when it belongs to the conversation. */
  function TurnOf(conversationId: String): MessageRow -> Option<ChatMessage> {
    (row: MessageRow) => if row.conversationId == conversationId then Some(ChatProvider.ChatMessage(row.role, row.content)) else None
  }

  /** The stored rows of one conversation, in creation order, as chat
      messages. */
  function HistoryOf(rows: seq<MessageRow>, conversationId: String): seq<ChatMessage> {
    FilterMap(rows, TurnOf(conversationId))
  }

  /** The message is the role and content of a stored row of the
      conversation. */
  predicate StoredTurn(rows: seq<MessageRow>, conversationId: String, m: ChatMessage) {
    exists i | 0 <= i < |rows| ::
      rows[i].conversationId == conversationId && m == ChatProvider.ChatMessage(rows[i].role, rows[i].content)
  }

  /** The history holds exactly the role and content of the conversation's
      rows: one message per such row, each at the place given by how many
      of the conversation's rows came before it, so in creation order, and
      nothing from another conversation. */
  lemma HistoryOfSelects(rows: seq<MessageRow>, conversationId: String)
    ensures |HistoryOf(rows, conversationId)| == CountKept(rows, TurnOf(conversationId)) <= |rows|
    ensures forall k | 0 <= k < |HistoryOf(rows, conversationId)| ::
      StoredTurn(rows, conversationId, HistoryOf(rows, conversationId)[k])
    ensures forall i | 0 <= i < |rows| && rows[i].conversationId == conversationId ::
      CountKept(rows[..i], TurnOf(conversationId)) < |HistoryOf(rows, conversationId)|
      && HistoryOf(rows, conversationId)[CountKept(rows[..i], TurnOf(conversationId))]
        == ChatProvider.ChatMessage(rows[i].role, rows[i].content)
    ensures forall i, j | 0 <= i < j < |rows| && rows[i].conversationId == conversationId ::
      CountKept(rows[..i], TurnOf(conversationId)) < CountKept(rows[..j], TurnOf(conversationId))
  {
    var f := TurnOf(conversationId);
    FilterMapLength(rows, f);
    CountKeptAtMost(rows, f);
    forall k | 0 <= k < |HistoryOf(rows, conversationId)|
      ensures StoredTurn(rows, conversationId, HistoryOf(rows, conversationId)[k])
    {
      FilterMapFrom(rows, f, k);
      var i :| 0 <= i < |rows| && f(rows[i]) == Some(HistoryOf(rows, conversationId)[k]);
      assert rows[i].conversationId == conversationId;
      assert HistoryOf(rows, conversationId)[k] == ChatProvider.ChatMessage(rows[i].role, rows[i].content);
    }
    forall i | 0 <= i < |rows| && rows[i].conversationId == conversationId
      ensures CountKept(rows[..i], f) < |HistoryOf(rows, conversationId)|
      ensures HistoryOf(rows, conversationId)[CountKept(rows[..i], f)] == ChatProvider.ChatMessage(rows[i].role, rows[i].content)
    {
      FilterMapPlaces(rows, f, i);
    }
    forall i, j | 0 <= i < j < |rows| && rows[i].conversationId == conversationId
      ensures CountKept(rows[..i], f) < CountKept(rows[..j], f)
    {
      CountKeptGrows(rows, f, i, j);
    }
  }

  /** The retrieved chunks' texts, in order. */
  function ContentsOf(contexts: seq<Rag.RetrievedContext>): (cs: seq<String>)
    ensures |cs| == |contexts|
    ensures forall i | 0 <= i < |contexts| :: cs[i] == contexts[i].content
  {
    seq(|contexts|, i requires 0 <= i < |contexts| => contexts[i].content)
  }

  /** The prompt list: the system entry, the non-system history, and the
      current message unless the list already ends with it. */
  function PromptMessages(systemPrompt: String, history: seq<ChatMessage>, message: String): seq<ChatMessage> {
    var base := [ChatProvider.ChatMessage(ChatProvider.System, systemPrompt)] + ChatProvider.NonSystem(history);
    var last := base[|base| - 1];
    if last.role != ChatProvider.User || last.content != message then
      base + [ChatProvider.ChatMessage(ChatProvider.User, message)]
    else base
  }

  /** The prompt starts with its one system entry; every later entry is a
      history turn in history order and not a system message; it always ends
      with the current message from the user, which is added exactly when
      the history does not already end with it. */
  lemma PromptMessagesShape(systemPrompt: String, history: seq<ChatMessage>, message: String)
    ensures var ms := PromptMessages(systemPrompt, history, message);
      var turns := ChatProvider.NonSystem(history);
      var userMessage := ChatProvider.ChatMessage(ChatProvider.User, message);
      && |ms| >= 2
      && ms[0] == ChatProvider.ChatMessage(ChatProvider.System, systemPrompt)
      && ms[1..1 + |turns|] == turns
      && (forall k | 1 <= k < |ms| :: ms[k].role != ChatProvider.System)
      && ms[|ms| - 1] == userMessage
      && (|ms| == 1 + |turns| <==> |turns| > 0 && turns[|turns| - 1] == userMessage)
  {
    var turns := ChatProvider.NonSystem(history);
    var userMessage := ChatProvider.ChatMessage(ChatProvider.User, message);
    var sys := ChatProvider.ChatMessage(ChatProvider.System, systemPrompt);
    var base := [sys] + turns;
    assert forall k | 0 <= k < |turns| :: turns[k].role != ChatProvider.System by {
      ChatProvider.NonSystemSelects(history);
    }
    assert base[|base| - 1] == if |turns| > 0 then turns[|turns| - 1] else sys;
    var extra := if base[|base| - 1] != userMessage then [userMessage] else [];
    assert PromptMessages(systemPrompt, history, message) == [sys] + turns + extra;
    PromptParts(sys, turns, extra, userMessage);
  }

  /** The shape of a system entry, non-system turns and the user's message
      when the turns do not already end with it. */
  lemma PromptParts(sys: ChatMessage, turns: seq<ChatMessage>, extra: seq<ChatMessage>, userMessage: ChatMessage)
    requires sys.role == ChatProvider.System && userMessage.role == ChatProvider.User
    requires forall k | 0 <= k < |turns| :: turns[k].role != ChatProvider.System
    requires extra == if (if |turns| > 0 then turns[|turns| - 1] else sys) != userMessage then [userMessage] else []
    ensures var ms := [sys] + turns + extra;
      && |ms| >= 2
      && ms[0] == sys
      && ms[1..1 + |turns|] == turns
      && (forall k | 1 <= k < |ms| :: ms[k].role != ChatProvider.System)
      && ms[|ms| - 1] == userMessage
      && (|ms| == 1 + |turns| <==> |turns| > 0 && turns[|turns| - 1] == userMessage)
  {
    ThreeParts(sys, turns, extra);
  }

  /** Where the parts of `[x] + mid + extra` sit. */
  lemma ThreeParts<T>(x: T, mid: seq<T>, extra: seq<T>)
    ensures var ms := [x] + mid + extra;
      && |ms| == 1 + |mid| + |extra|
      && ms[0] == x && ms[1..1 + |mid|] == mid
      && (forall k | 1 <= k < 1 + |mid| :: ms[k] == mid[k - 1])
      && (forall k | 1 + |mid| <= k < |ms| :: ms[k] == extra[k - 1 - |mid|])
  {
  }

  /** The message list of `POST`, built with a loop over the history. */
  method BuildPromptMessages(systemPrompt: String, history: seq<ChatMessage>, message: String)
    returns (messages: seq<ChatMessage>)
    ensures messages == PromptMessages(systemPrompt, history, message)
  {
    messages := [ChatProvider.ChatMessage(ChatProvider.System, systemPrompt)];
    var i := 0;
    while i < |history|
      invariant 0 <= i <= |history|
      invariant messages == [ChatProvider.ChatMessage(ChatProvider.System, systemPrompt)]
                            + ChatProvider.NonSystem(history[..i])
    {
      ChatProvider.NonSystemSnoc(history, i);
      if history[i].role != ChatProvider.System {
        messages := messages + [ChatProvider.ChatMessage(history[i].role, history[i].content)];
      }
      i := i + 1;
    }
    assert history[..|history|] == history;
    var lastMsg := messages[|messages| - 1];
    if lastMsg.role != ChatProvider.User || lastMsg.content != message {
      messages := messages + [ChatProvider.ChatMessage(ChatProvider.User, message)];
    }
  }

  function TextEvents(texts: seq<String>): (events: seq<ChatEvent>)
    ensures |events| == |texts|
    ensures forall i | 0 <= i < |texts| :: events[i] == TextEvent(texts[i])
  {
    seq(|texts|, i requires 0 <= i < |texts| => TextEvent(texts[i]))
  }

  /** The events of a turn whose transport yields `stream`. */
  function TurnEvents(stream: Stream<String>, sources: seq<Source>, conversationId: String): seq<ChatEvent> {
    TextEvents(stream.items)
    + if stream.failure.Some? then [ErrorEvent(STREAM_INTERRUPTED)]
      else (if |sources| > 0 then [SourcesEvent(sources)] else []) + [DoneEvent(conversationId)]
  }

  /** Every delta becomes a text event, in order, before anything else; the
      turn ends with exactly one terminal event, `done` with the
      conversation id when the transport finished and the interruption
      error when it threw; the sources event, present exactly when there
      are sources, comes just before `done`. */
  lemma TurnEventsShape(stream: Stream<String>, sources: seq<Source>, conversationId: String)
    ensures var events := TurnEvents(stream, sources, conversationId);
      var n := |stream.items|;
      && n < |events|
      && (forall i | 0 <= i < n :: events[i] == TextEvent(stream.items[i]))
      && (forall i | 0 <= i < |events| - 1 :: !events[i].DoneEvent? && !events[i].ErrorEvent?)
      && (stream.failure.Some? <==> events[|events| - 1] == ErrorEvent(STREAM_INTERRUPTED))
      && (stream.failure.None? <==> events[|events| - 1] == DoneEvent(conversationId))
      && (stream.failure.None? ==> (|events| == n + 2 <==> |sources| > 0))
      && (stream.failure.None? && |sources| > 0 ==> events[n] == SourcesEvent(sources))
      && (stream.failure.Some? ==> |events| == n + 1)
  {
  }

  /** The `start` callback of the response stream: every delta is relayed
      and accumulated; after a clean end the sources (if any) and `done`
      follow; after a throw, the interruption error. Returns the events, the
      accumulated answer, and whether the answer is to be stored. */
  method RelayStream(stream: Stream<String>, sources: seq<Source>, conversationId: String)
    returns (events: seq<ChatEvent>, fullResponse: String, completed: bool)
    ensures events == TurnEvents(stream, sources, conversationId)
    ensures fullResponse == Concat(stream.items)
    ensures completed <==> stream.failure.None?
  {
    events := [];
    fullResponse := "";
    var i := 0;
    while i < |stream.items|
      invariant 0 <= i <= |stream.items|
      invariant events == TextEvents(stream.items[..i])
      invariant fullResponse == Concat(stream.items[..i])
    {
      assert stream.items[..i + 1] == stream.items[..i] + [stream.items[i]];
      ConcatAppend(stream.items[..i], stream.items[i]);
      fullResponse := fullResponse + stream.items[i];
      events := events + [TextEvent(stream.items[i])];
      i := i + 1;
    }
    assert stream.items[..i] == stream.items;
    if stream.failure.Some? {
      events := events + [ErrorEvent(STREAM_INTERRUPTED)];
      completed := false;
    } else {
      if |sources| > 0 {
        events := events + [SourcesEvent(sources)];
      }
      events := events + [DoneEvent(conversationId)];
      completed := true;
    }
  }

  /** The options `POST` hands to `streamChat`, with the bot's defaults:
      model `gpt-4o-mini` when empty, temperature 0.7 when absent, 1000
      tokens when zero. */
  function TurnOptions(bot: Bot, messages: seq<ChatMessage>, aiConfig: Option<ChatProvider.AIConfig>)
    : (o: ChatProvider.StreamChatOptions)
    ensures o.model == (if bot.model != [] then bot.model else DEFAULT_CHAT_MODEL)
    ensures o.temperature == (if bot.temperature.Some? then bot.temperature.value else DEFAULT_TEMPERATURE)
    ensures o.maxTokens == (if bot.maxTokens != 0 then bot.maxTokens else DEFAULT_MAX_TOKENS)
    ensures o.messages == messages && o.aiConfig == aiConfig
  {
    ChatProvider.StreamChatOptions(
      if bot.model != [] then bot.model else DEFAULT_CHAT_MODEL,
      bot.temperature.GetOr(DEFAULT_TEMPERATURE),
      if bot.maxTokens != 0 then bot.maxTokens else DEFAULT_MAX_TOKENS,
      messages, aiConfig)
  }

  /** As the route is written, `streamChat` receives no configuration: the
      transport choice throws on the first read, so every turn that gets
      this far answers with the interruption error alone and stores no
      answer. */
  lemma AsWrittenTurnInterrupted(bot: Bot, messages: seq<ChatMessage>, sources: seq<Source>,
                                 conversationId: String, vendors: ChatProvider.Vendors)
    ensures var stream := ChatProvider.StreamChat(TurnOptions(bot, messages, None), vendors);
      TurnEvents(stream, sources, conversationId) == [ErrorEvent(STREAM_INTERRUPTED)]
      && stream.failure.Some?
  {
  }

  /** With the owner's configuration supplied, a turn relays the selected
      transport's deltas as text events in order and, when the transport
      finishes, ends with `done`; what the turn then stores is stated by
      `TurnAnswerOutcomes` and `RelayOutcome`. */
  lemma ConfiguredTurnStreams(bot: Bot, messages: seq<ChatMessage>, sources: seq<Source>,
                              conversationId: String, config: ChatProvider.AIConfig, vendors: ChatProvider.Vendors)
    requires config.apiKey != []
    ensures var stream := ChatProvider.StreamChat(TurnOptions(bot, messages, Some(config)), vendors);
      var transport := if config.provider == "anthropic"
        then ChatProvider.StreamAnthropic(TurnOptions(bot, messages, Some(config)).model, TurnOptions(bot, messages, Some(config)).temperature,
                                         TurnOptions(bot, messages, Some(config)).maxTokens, messages, config, vendors.anthropic)
        else ChatProvider.StreamOpenAI(TurnOptions(bot, messages, Some(config)).model, TurnOptions(bot, messages, Some(config)).temperature,
                                       TurnOptions(bot, messages, Some(config)).maxTokens, messages, config, vendors.openai);
      var events := TurnEvents(stream, sources, conversationId);
      && stream == transport
      && events[..|transport.items|] == TextEvents(transport.items)
      && (transport.failure.None? ==> events[|events| - 1] == DoneEvent(conversationId))
  {
    ChatProvider.StreamChatRoutes(TurnOptions(bot, messages, Some(config)), vendors);
    var stream := ChatProvider.StreamChat(TurnOptions(bot, messages, Some(config)), vendors);
    TurnEventsShape(stream, sources, conversationId);
  }

  /** The configuration the per-bot chat route builds from the owner's
      profile (`""` for a missing or null column): `ai_provider || 'openai'`,
      `ai_api_key || ''`, and `ai_base_url || undefined`. */
  function OwnerAIConfig(provider: String, apiKey: String, baseUrl: String): ChatProvider.AIConfig {
    ChatProvider.AIConfig(if provider != [] then provider else "openai", apiKey,
                          if baseUrl != [] then Some(baseUrl) else None)
  }

  /** With the owner's configuration passed and a key stored, a turn
      streams from the Anthropic transport exactly when the stored provider
      is `anthropic`, and from the OpenAI one otherwise, an unset provider
      included; a completed stream ends the turn with `done`. */
  lemma OwnerConfigTurn(bot: Bot, messages: seq<ChatMessage>, sources: seq<Source>, conversationId: String,
                        provider: String, apiKey: String, baseUrl: String, vendors: ChatProvider.Vendors)
    requires apiKey != []
    ensures var config := OwnerAIConfig(provider, apiKey, baseUrl);
      var options := TurnOptions(bot, messages, Some(config));
      var stream := ChatProvider.StreamChat(options, vendors);
      && config.apiKey == apiKey
      && (config.baseUrl.Some? <==> baseUrl != [])
      && (provider == "anthropic" ==>
            stream == ChatProvider.StreamAnthropic(options.model, options.temperature, options.maxTokens, messages, config, vendors.anthropic))
      && (provider != "anthropic" ==>
            stream == ChatProvider.StreamOpenAI(options.model, options.temperature, options.maxTokens, messages, config, vendors.openai))
      && (stream.failure.None? ==>
            var events := TurnEvents(stream, sources, conversationId); events[|events| - 1] == DoneEvent(conversationId))
  {
    var config := OwnerAIConfig(provider, apiKey, baseUrl);
    assert config.provider == "anthropic" <==> provider == "anthropic";
    ConfiguredTurnStreams(bot, messages, sources, conversationId, config, vendors);
  }

  /** The outcomes of everything a turn consults besides the request: the
      caller, the bot row, the new conversation's id and whether inserting
      it works, the clock, whether the two message inserts and the history
      read work, retrieval's collaborators, the configuration passed to
      `streamChat` (`None` as the route is written) and the vendors. */
  datatype ChatEnv = ChatEnv(
    user: Option<String>, bot: Option<Bot>, newConversationId: String, conversationInsertOk: bool, now: nat,
    userInsertOk: bool, historyOk: bool, assistantInsertOk: bool,
    embed: Embedding.EmbeddingEnv, search: Rag.Search,
    aiConfig: Option<ChatProvider.AIConfig>, vendors: ChatProvider.Vendors)

  function ConversationIdFor(req: ChatRequest, env: ChatEnv): String {
    if req.conversationId != [] then req.conversationId else env.newConversationId
  }

  /** What a turn that passed the checks answers, given the stored message
      rows at retrieval time: the response, and the answer row to store,
      which holds the concatenated deltas and the sources (none when
      retrieval threw, the stream was interrupted, or the insert failed). */
  function TurnAnswer(req: ChatRequest, env: ChatEnv, bot: Bot, rows: seq<MessageRow>, convId: String)
    : (ChatResponse, seq<MessageRow>)
  {
    var retrieved := Rag.RetrieveContext(req.botId, req.message, env.embed, env.search);
    if retrieved.Failure? then (JsonError(500, "Internal server error"), [])
    else
      var contexts := retrieved.value;
      var contents := ContentsOf(contexts);
      var history := if env.historyOk then Take(HistoryOf(rows, convId), HISTORY_LIMIT) else [];
      var prompt := PromptMessages(Rag.BuildContextPrompt(bot.systemPrompt, contents), history, req.message);
      var stream := ChatProvider.StreamChat(TurnOptions(bot, prompt, env.aiConfig), env.vendors);
      var sources := SourcesOf(contexts);
      (EventStream(TurnEvents(stream, sources, convId)),
       if stream.failure.None? && env.assistantInsertOk
       then [MessageRow(convId, ChatProvider.Assistant, Concat(stream.items), sources)] else [])
  }

  /** The texts a visitor was sent, one after the other. */
  function SentText(events: seq<ChatEvent>): String
    decreases |events|
  {
    if |events| == 0 then []
    else (if events[0].TextEvent? then events[0].text else []) + SentText(events[1..])
  }

  /** The sources a visitor was shown: those of the first sources event, or
      none. */
  function ShownSources(events: seq<ChatEvent>): seq<Source>
    decreases |events|
  {
    if |events| == 0 then []
    else if events[0].SourcesEvent? then events[0].sources
    else ShownSources(events[1..])
  }

  /** Text events for `items` followed by events that carry no text send
      exactly the concatenated items, and show the sources of the tail. */
  lemma {:induction false} SentTextOfEvents(items: seq<String>, tail: seq<ChatEvent>)
    requires forall i | 0 <= i < |tail| :: !tail[i].TextEvent?
    ensures SentText(TextEvents(items) + tail) == Concat(items)
    ensures ShownSources(TextEvents(items) + tail) == ShownSources(tail)
    decreases |items|
  {
    if |items| == 0 {
      assert TextEvents(items) + tail == tail;
      NoTextSent(tail);
    } else {
      var events := TextEvents(items) + tail;
      assert events[0] == TextEvent(items[0]);
      assert events[1..] == TextEvents(items[1..]) + tail;
      SentTextOfEvents(items[1..], tail);
    }
  }

  /** Events without text events send no text. */
  lemma {:induction false} NoTextSent(events: seq<ChatEvent>)
    requires forall i | 0 <= i < |events| :: !events[i].TextEvent?
    ensures SentText(events) == []
    decreases |events|
  {
    if |events| > 0 {
      NoTextSent(events[1..]);
    }
  }

  /** A turn either fails as a whole with a 500 and stores no answer, which
      happens exactly when retrieval throws, or answers with an event
      stream. An answer row is stored only when that stream ends with
      `done`; and when it does and the insert works, exactly one row is
      stored: the assistant's, holding the concatenation of the texts sent
      and the sources shown, which are the retrieved contexts' sources. */
  lemma TurnAnswerOutcomes(req: ChatRequest, env: ChatEnv, bot: Bot, rows: seq<MessageRow>, convId: String)
    ensures var (resp, stored) := TurnAnswer(req, env, bot, rows, convId);
      var retrieved := Rag.RetrieveContext(req.botId, req.message, env.embed, env.search);
      && (resp.JsonError? <==> retrieved.Failure?)
      && (resp.JsonError? ==> resp.status == 500 && stored == [])
      && |stored| <= 1
      && (|stored| == 1 ==> resp.EventStream? && |resp.events| > 0
                            && resp.events[|resp.events| - 1] == DoneEvent(convId)
                            && stored[0].role == ChatProvider.Assistant && stored[0].conversationId == convId
                            && stored[0].sources == SourcesOf(retrieved.value))
      && (resp.EventStream? && |resp.events| > 0 && resp.events[|resp.events| - 1] == DoneEvent(convId) ==>
            stored == if env.assistantInsertOk
                      then [MessageRow(convId, ChatProvider.Assistant, SentText(resp.events), ShownSources(resp.events))]
                      else [])
  {
    var retrieved := Rag.RetrieveContext(req.botId, req.message, env.embed, env.search);
    if retrieved.Success? {
      var contexts := retrieved.value;
      var contents := ContentsOf(contexts);
      var history := if env.historyOk then Take(HistoryOf(rows, convId), HISTORY_LIMIT) else [];
      var prompt := PromptMessages(Rag.BuildContextPrompt(bot.systemPrompt, contents), history, req.message);
      var stream := ChatProvider.StreamChat(TurnOptions(bot, prompt, env.aiConfig), env.vendors);
      RelayOutcome(stream, SourcesOf(contexts), convId, env.assistantInsertOk);
    }
  }

  /** The relayed events and the answer row of a stream: a row is stored
      only after `done`, and after `done` it is stored exactly when the
      insert works, holding the texts sent and the sources shown. */
  lemma RelayOutcome(stream: Stream<String>, sources: seq<Source>, convId: String, insertOk: bool)
    ensures var events := TurnEvents(stream, sources, convId);
      var stored := if stream.failure.None? && insertOk
                    then [MessageRow(convId, ChatProvider.Assistant, Concat(stream.items), sources)] else [];
      && |events| > 0
      && (stream.failure.None? <==> events[|events| - 1] == DoneEvent(convId))
      && (events[|events| - 1] == DoneEvent(convId) ==>
            stored == if insertOk
                      then [MessageRow(convId, ChatProvider.Assistant, SentText(events), ShownSources(events))]
                      else [])
  {
    TurnEventsShape(stream, sources, convId);
    if stream.failure.None? {
      var tail := (if |sources| > 0 then [SourcesEvent(sources)] else []) + [DoneEvent(convId)];
      assert TurnEvents(stream, sources, convId) == TextEvents(stream.items) + tail;
      SentTextOfEvents(stream.items, tail);
      assert ShownSources(tail) == sources by {
        if |sources| == 0 {
          assert tail[1..] == [];
        }
      }
    }
  }

  /** Retrieval, prompt, stream relay and the answer row of a turn, given
      the stored message rows. */
  method ComposeAnswer(req: ChatRequest, env: ChatEnv, bot: Bot, rows: seq<MessageRow>, convId: String)
    returns (resp: ChatResponse, stored: seq<MessageRow>)
    ensures (resp, stored) == TurnAnswer(req, env, bot, rows, convId)
  {
    var retrieved := Rag.RetrieveContext(req.botId, req.message, env.embed, env.search);
    if retrieved.Failure? {
      return JsonError(500, "Internal server error"), [];
    }
    var contexts := retrieved.value;
    var systemPrompt := Rag.BuildContextPrompt(bot.systemPrompt, ContentsOf(contexts));
    var history := if env.historyOk then Take(HistoryOf(rows, convId), HISTORY_LIMIT) else [];
    var prompt := BuildPromptMessages(systemPrompt, history, req.message);
    var sources := SourcesOf(contexts);
    var stream := ChatProvider.StreamChat(TurnOptions(bot, prompt, env.aiConfig), env.vendors);
    var events, fullResponse, completed := RelayStream(stream, sources, convId);
    resp := EventStream(events);
    stored := if completed && env.assistantInsertOk
              then [MessageRow(convId, ChatProvider.Assistant, fullResponse, sources)] else [];
  }

  /** The conversation and message tables. */
  class ChatStore {
    var conversations: seq<ConversationRow>
    var messages: seq<MessageRow>

    constructor ()
      ensures conversations == [] && messages == []
    {
      conversations := [];
      messages := [];
    }

    /** The part of a turn after the user's message is stored: compose the
        answer and store its row. */
    method Answer(req: ChatRequest, env: ChatEnv, bot: Bot, convId: String) returns (resp: ChatResponse)
      modifies this
      ensures resp == TurnAnswer(req, env, bot, old(messages), convId).0
      ensures messages == old(messages) + TurnAnswer(req, env, bot, old(messages), convId).1
      ensures conversations == old(conversations)
    {
      var stored;
      resp, stored := ComposeAnswer(req, env, bot, messages, convId);
      messages := messages + stored;
    }

    /** `POST /api/chat`. A refused request writes nothing. A missing
        conversation id creates a conversation titled by the message's
        first hundred characters, and a failed insert answers 500 and
        writes nothing more; a supplied id is used as it is. The user's
        message is stored before retrieval and history, so the history can
        already hold it; the rest is `TurnAnswer`. */
    method HandleChat(req: ChatRequest, env: ChatEnv) returns (resp: ChatResponse)
      modifies this
      ensures CheckChatAccess(req, env.bot, env.user).Some? ==>
        resp == CheckChatAccess(req, env.bot, env.user).value
        && conversations == old(conversations) && messages == old(messages)
      ensures CheckChatAccess(req, env.bot, env.user).None? && req.conversationId == [] && !env.conversationInsertOk ==>
        resp == JsonError(500, "Failed to create conversation")
        && conversations == old(conversations) && messages == old(messages)
      ensures CheckChatAccess(req, env.bot, env.user).None? && (req.conversationId != [] || env.conversationInsertOk) ==>
        var convId := ConversationIdFor(req, env);
        var created := ConversationRow(env.newConversationId, req.botId, VisitorIdFor(req.visitorId, env.now),
                                       ConversationTitle(req.message));
        var afterUser := old(messages) + (if env.userInsertOk then [MessageRow(convId, ChatProvider.User, req.message, [])] else []);
        && conversations == old(conversations) + (if req.conversationId == [] then [created] else [])
        && resp == TurnAnswer(req, env, env.bot.value, afterUser, convId).0
        && messages == afterUser + TurnAnswer(req, env, env.bot.value, afterUser, convId).1
    {
      var access := CheckChatAccess(req, env.bot, env.user);
      if access.Some? {
        return access.value;
      }
      var convId := req.conversationId;
      if convId == [] {
        if !env.conversationInsertOk {
          return JsonError(500, "Failed to create conversation");
        }
        conversations := conversations + [ConversationRow(env.newConversationId, req.botId,
                                                          VisitorIdFor(req.visitorId, env.now),
                                                          ConversationTitle(req.message))];
        convId := env.newConversationId;
      }
      if env.userInsertOk {
        messages := messages + [MessageRow(convId, ChatProvider.User, req.message, [])];
      }
      assert convId == ConversationIdFor(req, env);
      ghost var rows := messages;
      assert rows == old(messages) + (if env.userInsertOk then [MessageRow(convId, ChatProvider.User, req.message, [])] else []);
      resp := Answer(req, env, env.bot.value, convId);
      assert resp == TurnAnswer(req, env, env.bot.value, rows, convId).0;
      assert messages == rows + TurnAnswer(req, env, env.bot.value, rows, convId).1;
    }
  }

  /** The history is the earliest ten rows of the conversation, not the
      latest: a conversation with more than ten stored rows never shows its
      newest ones to the model, and the current message is then appended
      after them. */
  lemma HistoryIsEarliestTen(rows: seq<MessageRow>, conversationId: String)
    ensures var all := HistoryOf(rows, conversationId);
      var h := Take(all, HISTORY_LIMIT);
      && h <= all && |h| == (if |all| < 10 then |all| else 10)
      && forall i | 0 <= i < |rows| && rows[i].conversationId == conversationId ::
           var before := CountKept(rows[..i], TurnOf(conversationId));
           (before < |h| <==> before < 10)
           && (before < 10 ==> h[before] == ChatProvider.ChatMessage(rows[i].role, rows[i].content))
  {
    HistoryOfSelects(rows, conversationId);
  }
}

=== FILE: chunker.dfy ===
/** The document chunker of the embedding library: sentence splitting, greedy
    packing into chunks of at most `maxChunkSize` characters, and the overlap
    that seeds each new chunk with the end of the previous one. */
module Chunker {
  import opened Text

  const DEFAULT_MAX_CHUNK_SIZE: nat := 500
  const DEFAULT_OVERLAP: nat := 50

  /** The characters after which the sentence splitter may cut. */
  predicate IsTerminator(c: char) {
    c == '.' || c == '!' || c == '?' || c == '。' || c == '！' || c == '？' || c == '\n'
  }

  /** One character of the CJK character class that decides the overlap mode:
      unified ideographs and extension A, CJK punctuation, half- and
      full-width forms, hiragana, katakana and hangul syllables. */
  predicate IsCjkChar(c: char) {
    ('\U{4E00}' <= c <= '\U{9FFF}') || ('\U{3400}' <= c <= '\U{4DBF}')
    || ('\U{3000}' <= c <= '\U{303F}') || ('\U{FF00}' <= c <= '\U{FFEF}')
    || ('\U{3040}' <= c <= '\U{309F}') || ('\U{30A0}' <= c <= '\U{30FF}')
    || ('\U{AC00}' <= c <= '\U{D7AF}')
  }

  /** The CJK test, applied once to the whole text. */
  predicate ContainsCjk(s: String) {
    exists i | 0 <= i < |s| :: IsCjkChar(s[i])
  }

  /** The first cut position at or after `i`: a position `b` whose preceding
      character is a terminator, or `|r|` when there is none before the end. */
  function NextBoundary(r: String, i: nat): (b: nat)
    requires 1 <= i
    ensures b == |r| || (i <= b < |r| && IsTerminator(r[b - 1]))
    ensures forall j | i - 1 <= j < b - 1 :: !IsTerminator(r[j])
    decreases |r| - i
  {
    if i >= |r| then |r|
    else if IsTerminator(r[i - 1]) then i
    else NextBoundary(r, i + 1)
  }

  /** `text.split(/(?<=[.!?。！？\n])\s*\/)`: cut after every terminator that is
      not the last character, and drop the white space that follows the cut.
      A text that ends in a terminator followed by white space yields a final
      empty sentence, as the regular expression split does. */
  function Sentences(r: String): (ss: seq<String>)
    ensures |ss| >= 1
    decreases |r|
  {
    var b := NextBoundary(r, 1);
    if b >= |r| then [r]
    else [r[..b]] + Sentences(r[SkipSpace(r, b)..])
  }

  /** One step of the split, named: the head up to the first cut, then the
      sentences of what follows the white space after it. */
  lemma SentencesUnfold(r: String)
    ensures var b := NextBoundary(r, 1);
      && (b >= |r| ==> Sentences(r) == [r])
      && (b < |r| ==> Sentences(r) == [r[..b]] + Sentences(r[SkipSpace(r, b)..]))
  {
  }

  /** The first sentence is where the text starts. */
  lemma FirstSentenceIsPrefix(r: String)
    ensures Sentences(r)[0] <= r
  {
    SentencesUnfold(r);
  }

  /** A string with no terminator before its last character. */
  predicate Unbroken(s: String) {
    forall j | 0 <= j < |s| - 1 :: !IsTerminator(s[j])
  }

  /** No sentence holds a terminator before its last character. */
  lemma {:induction false} SentencesUnbroken(r: String)
    ensures forall k | 0 <= k < |Sentences(r)| :: Unbroken(Sentences(r)[k])
    decreases |r|
  {
    var b := NextBoundary(r, 1);
    if b < |r| {
      var head := r[..b];
      var rest := r[SkipSpace(r, b)..];
      var tail := Sentences(rest);
      assert Unbroken(head) by {
        forall j | 0 <= j < |head| - 1 ensures !IsTerminator(head[j]) {
          assert head[j] == r[j];
        }
      }
      assert forall k | 0 <= k < |tail| :: Unbroken(tail[k]) by {
        SentencesUnbroken(rest);
      }
      assert Sentences(r) == [head] + tail by {
        SentencesUnfold(r);
      }
    } else {
      assert Sentences(r) == [r] by {
        SentencesUnfold(r);
      }
    }
  }

  /** Every sentence but the last is non-empty and ends in a terminator. */
  lemma {:induction false} SentencesEndInTerminator(r: String)
    ensures forall k | 0 <= k < |Sentences(r)| - 1 ::
      Sentences(r)[k] != [] && IsTerminator(Sentences(r)[k][|Sentences(r)[k]| - 1])
    decreases |r|
  {
    var b := NextBoundary(r, 1);
    if b < |r| {
      var head := r[..b];
      var rest := r[SkipSpace(r, b)..];
      var tail := Sentences(rest);
      assert head != [] && IsTerminator(head[|head| - 1]);
      assert forall k | 0 <= k < |tail| - 1 :: tail[k] != [] && IsTerminator(tail[k][|tail[k]| - 1]) by {
        SentencesEndInTerminator(rest);
      }
      assert Sentences(r) == [head] + tail by {
        SentencesUnfold(r);
      }
    } else {
      assert Sentences(r) == [r] by {
        SentencesUnfold(r);
      }
    }
  }

  /** No sentence after the first begins with white space. */
  lemma {:induction false} SentencesStartClean(r: String)
    ensures forall k | 0 < k < |Sentences(r)| :: Sentences(r)[k] == [] || !IsSpace(Sentences(r)[k][0])
    decreases |r|
  {
    var b := NextBoundary(r, 1);
    if b < |r| {
      var c := SkipSpace(r, b);
      var rest := r[c..];
      var tail := Sentences(rest);
      assert tail[0] == [] || !IsSpace(tail[0][0]) by {
        FirstSentenceIsPrefix(rest);
        if tail[0] != [] {
          assert tail[0][0] == rest[0] == r[c];
        }
      }
      assert forall k | 0 < k < |tail| :: tail[k] == [] || !IsSpace(tail[k][0]) by {
        SentencesStartClean(rest);
      }
      assert Sentences(r) == [r[..b]] + tail by {
        SentencesUnfold(r);
      }
    } else {
      assert Sentences(r) == [r] by {
        SentencesUnfold(r);
      }
    }
  }

  /** Every sentence holds a terminator at most as its last character; every
      sentence but the last is non-empty and ends in one; no sentence but the
      first begins with white space. */
  lemma SentencesShape(r: String)
    ensures var ss := Sentences(r);
      && (forall k | 0 <= k < |ss| :: Unbroken(ss[k]))
      && (forall k | 0 <= k < |ss| - 1 :: ss[k] != [] && IsTerminator(ss[k][|ss[k]| - 1]))
      && (forall k | 0 < k < |ss| :: ss[k] == [] || !IsSpace(ss[k][0]))
  {
    SentencesUnbroken(r);
    SentencesEndInTerminator(r);
    SentencesStartClean(r);
  }

  /** Splitting loses nothing but white space: the sentences, put back
      together, hold the text's other characters in their original order. */
  lemma {:induction false} SentencesCoverText(r: String)
    ensures RemoveSpace(Concat(Sentences(r))) == RemoveSpace(r)
    decreases |r|
  {
    SentencesUnfold(r);
    var b := NextBoundary(r, 1);
    if b < |r| {
      var c := SkipSpace(r, b);
      var tail := Sentences(r[c..]);
      calc {
        RemoveSpace(Concat(Sentences(r)));
        { ConcatCons(r[..b], tail); }
        RemoveSpace(r[..b] + Concat(tail));
        { RemoveSpaceAppend(r[..b], Concat(tail)); }
        RemoveSpace(r[..b]) + RemoveSpace(Concat(tail));
        { SentencesCoverText(r[c..]); }
        RemoveSpace(r[..b]) + RemoveSpace(r[c..]);
        { RemoveSpaceAcrossGap(r, b, c); }
        RemoveSpace(r);
      }
    } else {
      assert [r][1..] == [];
      assert Concat([r]) == r + [] == r;
    }
  }

  /** A text with no terminator before its last character is one sentence. */
  lemma SentencesOfUnbroken(r: String)
    requires Unbroken(r)
    ensures Sentences(r) == [r]
  {
    SentencesUnfold(r);
  }

  /** The packing loop's state: the chunks pushed so far and the buffer. */
  datatype ChunkState = ChunkState(chunks: seq<String>, current: String)

  /** What joins a sentence onto a non-empty buffer: nothing in CJK mode, one
      space otherwise. */
  function Separator(current: String, isCjk: bool): String {
    if current == [] then [] else if isCjk then [] else " "
  }

  /** The start of the next buffer after a flush: the last `overlap`
      characters in CJK mode; otherwise the last `overlap` space-separated
      words, joined by single spaces and followed by one space. */
  function OverlapSeed(current: String, overlap: nat, isCjk: bool): String {
    if isCjk then SliceLast(current, overlap)
    else Join(SliceLast(Split(current, ' '), overlap), " ") + " "
  }

  /** The overlap is taken from the end of the flushed buffer: in CJK mode a
      suffix of at most `overlap` characters (all of it when `overlap` is 0);
      otherwise a suffix that starts at a word boundary and consists of the
      buffer's last `overlap` space-separated words (all of them when
      `overlap` is 0), followed by one space. */
  lemma OverlapSeedIsSuffix(current: String, overlap: nat, isCjk: bool)
    ensures var seed := OverlapSeed(current, overlap, isCjk);
      && (isCjk ==> EndsWith(current, seed)
                    && (overlap > 0 ==> |seed| == if overlap < |current| then overlap else |current|)
                    && (overlap == 0 ==> seed == current))
      && (!isCjk ==> |seed| >= 1 && seed[|seed| - 1] == ' '
                     && var w := seed[..|seed| - 1];
                     EndsWith(current, w)
                     && (w == current || current[|current| - |w| - 1] == ' ')
                     && Split(w, ' ') == SliceLast(Split(current, ' '), overlap))
  {
    if !isCjk {
      var parts := Split(current, ' ');
      var kept := SliceLast(parts, overlap);
      var k := |parts| - |kept|;
      var w := Join(kept, " ");
      var seed := OverlapSeed(current, overlap, isCjk);
      assert seed[..|seed| - 1] == w;
      assert Split(w, ' ') == kept by {
        assert forall j | 0 <= j < |kept| :: ' ' !in kept[j] by {
          forall j | 0 <= j < |kept| ensures ' ' !in kept[j] {
            assert kept[j] == parts[k + j];
          }
        }
        SplitJoin(kept, ' ');
      }
      JoinSplit(current, ' ');
      if k > 0 {
        JoinSplitAt(parts, k, " ");
        assert current == Join(parts[..k], " ") + " " + w;
      } else {
        assert kept == parts;
      }
    }
  }

  /** One iteration of the packing loop: flush the buffer when the sentence
      does not fit, otherwise append the sentence to it. */
  function Step(st: ChunkState, sentence: String, isCjk: bool, maxChunkSize: nat, overlap: nat): ChunkState {
    if |st.current + sentence| > maxChunkSize && st.current != [] then
      ChunkState(st.chunks + [Trim(st.current)], OverlapSeed(st.current, overlap, isCjk) + sentence)
    else
      ChunkState(st.chunks, st.current + Separator(st.current, isCjk) + sentence)
  }

  /** A flush happens exactly when the buffer is non-empty and the buffer
      followed directly by the sentence is longer than `maxChunkSize`; it
      pushes the trimmed buffer and restarts from the overlap. Otherwise the
      sentence is appended after one space when the buffer is non-empty
      outside CJK mode and directly otherwise, and an over-long sentence that
      meets an empty buffer is kept whole. */
  lemma StepShape(st: ChunkState, sentence: String, isCjk: bool, maxChunkSize: nat, overlap: nat)
    ensures var r := Step(st, sentence, isCjk, maxChunkSize, overlap);
      var flush := |st.current + sentence| > maxChunkSize && st.current != [];
      && st.chunks <= r.chunks
      && |r.chunks| == |st.chunks| + (if flush then 1 else 0)
      && (flush ==> r.chunks[|st.chunks|] == Trim(st.current)
                    && r.current == OverlapSeed(st.current, overlap, isCjk) + sentence)
      && (!flush ==> StartsWith(r.current, st.current) && EndsWith(r.current, sentence)
                     && |r.current| == |st.current| + |sentence|
                                       + (if st.current != [] && !isCjk then 1 else 0))
      && (!flush ==> r.current == st.current + (if st.current != [] && !isCjk then " " else "") + sentence)
  {
  }

  /** The loop run over a list of sentences, from an empty state. */
  function Fold(ss: seq<String>, isCjk: bool, maxChunkSize: nat, overlap: nat): ChunkState
    decreases |ss|
  {
    if |ss| == 0 then ChunkState([], [])
    else Step(Fold(ss[..|ss| - 1], isCjk, maxChunkSize, overlap), ss[|ss| - 1], isCjk, maxChunkSize, overlap)
  }

  /** The chunk list for `text`: the loop over its sentences, with CJK mode
      decided once for the whole text, then the buffer pushed trimmed if it
      is not blank. */
  function ChunksOf(text: String, maxChunkSize: nat, overlap: nat): seq<String> {
    var st := Fold(Sentences(text), ContainsCjk(text), maxChunkSize, overlap);
    if IsBlank(st.current) then st.chunks else st.chunks + [Trim(st.current)]
  }

  /** The fold over one more sentence is one more step. */
  lemma FoldSnoc(ss: seq<String>, i: nat, isCjk: bool, maxChunkSize: nat, overlap: nat)
    requires i < |ss|
    ensures Fold(ss[..i + 1], isCjk, maxChunkSize, overlap)
         == Step(Fold(ss[..i], isCjk, maxChunkSize, overlap), ss[i], isCjk, maxChunkSize, overlap)
  {
    assert ss[..i + 1][..i] == ss[..i];
  }

  lemma {:induction false} FoldChunksTrimmed(ss: seq<String>, isCjk: bool, maxChunkSize: nat, overlap: nat)
    ensures forall k | 0 <= k < |Fold(ss, isCjk, maxChunkSize, overlap).chunks| ::
      IsTrimmed(Fold(ss, isCjk, maxChunkSize, overlap).chunks[k])
    decreases |ss|
  {
    if |ss| > 0 {
      FoldChunksTrimmed(ss[..|ss| - 1], isCjk, maxChunkSize, overlap);
    }
  }

  /** Every chunk is the trimmed form of a buffer: no chunk starts or ends
      with white space. Only the final push checks for blankness, so the
      last chunk is never empty. */
  lemma ChunksAreTrimmed(text: String, maxChunkSize: nat, overlap: nat)
    ensures var chunks := ChunksOf(text, maxChunkSize, overlap);
      && (forall k | 0 <= k < |chunks| :: IsTrimmed(chunks[k]))
      && (chunks != [] && chunks != Fold(Sentences(text), ContainsCjk(text), maxChunkSize, overlap).chunks
          ==> chunks[|chunks| - 1] != [])
  {
    FoldChunksTrimmed(Sentences(text), ContainsCjk(text), maxChunkSize, overlap);
  }

  /** The chunks pushed inside the loop come first, at most one follows. */
  lemma FoldChunksPrefix(text: String, maxChunkSize: nat, overlap: nat)
    ensures var st := Fold(Sentences(text), ContainsCjk(text), maxChunkSize, overlap);
      var chunks := ChunksOf(text, maxChunkSize, overlap);
      st.chunks <= chunks && |chunks| <= |st.chunks| + 1
  {
  }

  /** Empty input yields no chunks. */
  lemma ChunksOfEmpty(maxChunkSize: nat, overlap: nat)
    ensures ChunksOf([], maxChunkSize, overlap) == []
  {
    assert Sentences([]) == [[]];
    assert Fold([[]], false, maxChunkSize, overlap).current == [];
  }

  /** A non-blank text with no sentence break is one chunk, however long. */
  lemma LongSentenceKeptWhole(text: String, maxChunkSize: nat, overlap: nat)
    requires Unbroken(text)
    requires !IsBlank(text)
    ensures ChunksOf(text, maxChunkSize, overlap) == [Trim(text)]
  {
    SentencesOfUnbroken(text);
    var isCjk := ContainsCjk(text);
    assert [text][..0] == [];
    assert Fold([text], isCjk, maxChunkSize, overlap) == ChunkState([], text);
  }

  lemma SentencesOfExample()
    ensures Sentences("\nab") == ["\n", "ab"]
  {
    var text := "\nab";
    assert NextBoundary(text, 1) == 1;
    assert SkipSpace(text, 1) == 1 by {
      assert text[1] == 'a';
    }
    assert text[..1] == "\n" && text[1..] == "ab";
    assert Sentences("ab") == ["ab"] by {
      assert Unbroken("ab") by {
        assert "ab"[0] == 'a';
      }
      SentencesOfUnbroken("ab");
    }
    SentencesUnfold(text);
  }

  lemma OverlapOfNewline()
    ensures OverlapSeed("\n", 50, false) == "\n "
  {
    SplitWithoutSeparator("\n", ' ');
    assert SliceLast(["\n"], 50) == ["\n"];
  }

  lemma FlushOfNewline()
    ensures Step(ChunkState([], "\n"), "ab", false, 1, 50) == ChunkState([""], "\n ab")
  {
    OverlapOfNewline();
    assert Trim("\n") == "" by {
      assert IsBlank("\n") by {
        assert IsSpace("\n"[0]);
      }
    }
  }

  /** Two sentences fold as two steps from the empty state. */
  lemma FoldPair(a: String, b: String, isCjk: bool, maxChunkSize: nat, overlap: nat)
    ensures Fold([a, b], isCjk, maxChunkSize, overlap)
         == Step(Step(ChunkState([], []), a, isCjk, maxChunkSize, overlap), b, isCjk, maxChunkSize, overlap)
  {
    var ss := [a, b];
    FoldSnoc(ss, 0, isCjk, maxChunkSize, overlap);
    FoldSnoc(ss, 1, isCjk, maxChunkSize, overlap);
    assert ss[..0] == [] && ss[..2] == ss;
  }

  lemma FoldOfExample()
    ensures Fold(["\n", "ab"], false, 1, 50) == ChunkState([""], "\n ab")
  {
    FoldPair("\n", "ab", false, 1, 50);
    assert Step(ChunkState([], []), "\n", false, 1, 50) == ChunkState([], "\n");
    FlushOfNewline();
  }

  /** The flush does not check the buffer for blankness: a text that starts
      with an empty line followed by a sentence longer than the limit gets
      an empty first chunk. */
  lemma BlankFirstChunk()
    ensures var chunks := ChunksOf("\nab", 1, 50);
      |chunks| >= 1 && chunks[0] == ""
  {
    SentencesOfExample();
    FoldOfExample();
    assert !ContainsCjk("\nab");
    assert Fold(Sentences("\nab"), ContainsCjk("\nab"), 1, 50).chunks == [""];
    FoldChunksPrefix("\nab", 1, 50);
  }

  /** The chunk that sentence `i` of `text` lands in: the next one pushed
      after the sentence has been folded into the buffer. */
  function ChunkOfSentence(text: String, maxChunkSize: nat, overlap: nat, i: nat): nat
    requires i < |Sentences(text)|
  {
    |Fold(Sentences(text)[..i + 1], ContainsCjk(text), maxChunkSize, overlap).chunks|
  }

  /** `t` is in chunk `n`, or chunk `n` is the next one and `t` is in the
      buffer it will be pushed from. */
  predicate HeldAt(st: ChunkState, n: nat, t: String) {
    || (n < |st.chunks| && Contains(st.chunks[n], t))
    || (n == |st.chunks| && Contains(st.current, t))
  }

  /** After a step the buffer holds the sentence, so its trimmed text too. */
  lemma StepTakesSentence(st: ChunkState, sentence: String, isCjk: bool, maxChunkSize: nat, overlap: nat)
    ensures Contains(Step(st, sentence, isCjk, maxChunkSize, overlap).current, Trim(sentence))
  {
    var r := Step(st, sentence, isCjk, maxChunkSize, overlap);
    ContainsTrim(sentence);
    var before := if |st.current + sentence| > maxChunkSize && st.current != []
                  then OverlapSeed(st.current, overlap, isCjk)
                  else st.current + Separator(st.current, isCjk);
    ContainsWithin(before, sentence, [], Trim(sentence));
    assert before + sentence + [] == r.current;
  }

  /** A step never loses trimmed text the buffer or a chunk holds: appended
      buffers keep it, and a flushed buffer keeps it once trimmed. */
  lemma StepKeepsHeld(st: ChunkState, sentence: String, isCjk: bool, maxChunkSize: nat, overlap: nat, n: nat, t: String)
    requires HeldAt(st, n, t) && t != [] && IsTrimmed(t)
    ensures HeldAt(Step(st, sentence, isCjk, maxChunkSize, overlap), n, t)
  {
    var r := Step(st, sentence, isCjk, maxChunkSize, overlap);
    if |st.current + sentence| > maxChunkSize && st.current != [] {
      assert r.chunks == st.chunks + [Trim(st.current)];
      if n < |st.chunks| {
        assert r.chunks[n] == st.chunks[n];
      } else {
        TrimKeepsInner(st.current, t);
        assert r.chunks[n] == Trim(st.current);
      }
    } else {
      assert r.chunks == st.chunks;
      if n == |st.chunks| {
        var rest := Separator(st.current, isCjk) + sentence;
        ContainsWithin([], st.current, rest, t);
        assert [] + st.current + rest == r.current;
      }
    }
  }

  /** From the step that folds it in, a non-blank sentence's trimmed text
      stays in the chunk numbered by the chunks pushed up to that step. */
  lemma {:induction false} FoldKeepsHeld(ss: seq<String>, i: nat, j: nat, isCjk: bool, maxChunkSize: nat, overlap: nat)
    requires i < j <= |ss| && !IsBlank(ss[i])
    ensures HeldAt(Fold(ss[..j], isCjk, maxChunkSize, overlap),
                   |Fold(ss[..i + 1], isCjk, maxChunkSize, overlap).chunks|, Trim(ss[i]))
    decreases j - i
  {
    FoldSnoc(ss, j - 1, isCjk, maxChunkSize, overlap);
    if j == i + 1 {
      StepTakesSentence(Fold(ss[..i], isCjk, maxChunkSize, overlap), ss[i], isCjk, maxChunkSize, overlap);
    } else {
      FoldKeepsHeld(ss, i, j - 1, isCjk, maxChunkSize, overlap);
      StepKeepsHeld(Fold(ss[..j - 1], isCjk, maxChunkSize, overlap), ss[j - 1], isCjk, maxChunkSize, overlap,
                    |Fold(ss[..i + 1], isCjk, maxChunkSize, overlap).chunks|, Trim(ss[i]));
    }
  }

  /** Chunks are only ever added: folding more sentences never leaves
      fewer chunks. */
  lemma {:induction false} FoldChunksGrow(ss: seq<String>, i: nat, j: nat, isCjk: bool, maxChunkSize: nat, overlap: nat)
    requires i <= j <= |ss|
    ensures |Fold(ss[..i], isCjk, maxChunkSize, overlap).chunks| <= |Fold(ss[..j], isCjk, maxChunkSize, overlap).chunks|
    decreases j - i
  {
    if i < j {
      var prev := Fold(ss[..j - 1], isCjk, maxChunkSize, overlap);
      FoldChunksGrow(ss, i, j - 1, isCjk, maxChunkSize, overlap);
      FoldSnoc(ss, j - 1, isCjk, maxChunkSize, overlap);
      assert |Step(prev, ss[j - 1], isCjk, maxChunkSize, overlap).chunks| >= |prev.chunks|;
    }
  }

  /** One non-blank sentence's trimmed text is inside its chunk. */
  lemma SentenceInChunk(text: String, maxChunkSize: nat, overlap: nat, i: nat)
    requires i < |Sentences(text)| && !IsBlank(Sentences(text)[i])
    ensures ChunkOfSentence(text, maxChunkSize, overlap, i) < |ChunksOf(text, maxChunkSize, overlap)|
    ensures Contains(ChunksOf(text, maxChunkSize, overlap)[ChunkOfSentence(text, maxChunkSize, overlap, i)],
                     Trim(Sentences(text)[i]))
  {
    var ss := Sentences(text);
    var isCjk := ContainsCjk(text);
    var st := Fold(ss, isCjk, maxChunkSize, overlap);
    var n := ChunkOfSentence(text, maxChunkSize, overlap, i);
    var t := Trim(ss[i]);
    assert ss[..|ss|] == ss;
    FoldKeepsHeld(ss, i, |ss|, isCjk, maxChunkSize, overlap);
    assert HeldAt(st, n, t);
    if n == |st.chunks| {
      TrimKeepsInner(st.current, t);
      assert !IsBlank(st.current);
      assert ChunksOf(text, maxChunkSize, overlap) == st.chunks + [Trim(st.current)];
    } else {
      assert ChunksOf(text, maxChunkSize, overlap)[n] == st.chunks[n];
    }
  }

  /** No sentence is lost: the trimmed text of every non-blank sentence is
      inside a chunk, and the chunks that hold them follow sentence order. */
  lemma ChunksCoverSentences(text: String, maxChunkSize: nat, overlap: nat)
    ensures forall i | 0 <= i < |Sentences(text)| && !IsBlank(Sentences(text)[i]) ::
      && ChunkOfSentence(text, maxChunkSize, overlap, i) < |ChunksOf(text, maxChunkSize, overlap)|
      && Contains(ChunksOf(text, maxChunkSize, overlap)[ChunkOfSentence(text, maxChunkSize, overlap, i)],
                  Trim(Sentences(text)[i]))
    ensures forall i, j | 0 <= i <= j < |Sentences(text)| ::
      ChunkOfSentence(text, maxChunkSize, overlap, i) <= ChunkOfSentence(text, maxChunkSize, overlap, j)
  {
    forall i | 0 <= i < |Sentences(text)| && !IsBlank(Sentences(text)[i])
      ensures ChunkOfSentence(text, maxChunkSize, overlap, i) < |ChunksOf(text, maxChunkSize, overlap)|
      ensures Contains(ChunksOf(text, maxChunkSize, overlap)[ChunkOfSentence(text, maxChunkSize, overlap, i)],
                       Trim(Sentences(text)[i]))
    {
      SentenceInChunk(text, maxChunkSize, overlap, i);
    }
    forall i, j | 0 <= i <= j < |Sentences(text)|
      ensures ChunkOfSentence(text, maxChunkSize, overlap, i) <= ChunkOfSentence(text, maxChunkSize, overlap, j)
    {
      FoldChunksGrow(Sentences(text), i + 1, j + 1, ContainsCjk(text), maxChunkSize, overlap);
    }
  }

  /** A flushed buffer of at most `overlap` words (of any number when
      `overlap` is 0, since `slice(-0)` keeps everything) is carried over
      whole in the non-CJK mode: the next buffer is the pushed chunk, a
      space and the sentence. */
  lemma CarriesShortBuffer(chunks: seq<String>, current: String, sentence: String, maxChunkSize: nat, overlap: nat)
    requires current != [] && IsTrimmed(current) && |current + sentence| > maxChunkSize
    requires overlap == 0 || |Split(current, ' ')| <= overlap
    ensures Step(ChunkState(chunks, current), sentence, false, maxChunkSize, overlap)
         == ChunkState(chunks + [current], current + " " + sentence)
  {
    TrimOfTrimmed(current);
    JoinSplit(current, ' ');
  }

  /** Splitting after a terminator followed by one space. */
  lemma SentencesAfterTerminator(a: String, rest: String)
    requires a != [] && Unbroken(a) && IsTerminator(a[|a| - 1])
    requires rest != [] && !IsSpace(rest[0])
    ensures Sentences(a + " " + rest) == [a] + Sentences(rest)
  {
    var r := a + " " + rest;
    var b := NextBoundary(r, 1);
    assert r[|a| - 1] == a[|a| - 1];
    assert forall j | 0 <= j < |a| - 1 :: r[j] == a[j];
    assert b == |a|;
    assert SkipSpace(r, |a|) == |a| + 1 by {
      assert r[|a|] == ' ' && r[|a| + 1] == rest[0];
    }
    assert r[..|a|] == a && r[|a| + 1..] == rest;
    SentencesUnfold(r);
  }

  /** Three sentences fold as three steps from the empty state. */
  lemma FoldTriple(a: String, b: String, c: String, isCjk: bool, maxChunkSize: nat, overlap: nat)
    ensures Fold([a, b, c], isCjk, maxChunkSize, overlap)
         == Step(Fold([a, b], isCjk, maxChunkSize, overlap), c, isCjk, maxChunkSize, overlap)
  {
    var ss := [a, b, c];
    FoldSnoc(ss, 2, isCjk, maxChunkSize, overlap);
    assert ss[..2] == [a, b] && ss[..3] == ss;
  }

  /** A sentence that is one word: non-empty, trimmed, without a space, and
      ending in its only terminator. */
  predicate OneWordSentence(s: String) {
    s != [] && IsTrimmed(s) && ' ' !in s && Unbroken(s) && IsTerminator(s[|s| - 1])
  }

  lemma ThreeSentences(a: String, b: String, c: String)
    requires OneWordSentence(a) && OneWordSentence(b) && OneWordSentence(c)
    ensures Sentences(a + " " + b + " " + c) == [a, b, c]
  {
    SentencesOfUnbroken(c);
    SentencesAfterTerminator(b, c);
    SentencesAfterTerminator(a, b + " " + c);
    assert a + " " + (b + " " + c) == a + " " + b + " " + c;
  }

  /** Two one-word sentences joined by a space are a trimmed two-word
      buffer. */
  lemma TwoWords(a: String, b: String)
    requires OneWordSentence(a) && OneWordSentence(b)
    ensures IsTrimmed(a + " " + b) && Split(a + " " + b, ' ') == [a, b]
  {
    SplitWithoutSeparator(b, ' ');
    SplitAfterPiece(a, ' ', b);
    assert a + [' '] + b == a + " " + b;
  }

  /** The second of two one-word sentences that do not fit together
      flushes the first and carries it over. */
  lemma SecondWordCarried(a: String, b: String, maxChunkSize: nat, overlap: nat)
    requires OneWordSentence(a) && maxChunkSize < |a| + |b| && (overlap == 0 || overlap >= 2)
    ensures Fold([a, b], false, maxChunkSize, overlap) == ChunkState([a], a + " " + b)
  {
    FoldPair(a, b, false, maxChunkSize, overlap);
    FirstSentenceTaken(a, false, maxChunkSize, overlap);
    SplitWithoutSeparator(a, ' ');
    CarriesShortBuffer([], a, b, maxChunkSize, overlap);
  }

  /** The first sentence is taken into the empty buffer as it is. */
  lemma FirstSentenceTaken(s: String, isCjk: bool, maxChunkSize: nat, overlap: nat)
    ensures Step(ChunkState([], []), s, isCjk, maxChunkSize, overlap) == ChunkState([], s)
  {
  }

  /** A third sentence that does not fit flushes the two-word buffer and
      carries it over too. */
  lemma ThirdWordCarried(a: String, b: String, c: String, maxChunkSize: nat, overlap: nat)
    requires OneWordSentence(a) && OneWordSentence(b)
    requires maxChunkSize < |a| + |b| && (overlap == 0 || overlap >= 2)
    ensures Step(ChunkState([a], a + " " + b), c, false, maxChunkSize, overlap)
         == ChunkState([a, a + " " + b], a + " " + b + " " + c)
  {
    TwoWords(a, b);
    CarriesShortBuffer([a], a + " " + b, c, maxChunkSize, overlap);
  }

  /** The fold of three one-word sentences of which no two fit together:
      each flush carries the whole buffer over. */
  lemma ThreeSentencesFold(a: String, b: String, c: String, maxChunkSize: nat, overlap: nat)
    requires OneWordSentence(a) && OneWordSentence(b) && OneWordSentence(c)
    requires maxChunkSize < |a| + |b| && (overlap == 0 || overlap >= 2)
    ensures Fold([a, b, c], false, maxChunkSize, overlap) == ChunkState([a, a + " " + b], a + " " + b + " " + c)
  {
    FoldTriple(a, b, c, false, maxChunkSize, overlap);
    SecondWordCarried(a, b, maxChunkSize, overlap);
    ThirdWordCarried(a, b, c, maxChunkSize, overlap);
  }

  /** The size bound fails outside CJK mode. Take three one-word sentences
      that each fit the maximum but no two of which fit together, such as
      `ab.`, `cd.` and `ef.` at maximum 3, and an overlap of at least two
      words (or 0). Every flush carries the whole buffer over, so each
      chunk is the previous one plus a sentence. The last chunk exceeds
      the maximum by more than the last sentence, and by more than any of
      the three when they are equally long. */
  lemma ChunksGrowPastMaximum(a: String, b: String, c: String, maxChunkSize: nat, overlap: nat)
    requires OneWordSentence(a) && OneWordSentence(b) && OneWordSentence(c)
    requires !ContainsCjk(a + " " + b + " " + c)
    requires |a| <= maxChunkSize < |a| + |b| && (overlap == 0 || overlap >= 2)
    ensures Sentences(a + " " + b + " " + c) == [a, b, c]
    ensures ChunksOf(a + " " + b + " " + c, maxChunkSize, overlap) == [a, a + " " + b, a + " " + b + " " + c]
    ensures |a + " " + b + " " + c| > maxChunkSize + |c| + 2
    ensures |a| == |b| == |c| ==> |a + " " + b + " " + c| > maxChunkSize + |a|
  {
    var text := a + " " + b + " " + c;
    assert Sentences(text) == [a, b, c] by {
      ThreeSentences(a, b, c);
    }
    assert Fold([a, b, c], false, maxChunkSize, overlap) == ChunkState([a, a + " " + b], text) by {
      ThreeSentencesFold(a, b, c, maxChunkSize, overlap);
    }
    assert Trim(text) == text && !IsBlank(text) by {
      ThreeWordsTrimmed(a, b, c);
    }
    GrowingChunks(text, a, a + " " + b, maxChunkSize, overlap, [a, b, c]);
  }

  /** The chunks of a text whose sentences fold to two flushed chunks and
      a non-blank, already trimmed buffer. */
  lemma GrowingChunks(text: String, first: String, second: String, maxChunkSize: nat, overlap: nat, ss: seq<String>)
    requires Sentences(text) == ss && !ContainsCjk(text)
    requires Fold(ss, false, maxChunkSize, overlap) == ChunkState([first, second], text)
    requires Trim(text) == text && !IsBlank(text)
    ensures ChunksOf(text, maxChunkSize, overlap) == [first, second, text]
  {
    FinalPush(text, maxChunkSize, overlap, ChunkState([first, second], text));
  }

  /** After the loop a non-blank buffer is pushed trimmed. */
  lemma FinalPush(text: String, maxChunkSize: nat, overlap: nat, st: ChunkState)
    requires Fold(Sentences(text), ContainsCjk(text), maxChunkSize, overlap) == st
    requires !IsBlank(st.current)
    ensures ChunksOf(text, maxChunkSize, overlap) == st.chunks + [Trim(st.current)]
  {
  }

  /** Three one-word sentences joined by spaces are a trimmed, non-blank
      buffer. */
  lemma ThreeWordsTrimmed(a: String, b: String, c: String)
    requires OneWordSentence(a) && OneWordSentence(c)
    ensures Trim(a + " " + b + " " + c) == a + " " + b + " " + c
    ensures !IsBlank(a + " " + b + " " + c)
  {
    var text := a + " " + b + " " + c;
    assert text[0] == a[0] && text[|text| - 1] == c[|c| - 1];
    TrimOfTrimmed(text);
  }

  /** The length no chunk exceeds in CJK mode: the maximum, or the overlap
      plus the longest sentence when that is more. */
  function CjkBound(maxChunkSize: nat, overlap: nat, longest: nat): nat {
    if maxChunkSize >= overlap + longest then maxChunkSize else overlap + longest
  }

  predicate WithinBound(st: ChunkState, bound: nat) {
    && |st.current| <= bound
    && forall k | 0 <= k < |st.chunks| :: |st.chunks[k]| <= bound
  }

  /** In CJK mode a step keeps the buffer and the chunks within the bound:
      appending happens only within the maximum, and a flush restarts from
      at most `overlap` characters plus the sentence. */
  lemma StepCjkBounded(st: ChunkState, sentence: String, maxChunkSize: nat, overlap: nat, longest: nat)
    requires overlap > 0 && |sentence| <= longest
    requires WithinBound(st, CjkBound(maxChunkSize, overlap, longest))
    ensures WithinBound(Step(st, sentence, true, maxChunkSize, overlap), CjkBound(maxChunkSize, overlap, longest))
  {
    var r := Step(st, sentence, true, maxChunkSize, overlap);
    if |st.current + sentence| > maxChunkSize && st.current != [] {
      assert r.chunks == st.chunks + [Trim(st.current)];
      assert |r.current| <= overlap + |sentence|;
    } else {
      assert r.chunks == st.chunks;
    }
  }

  lemma {:induction false} FoldCjkBounded(ss: seq<String>, maxChunkSize: nat, overlap: nat, longest: nat)
    requires overlap > 0
    requires forall i | 0 <= i < |ss| :: |ss[i]| <= longest
    ensures WithinBound(Fold(ss, true, maxChunkSize, overlap), CjkBound(maxChunkSize, overlap, longest))
    decreases |ss|
  {
    if |ss| > 0 {
      var init := ss[..|ss| - 1];
      assert forall i | 0 <= i < |init| :: |init[i]| <= longest by {
        forall i | 0 <= i < |init| ensures |init[i]| <= longest {
          assert init[i] == ss[i];
        }
      }
      FoldCjkBounded(init, maxChunkSize, overlap, longest);
      StepCjkBounded(Fold(init, true, maxChunkSize, overlap), ss[|ss| - 1], maxChunkSize, overlap, longest);
    }
  }

  /** With CJK text and a positive overlap, no chunk is longer than the
      maximum or than the overlap plus the longest sentence; so when the
      overlap is at most the maximum, no chunk exceeds the maximum by more
      than one sentence. Outside CJK mode there is no such bound, as
      `ChunksGrowPastMaximum` shows. */
  lemma CjkChunksBounded(text: String, maxChunkSize: nat, overlap: nat, longest: nat)
    requires ContainsCjk(text) && overlap > 0
    requires forall i | 0 <= i < |Sentences(text)| :: |Sentences(text)[i]| <= longest
    ensures forall k | 0 <= k < |ChunksOf(text, maxChunkSize, overlap)| ::
      |ChunksOf(text, maxChunkSize, overlap)[k]| <= CjkBound(maxChunkSize, overlap, longest)
    ensures overlap <= maxChunkSize ==> CjkBound(maxChunkSize, overlap, longest) <= maxChunkSize + longest
  {
    FoldCjkBounded(Sentences(text), maxChunkSize, overlap, longest);
  }

  /** `splitTextIntoChunks`: the loop over the sentences, pushing into
      `chunks` and updating the buffer. */
  method SplitTextIntoChunks(text: String, maxChunkSize: nat, overlap: nat) returns (chunks: seq<String>)
    ensures chunks == ChunksOf(text, maxChunkSize, overlap)
  {
    var sentences := Sentences(text);
    chunks := [];
    var currentChunk: String := [];
    var isCjk := ContainsCjk(text);
    for i := 0 to |sentences|
      invariant ChunkState(chunks, currentChunk) == Fold(sentences[..i], isCjk, maxChunkSize, overlap)
    {
      var sentence := sentences[i];
      FoldSnoc(sentences, i, isCjk, maxChunkSize, overlap);
      ghost var next := Step(ChunkState(chunks, currentChunk), sentence, isCjk, maxChunkSize, overlap);
      if |currentChunk + sentence| > maxChunkSize && currentChunk != [] {
        chunks := chunks + [Trim(currentChunk)];
        if isCjk {
          currentChunk := SliceLast(currentChunk, overlap) + sentence;
        } else {
          var words := Split(currentChunk, ' ');
          currentChunk := Join(SliceLast(words, overlap), " ") + " " + sentence;
        }
      } else {
        currentChunk := currentChunk + (if currentChunk != [] then (if isCjk then "" else " ") else "") + sentence;
      }
      assert ChunkState(chunks, currentChunk) == next;
    }
    assert sentences[..|sentences|] == sentences;
    if Trim(currentChunk) != [] {
      chunks := chunks + [Trim(currentChunk)];
    }
  }
}

=== FILE: demo_page.dfy ===
/** The public demo page: a scripted shop assistant whose reply is chosen by
    keyword and language, and the quota guard in front of it. The signed-in
    path spends messages through the demo quota route; guests count their
    messages in browser storage, which is a field here. The reply delay,
    message identifiers and typing indicator are not part of this model. */
module DemoPage {
  import opened Wrappers
  import opened Text
  import Chunker
  import DemoRoute

  const GUEST_QUOTA: int := 3

  datatype Lang = En | Zh

  /** The five topics every reply table answers. */
  const TOPICS: set<String> := {"default", "return", "order", "promotion", "shipping"}

  const EN_DEFAULT: String :=
    "Thanks for your question! As ShopSmart's AI assistant, I can help with product inquiries, order tracking, returns, and promotions. Could you be more specific about what you'd like to know?"
  const EN_RETURN: String :=
    "Our return policy is simple and customer-friendly:\n\n• **30-day return window** for most items\n• **Electronics**: 15-day return with original packaging\n• **Clothing**: 30-day return, tags must be attached\n• **Free return shipping** for defective items\n\nTo initiate a return, go to My Orders → Select Order → Request Return. Refunds are processed within 3-5 business days."
  const EN_ORDER: String :=
    "I'd be happy to help you track your order! Here's a sample status:\n\n\U{1F4E6} **Order #SH-20250210-8842**\n• Status: **In Transit**\n• Shipped: Feb 10, 2025\n• Carrier: SF Express\n• Estimated delivery: Feb 13-14, 2025\n\nYou can track real-time updates in My Orders. Need anything else?"
  const EN_PROMOTION: String :=
    "Great timing! Here are our current promotions:\n\n\U{1F525} **Spring Sale** - Up to 40% off selected items\n\U{1F4B3} **New User Coupon** - ¥50 off on orders over ¥200\n\U{1F381} **Buy 2 Get 1 Free** - On all accessories\n⭐ **VIP Members** - Extra 10% off + free shipping\n\nUse code **SPRING2025** at checkout for an additional 5% off!"
  const EN_SHIPPING: String :=
    "Here's our shipping information:\n\n\U{1F69A} **Standard Shipping**: 3-5 business days (Free for orders over ¥99)\n⚡ **Express Shipping**: 1-2 business days (¥15)\n\U{1F30D} **International**: 7-15 business days (varies by region)\n\nAll orders include tracking. You'll receive a notification once your order ships."

  /** The English replies, by topic. */
  const EN_RESPONSES: map<String, String> := map[
    "default" := EN_DEFAULT,
    "return" := EN_RETURN,
    "order" := EN_ORDER,
    "promotion" := EN_PROMOTION,
    "shipping" := EN_SHIPPING
  ]

  const ZH_DEFAULT: String :=
    "感谢您的提问！作为智购商城的 AI 助手，我可以帮您处理商品咨询、订单追踪、退换货和优惠活动等问题。请问您具体想了解什么呢？"
  const ZH_RETURN: String :=
    "我们的退换货政策简单便捷：\n\n• **大部分商品** 支持 30 天无理由退货\n• **电子产品**：15 天内可退，需保留原包装\n• **服装类**：30 天内可退，吊牌须完好\n• **质量问题** 免费退货运费\n\n发起退货：进入 我的订单 → 选择订单 → 申请退货。退款将在 3-5 个工作日内处理完成。"
  const ZH_ORDER: String :=
    "很高兴为您查询订单！以下是一个示例状态：\n\n\U{1F4E6} **订单号 #SH-20250210-8842**\n• 状态：**运输中**\n• 发货时间：2025年2月10日\n• 承运商：顺丰速运\n• 预计送达：2025年2月13-14日\n\n您可以在「我的订单」中查看实时物流更新。还需要其他帮助吗？"
  const ZH_PROMOTION: String :=
    "您来得正好！以下是我们当前的优惠活动：\n\n\U{1F525} **春季大促** - 精选商品低至6折\n\U{1F4B3} **新人专享券** - 满200减50\n\U{1F381} **配件买二送一** - 全场配件参与\n⭐ **VIP 会员** - 额外9折 + 免运费\n\n结算时使用优惠码 **SPRING2025** 还可再享95折！"
  const ZH_SHIPPING: String :=
    "以下是我们的配送信息：\n\n\U{1F69A} **标准配送**：3-5 个工作日（满99元免运费）\n⚡ **极速配送**：1-2 个工作日（运费15元）\n\U{1F30D} **国际配送**：7-15 个工作日（费用因地区而异）\n\n所有订单均支持物流追踪，发货后您会收到通知。"

  /** The Chinese replies, by topic. */
  const ZH_RESPONSES: map<String, String> := map[
    "default" := ZH_DEFAULT,
    "return" := ZH_RETURN,
    "order" := ZH_ORDER,
    "promotion" := ZH_PROMOTION,
    "shipping" := ZH_SHIPPING
  ]

  const DEMO_RESPONSES: map<Lang, map<String, String>> := map[En := EN_RESPONSES, Zh := ZH_RESPONSES]

  /** The topic names differ in their first letter. */
  lemma TopicNamesDiffer()
    ensures "default"[0] == 'd' && "return"[0] == 'r' && "order"[0] == 'o'
    ensures "promotion"[0] == 'p' && "shipping"[0] == 's'
  {
  }

  /** Both tables answer exactly the five topics. */
  lemma TablesComplete()
    ensures forall l: Lang :: l in DEMO_RESPONSES && DEMO_RESPONSES[l].Keys == TOPICS
  {
    TopicNamesDiffer();
    assert EN_RESPONSES.Keys == TOPICS;
    assert ZH_RESPONSES.Keys == TOPICS;
    forall l: Lang
      ensures l in DEMO_RESPONSES && DEMO_RESPONSES[l].Keys == TOPICS
    {
      if l == En {
        assert DEMO_RESPONSES[l] == EN_RESPONSES;
      } else {
        assert DEMO_RESPONSES[l] == ZH_RESPONSES;
      }
    }
  }

  /** The CJK Unified Ideographs block, U+4E00 to U+9FFF. */
  predicate IsHan(c: char) {
    '\U{4E00}' <= c <= '\U{9FFF}'
  }

  function HasHan(s: String): (r: bool)
    ensures r <==> exists i | 0 <= i < |s| :: IsHan(s[i])
    decreases |s|
  {
    if s == [] then false
    else if IsHan(s[0]) then true
    else
      var rest := HasHan(s[1..]);
      assert rest ==> exists i | 0 <= i < |s| :: IsHan(s[i]) by {
        if rest {
          var j :| 0 <= j < |s| - 1 && IsHan(s[1..][j]);
          assert IsHan(s[j + 1]);
        }
      }
      rest
  }

  /** `detectLanguage`: Chinese exactly when some character is a Han
      ideograph. */
  function DetectLanguage(message: String): (l: Lang)
    ensures l == Zh <==> exists i | 0 <= i < |message| :: IsHan(message[i])
  {
    if HasHan(message) then Zh else En
  }

  /** A message the page answers in Chinese is also one the chunker treats
      as CJK text, whose range is wider. */
  lemma ChineseIsCjk(message: String)
    requires DetectLanguage(message) == Zh
    ensures Chunker.ContainsCjk(message)
  {
    var i :| 0 <= i < |message| && IsHan(message[i]);
    assert Chunker.IsCjkChar(message[i]);
  }

  const RETURN_KEYWORDS: seq<String> := ["return", "refund", "退", "换"]
  const ORDER_KEYWORDS: seq<String> := ["order", "track", "订单", "查"]
  const PROMOTION_KEYWORDS: seq<String> := ["promot", "coupon", "deal", "discount", "优惠", "活动", "折"]
  const SHIPPING_KEYWORDS: seq<String> := ["ship", "deliver", "发货", "物流", "快递", "收到"]

  predicate MentionsAny(s: String, keywords: seq<String>) {
    exists k | k in keywords :: Contains(s, k)
  }

  /** The topic of a lower-cased message: the first of return, order,
      promotion and shipping whose keywords it mentions, else `default`. */
  function TopicOf(lower: String): (topic: String)
    ensures topic in TOPICS
  {
    if MentionsAny(lower, RETURN_KEYWORDS) then "return"
    else if MentionsAny(lower, ORDER_KEYWORDS) then "order"
    else if MentionsAny(lower, PROMOTION_KEYWORDS) then "promotion"
    else if MentionsAny(lower, SHIPPING_KEYWORDS) then "shipping"
    else "default"
  }

  /** `getResponseForMessage`: the reply of the message's topic, from the
      table of its language. */
  function GetResponseForMessage(message: String): (reply: String)
    ensures reply in DEMO_RESPONSES[DetectLanguage(message)].Values
  {
    TablesComplete();
    DEMO_RESPONSES[DetectLanguage(message)][TopicOf(ToLower(message))]
  }

  /** The topics are tried in a fixed priority: a message gets the return
      reply exactly when it mentions a return keyword, the order reply
      exactly when it mentions an order keyword but no return keyword, and
      so on down to the default reply for a message that mentions none; the
      reply is taken from the table of the message's language. */
  lemma ReplyPriority(message: String)
    ensures var lower := ToLower(message);
      var topic := TopicOf(lower);
      var ret := MentionsAny(lower, RETURN_KEYWORDS);
      var ord := MentionsAny(lower, ORDER_KEYWORDS);
      var promo := MentionsAny(lower, PROMOTION_KEYWORDS);
      var ship := MentionsAny(lower, SHIPPING_KEYWORDS);
      && GetResponseForMessage(message) == DEMO_RESPONSES[DetectLanguage(message)][topic]
      && (topic == "return" <==> ret)
      && (topic == "order" <==> !ret && ord)
      && (topic == "promotion" <==> !ret && !ord && promo)
      && (topic == "shipping" <==> !ret && !ord && !promo && ship)
      && (topic == "default" <==> !ret && !ord && !promo && !ship)
  {
    TablesComplete();
    TopicNamesDiffer();
  }

  /** Lower-casing keeps every Han ideograph where it is. */
  lemma LowerKeepsLanguage(message: String)
    ensures DetectLanguage(ToLower(message)) == DetectLanguage(message)
  {
    var lower := ToLower(message);
    forall i | 0 <= i < |message|
      ensures IsHan(lower[i]) <==> IsHan(message[i])
    {
    }
  }

  /** Matching ignores case: two messages that lower-case alike get the same
      reply. */
  lemma ReplyIgnoresCase(m1: String, m2: String)
    requires ToLower(m1) == ToLower(m2)
    ensures GetResponseForMessage(m1) == GetResponseForMessage(m2)
  {
    LowerKeepsLanguage(m1);
    LowerKeepsLanguage(m2);
  }

  /** An upper-case English keyword still selects its topic. */
  lemma UpperCaseRefund()
    ensures GetResponseForMessage("REFUND") == EN_RESPONSES["return"]
  {
    var lower := ToLower("REFUND");
    assert lower == "refund";
    assert Contains(lower, RETURN_KEYWORDS[1]) by {
      assert RETURN_KEYWORDS[1] <= lower[0..];
    }
    assert DetectLanguage("REFUND") == En by {
      forall i | 0 <= i < 6
        ensures !IsHan("REFUND"[i])
      {
      }
    }
  }

  datatype Speaker = UserSpeaker | AssistantSpeaker
  datatype PageMessage = PageMessage(role: Speaker, content: String)

  /** The count a send spends to: a guest's stored count plus one; for a
      signed-in user the count the route reports, or the page's own count
      plus one when the route answers another error or cannot be reached. */
  function SpentCount(loggedIn: bool, used: int, guestCount: nat, post: Option<DemoRoute.UsageReply>): int {
    if !loggedIn then guestCount + 1
    else if post.Some? && post.value.Usage? then post.value.used
    else used + 1
  }

  /** The route refused the spend because the quota is used up. */
  predicate Refused(post: Option<DemoRoute.UsageReply>) {
    post.Some? && post.value.UsageError? && post.value.status == 403
  }

  /** The page's chat state. */
  class DemoChat {
    var messages: seq<PageMessage>
    var quota: int
    var used: int
    var limitReached: bool
    var loggedIn: bool
    /** The guest counter kept in browser storage. */
    var guestCount: nat

    /** A guest's counters agree with browser storage, and the limit is
        reached exactly when the stored count has reached the quota. */
    ghost predicate GuestConsistent()
      reads this
    {
      !loggedIn ==> quota == GUEST_QUOTA && used == guestCount && (limitReached <==> used >= quota)
    }

    /** The page as mounted: `initial` is the quota route's answer, `None`
        when it could not be fetched, and `storedCount` the guest count in
        browser storage. */
    constructor (initial: Option<DemoRoute.QuotaView>, storedCount: nat)
      ensures messages == [] && guestCount == storedCount
      ensures loggedIn <==> initial.Some? && initial.value.loggedIn
      ensures loggedIn ==> quota == initial.value.quota && used == initial.value.used
      ensures limitReached <==> used >= quota
      ensures GuestConsistent()
    {
      messages := [];
      guestCount := storedCount;
      if initial.Some? && initial.value.loggedIn {
        loggedIn := true;
        quota := initial.value.quota;
        used := initial.value.used;
        limitReached := initial.value.used >= initial.value.quota;
      } else {
        loggedIn := false;
        quota := GUEST_QUOTA;
        used := storedCount;
        limitReached := storedCount >= GUEST_QUOTA;
      }
    }

    /** `incrementGuestCount`: store and return the stored count plus one. */
    method IncrementGuestCount() returns (count: nat)
      modifies this
      ensures count == old(guestCount) + 1 && guestCount == count
      ensures messages == old(messages) && used == old(used) && quota == old(quota)
      ensures limitReached == old(limitReached) && loggedIn == old(loggedIn)
    {
      count := guestCount + 1;
      guestCount := count;
    }

    /** `handleSend`. Nothing happens once the limit is reached. Otherwise
        the message is shown and one message is spent: through the route
        when signed in, where a 403 sets the limit and ends the send without
        a reply, or in browser storage for a guest. Then the reply is shown
        and the limit is set when the new count has reached the quota. */
    method HandleSend(content: String, post: Option<DemoRoute.UsageReply>)
      modifies this
      ensures old(limitReached) ==>
        messages == old(messages) && used == old(used) && limitReached && guestCount == old(guestCount)
      ensures !old(limitReached) && loggedIn && Refused(post) ==>
        messages == old(messages) + [PageMessage(UserSpeaker, content)]
        && used == old(used) && limitReached && guestCount == old(guestCount)
      ensures !old(limitReached) && !(loggedIn && Refused(post)) ==>
        var spent := SpentCount(loggedIn, old(used), old(guestCount), post);
        && messages == old(messages) + [PageMessage(UserSpeaker, content),
                                        PageMessage(AssistantSpeaker, GetResponseForMessage(content))]
        && used == spent
        && (limitReached <==> spent >= quota)
        && guestCount == (if loggedIn then old(guestCount) else old(guestCount) + 1)
      ensures quota == old(quota) && loggedIn == old(loggedIn)
      ensures old(GuestConsistent()) ==> GuestConsistent()
      ensures !loggedIn && old(GuestConsistent()) ==>
        (|messages| == |old(messages)| + 2 <==> old(guestCount) < GUEST_QUOTA)
    {
      if limitReached {
        return;
      }
      messages := messages + [PageMessage(UserSpeaker, content)];
      var newUsed := used + 1;
      if loggedIn {
        if post.Some? && post.value.Usage? {
          newUsed := post.value.used;
        } else if post.Some? && post.value.status == 403 {
          limitReached := true;
          return;
        }
      } else {
        newUsed := IncrementGuestCount();
      }
      used := newUsed;
      messages := messages + [PageMessage(AssistantSpeaker, GetResponseForMessage(content))];
      if newUsed >= quota {
        limitReached := true;
      }
    }
  }
}

=== FILE: demo_route.dfy ===
/** The demo's per-user message quota: reading it, and spending one message
    behind the quota guard. A profile holds the two counters. */
module DemoRoute {
  import opened Wrappers
  import opened Text

  /** The quota reported to visitors who are not signed in, or whose
      profile cannot be read. */
  const GUEST_QUOTA: int := 3

  datatype Profile = Profile(quota: int, used: int)

  /** `GET`'s body. */
  datatype QuotaView = QuotaView(quota: int, used: int, loggedIn: bool)

  /** `POST`'s answer: an error status, or the counters after the spend. */
  datatype UsageReply = UsageError(status: nat, message: String) | Usage(quota: int, used: int)

  /** `GET`: the guest default without a user, the same numbers for a user
      whose profile cannot be read, otherwise the profile's counters. */
  function GetQuota(user: Option<String>, profile: Option<Profile>): (v: QuotaView)
    ensures v.loggedIn <==> user.Some?
    ensures user.None? || profile.None? ==> v.quota == GUEST_QUOTA && v.used == 0
    ensures user.Some? && profile.Some? ==> v.quota == profile.value.quota && v.used == profile.value.used
  {
    if user.None? then QuotaView(GUEST_QUOTA, 0, false)
    else if profile.None? then QuotaView(GUEST_QUOTA, 0, true)
    else QuotaView(profile.value.quota, profile.value.used, true)
  }

  predicate WithinQuota(p: Profile) {
    p.used <= p.quota
  }

  /** The guarded spend: refused once the counter has reached the quota,
      otherwise the counter rises by one and the quota is kept. */
  function Spend(p: Profile): (r: Option<Profile>)
    ensures r.None? <==> p.used >= p.quota
    ensures r.Some? ==> r.value.quota == p.quota && r.value.used == p.used + 1 && WithinQuota(r.value)
  {
    if p.used >= p.quota then None else Some(Profile(p.quota, p.used + 1))
  }

  /** The profile after `n` spends in a row (refused ones change nothing). */
  function AfterSpends(p: Profile, n: nat): Profile
    decreases n
  {
    if n == 0 then p
    else match Spend(p)
      case None => p
      case Some(q) => AfterSpends(q, n - 1)
  }

  /** However many spends are attempted, a counter within its quota stops at
      the quota and one above it never moves: no sequence of spends takes
      the counter past the quota. */
  lemma {:induction false} AfterSpendsCounter(p: Profile, n: nat)
    ensures AfterSpends(p, n).quota == p.quota
    ensures AfterSpends(p, n).used ==
      if p.used >= p.quota then p.used
      else if p.used + n <= p.quota then p.used + n
      else p.quota
    decreases n
  {
    if n > 0 && p.used < p.quota {
      AfterSpendsCounter(Profile(p.quota, p.used + 1), n - 1);
    }
  }

  /** The profile table. */
  class QuotaStore {
    var profiles: map<String, Profile>

    constructor (initial: map<String, Profile>)
      ensures profiles == initial
    {
      profiles := initial;
    }

    function ProfileOf(user: Option<String>): Option<Profile>
      reads this
    {
      if user.Some? && user.value in profiles then Some(profiles[user.value]) else None
    }

    /** `GET` against the table. */
    function Quota(user: Option<String>): QuotaView
      reads this
    {
      GetQuota(user, ProfileOf(user))
    }

    /** `POST`: 401 without a user, 404 without a profile, 403 once the
        quota is used up, 500 when the write fails; otherwise the user's
        counter is replaced by the spent one and reported. Only that user's
        profile changes, and every profile within its quota stays so. */
    method Post(user: Option<String>, writeOk: bool) returns (reply: UsageReply)
      modifies this
      ensures user.None? ==> reply == UsageError(401, "Unauthorized")
      ensures user.Some? && old(ProfileOf(user)).None? ==> reply == UsageError(404, "Profile not found")
      ensures old(ProfileOf(user)).Some? && Spend(old(ProfileOf(user)).value).None? ==>
        reply == UsageError(403, "Quota exceeded")
      ensures old(ProfileOf(user)).Some? && Spend(old(ProfileOf(user)).value).Some? ==>
        var q := Spend(old(ProfileOf(user)).value).value;
        reply == (if writeOk then Usage(q.quota, q.used) else UsageError(500, "Failed to update usage"))
      ensures reply.Usage? ==>
        user.Some? && profiles == old(profiles)[user.value := Spend(old(profiles)[user.value]).value]
        && Quota(user) == QuotaView(reply.quota, reply.used, true)
      ensures !reply.Usage? ==> profiles == old(profiles)
      ensures (forall id | id in old(profiles) :: WithinQuota(old(profiles)[id])) ==>
        forall id | id in profiles :: WithinQuota(profiles[id])
    {
      if user.None? {
        return UsageError(401, "Unauthorized");
      }
      if user.value !in profiles {
        return UsageError(404, "Profile not found");
      }
      var p := profiles[user.value];
      if p.used >= p.quota {
        return UsageError(403, "Quota exceeded");
      }
      var newUsed := p.used + 1;
      if !writeOk {
        return UsageError(500, "Failed to update usage");
      }
      profiles := profiles[user.value := Profile(p.quota, newUsed)];
      return Usage(p.quota, newUsed);
    }
  }
}

=== FILE: embedding.dfy ===
/** Embedding generation: the policy that chooses between the in-process
    local models and the remote vendor endpoint, and the cache of local
    feature-extraction pipelines. The vendor endpoint and the local model
    runtime are parameters: functions from a request to an outcome. */
module Embedding {
  import opened Wrappers
  import opened Text

  type Vector = seq<real>

  const DEFAULT_EMBEDDING_MODEL: String := "text-embedding-v3"

  /** The accepted embedding-model identifiers, in table order. */
  const EMBEDDING_MODELS: seq<String> := ["text-embedding-v3", "local-bge-small-zh-v1.5", "local-all-MiniLM-L6-v2"]

  const LOCAL_PREFIX: String := "local-"

  /** Local model identifier to the name of the model it loads. */
  const LOCAL_MODEL_MAP: map<String, String> := map[
    "local-bge-small-zh-v1.5" := "BAAI/bge-small-zh-v1.5",
    "local-all-MiniLM-L6-v2" := "Xenova/all-MiniLM-L6-v2"
  ]

  const FALLBACK_LOCAL_MODEL: String := "Xenova/all-MiniLM-L6-v2"
  const DASHSCOPE_BASE_URL: String := "https://dashscope.aliyuncs.com/compatible-mode/v1"
  const EMBEDDING_DIMENSIONS: nat := 512
  const EMBEDDING_ERROR_PREFIX: String := "Failed to generate embedding: "

  /** The caller-supplied credentials (`openaiConfig`). */
  datatype RemoteConfig = RemoteConfig(apiKey: String, baseUrl: Option<String>)

  /** The one request the remote path sends. */
  datatype EmbeddingRequest = EmbeddingRequest(
    apiKey: String, baseUrl: String, model: String, input: String, dimensions: nat)

  /** The process-level collaborators: the `DASHSCOPE_API_KEY` variable (`""`
      when unset), the local runtime (model name and text to a vector or a
      failure) and the vendor endpoint. */
  datatype EmbeddingEnv = EmbeddingEnv(
    dashscopeApiKey: String,
    runLocal: (String, String) -> Result<Vector, String>,
    callVendor: EmbeddingRequest -> Result<Vector, String>)

  predicate IsLocalModel(model: String) {
    StartsWith(model, LOCAL_PREFIX)
  }

  /** The model a local identifier loads; an unmapped one falls back to the
      MiniLM model. */
  function HuggingFaceModel(model: String): (name: String)
    ensures model in LOCAL_MODEL_MAP ==> name == LOCAL_MODEL_MAP[model]
    ensures model !in LOCAL_MODEL_MAP ==> name == FALLBACK_LOCAL_MODEL
    ensures name in LOCAL_MODEL_MAP.Values
  {
    assert LOCAL_MODEL_MAP["local-all-MiniLM-L6-v2"] == FALLBACK_LOCAL_MODEL;
    if model in LOCAL_MODEL_MAP && LOCAL_MODEL_MAP[model] != [] then LOCAL_MODEL_MAP[model]
    else FALLBACK_LOCAL_MODEL
  }

  /** The request the remote path would send, or `None` when neither the
      config nor the environment supplies a key. */
  function RemoteRequest(text: String, model: String, config: Option<RemoteConfig>, env: EmbeddingEnv): Option<EmbeddingRequest> {
    var apiKey := if config.Some? && config.value.apiKey != [] then config.value.apiKey else env.dashscopeApiKey;
    var baseUrl := if config.Some? && config.value.baseUrl.Some? && config.value.baseUrl.value != []
                   then config.value.baseUrl.value else DASHSCOPE_BASE_URL;
    if apiKey == [] then None
    else Some(EmbeddingRequest(apiKey, baseUrl, model, text, EMBEDDING_DIMENSIONS))
  }

  /** The remote request asks for 512 dimensions of the given model and
      text; its key is the config's key when that is non-empty, otherwise the
      environment's; its base URL is the config's when that is set and
      non-empty, and the DashScope endpoint when it is missing or empty;
      and there is no request exactly when both keys are empty. */
  lemma RemoteRequestShape(text: String, model: String, config: Option<RemoteConfig>, env: EmbeddingEnv)
    ensures var req := RemoteRequest(text, model, config, env);
      var configKey := if config.Some? then config.value.apiKey else [];
      && (req.None? <==> configKey == [] && env.dashscopeApiKey == [])
      && (req.Some? ==>
            && req.value.dimensions == 512
            && req.value.model == model && req.value.input == text
            && req.value.apiKey == (if configKey != [] then configKey else env.dashscopeApiKey)
            && req.value.apiKey != []
            && (config.None? || config.value.baseUrl.None? ==> req.value.baseUrl == DASHSCOPE_BASE_URL)
            && (config.Some? && config.value.baseUrl == Some([]) ==> req.value.baseUrl == DASHSCOPE_BASE_URL)
            && (config.Some? && config.value.baseUrl.Some? && config.value.baseUrl.value != [] ==>
                  req.value.baseUrl == config.value.baseUrl.value))
  {
  }

  /** `generateEmbedding`. A local identifier runs the local runtime and turns
      any failure into the empty vector; a remote one with no key returns the
      empty vector; otherwise the vendor's vector is returned and its failure
      rethrown with the fixed prefix. */
  function GenerateEmbedding(text: String, model: String, config: Option<RemoteConfig>, env: EmbeddingEnv): (r: Result<Vector, String>)
    ensures IsLocalModel(model) ==> r.Success?
    ensures r.Failure? ==> StartsWith(r.error, EMBEDDING_ERROR_PREFIX)
  {
    if IsLocalModel(model) then
      match env.runLocal(HuggingFaceModel(model), text)
      case Success(v) => Success(v)
      case Failure(_) => Success([])
    else
      match RemoteRequest(text, model, config, env)
      case None => Success([])
      case Some(req) =>
        match env.callVendor(req)
        case Success(v) => Success(v)
        case Failure(message) => Failure(EMBEDDING_ERROR_PREFIX + message)
  }

  /** The failure policy, end to end: a local model never fails and yields
      either the runtime's vector or `[]`; a remote model with no key yields
      `[]` whatever the vendor would do; otherwise the outcome is the
      vendor's, with its failure message prefixed. */
  lemma EmbeddingPolicy(text: String, model: String, config: Option<RemoteConfig>, env: EmbeddingEnv)
    ensures var r := GenerateEmbedding(text, model, config, env);
      && (IsLocalModel(model) ==>
            var local := env.runLocal(HuggingFaceModel(model), text);
            r == Success(if local.Success? then local.value else []))
      && (!IsLocalModel(model) && RemoteRequest(text, model, config, env).None? ==>
            forall vendor: EmbeddingRequest -> Result<Vector, String> ::
              GenerateEmbedding(text, model, config, env.(callVendor := vendor)) == Success([]))
      && (!IsLocalModel(model) && RemoteRequest(text, model, config, env).Some? ==>
            var reply := env.callVendor(RemoteRequest(text, model, config, env).value);
            (reply.Success? ==> r == reply)
            && (reply.Failure? ==> r == Failure(EMBEDDING_ERROR_PREFIX + reply.error)))
  {
  }

  /** The identifiers of the table that take the local path are exactly the
      ones with a mapped model, so the fallback model is never needed for an
      accepted identifier; the default identifier is the remote one. */
  lemma EmbeddingModelsTable()
    ensures DEFAULT_EMBEDDING_MODEL in EMBEDDING_MODELS && !IsLocalModel(DEFAULT_EMBEDDING_MODEL)
    ensures forall m | m in EMBEDDING_MODELS :: IsLocalModel(m) <==> m in LOCAL_MODEL_MAP
    ensures forall m | m in LOCAL_MODEL_MAP :: m in EMBEDDING_MODELS
  {
    assert EMBEDDING_MODELS[0][0] == 't' != LOCAL_PREFIX[0];
    assert EMBEDDING_MODELS[1][..6] == LOCAL_PREFIX;
    assert EMBEDDING_MODELS[2][..6] == LOCAL_PREFIX;
  }

  /** The local runtime as the cache provides it: the named model's cached
      pipeline extracts the vector when it loaded and fails when it did not. */
  function CachedRunner(entries: map<String, Pipeline>, extract: (String, String) -> Result<Vector, String>): (String, String) -> Result<Vector, String> {
    (name: String, text: String) =>
      if name in entries && entries[name].loaded then extract(name, text) else Failure("model load failed")
  }

  /** `generateEmbedding` over the cache: with the runtime the cache
      provides, a local model whose pipeline loaded yields the extracted
      vector (or `[]` when extraction fails), and one whose cached load
      failed yields `[]` on every call. */
  lemma EmbeddingThroughCache(text: String, model: String, config: Option<RemoteConfig>, env: EmbeddingEnv,
                              entries: map<String, Pipeline>, extract: (String, String) -> Result<Vector, String>)
    requires IsLocalModel(model) && HuggingFaceModel(model) in entries
    ensures var r := GenerateEmbedding(text, model, config, env.(runLocal := CachedRunner(entries, extract)));
      var hf := HuggingFaceModel(model);
      && (entries[hf].loaded ==> r == Success(if extract(hf, text).Success? then extract(hf, text).value else []))
      && (!entries[hf].loaded ==> r == Success([]))
  {
  }

  /** A loaded (or failed) feature-extraction pipeline: the model it was
      created for, the creation it came from, and whether loading worked. */
  datatype Pipeline = Pipeline(modelName: String, instance: nat, loaded: bool)

  /** The process-wide cache of local pipelines. The cache holds the pending
      load itself, so a load that failed stays cached and is not retried. */
  class LocalPipelineCache {
    var entries: map<String, Pipeline>
    var created: nat
    /** The model names in the order their pipelines were created. */
    ghost var loads: seq<String>

    ghost predicate Valid()
      reads this
    {
      && |loads| == created
      && (forall i, j | 0 <= i < j < |loads| :: loads[i] != loads[j])
      && (forall m :: m in entries <==> m in loads)
      && (forall m | m in entries :: entries[m].modelName == m && entries[m].instance < created)
    }

    constructor ()
      ensures Valid() && entries == map[] && loads == []
    {
      entries := map[];
      created := 0;
      loads := [];
    }

    /** `getLocalPipeline`: create the pipeline for `modelName` on first use,
        return the cached one afterwards. `load` says whether loading that
        model works. */
    method GetLocalPipeline(modelName: String, load: String -> bool) returns (p: Pipeline)
      requires Valid()
      modifies this
      ensures Valid()
      ensures p.modelName == modelName
      ensures modelName in old(entries) ==>
        p == old(entries)[modelName] && entries == old(entries) && loads == old(loads)
      ensures modelName !in old(entries) ==>
        p == Pipeline(modelName, old(created), load(modelName))
        && entries == old(entries)[modelName := p] && loads == old(loads) + [modelName]
    {
      if modelName !in entries {
        var pipeline := Pipeline(modelName, created, load(modelName));
        entries := entries[modelName := pipeline];
        created := created + 1;
        loads := loads + [modelName];
      }
      p := entries[modelName];
    }

    /** `generateLocalEmbedding`: fetch the pipeline of the mapped model
        through the cache and run it on the text. A pipeline whose load
        failed fails every call made with it, including every later one,
        since the failed load is what the cache keeps. */
    method GenerateLocalEmbedding(text: String, model: String, load: String -> bool,
                                  extract: (String, String) -> Result<Vector, String>)
      returns (r: Result<Vector, String>)
      requires Valid()
      modifies this
      ensures Valid()
      ensures HuggingFaceModel(model) in entries
      ensures entries == old(entries)[HuggingFaceModel(model) := entries[HuggingFaceModel(model)]]
      ensures var hf := HuggingFaceModel(model);
        hf in old(entries) ==> entries == old(entries)
      ensures var p := entries[HuggingFaceModel(model)];
        r == (if p.loaded then extract(HuggingFaceModel(model), text) else Failure("model load failed"))
      ensures var hf := HuggingFaceModel(model);
        hf in old(entries) && !old(entries)[hf].loaded ==> r.Failure?
      ensures r == CachedRunner(entries, extract)(HuggingFaceModel(model), text)
    {
      var hf := HuggingFaceModel(model);
      var p := GetLocalPipeline(hf, load);
      if p.loaded {
        r := extract(hf, text);
      } else {
        r := Failure("model load failed");
      }
    }
  }
}

=== FILE: json.dfy ===
/** The JSON values that request bodies, metadata records and database rows
    carry, and JavaScript's truthiness on them. */
module Json {
  import opened Text

  /** A scalar JSON value. `Undefined` is a property that is absent. */
  datatype Value = Undefined | Null | Bool(b: bool) | Number(n: real) | Str(s: String)

  /** A flat JSON object such as a document's `metadata`. */
  type Record = map<String, Value>

  /** JavaScript's `!!v`: `undefined`, `null`, `false`, `0` and `''` are
      falsy, everything else is truthy. */
  predicate Truthy(v: Value) {
    match v
    case Undefined => false
    case Null => false
    case Bool(b) => b
    case Number(n) => n != 0.0
    case Str(s) => s != []
  }

  /** `a || b`. */
  function Or(a: Value, b: Value): (r: Value)
    ensures Truthy(a) ==> r == a
    ensures !Truthy(a) ==> r == b
  {
    if Truthy(a) then a else b
  }

  /** `a ?? b`: only `undefined` and `null` fall back. */
  function Coalesce(a: Value, b: Value): (r: Value)
    ensures a.Undefined? || a.Null? ==> r == b
    ensures !(a.Undefined? || a.Null?) ==> r == a
  {
    if a.Undefined? || a.Null? then b else a
  }
}

=== FILE: providers.dfy ===
/** The table of known chat providers: each preset's endpoint, its model
    list, and whether it is reached through the Anthropic transport. */
module Providers {
  import opened Wrappers
  import opened Text

  datatype ModelOption = ModelOption(value: String, title: String)

  /** `useAnthropicSdk` is an optional flag: most presets leave it out. */
  datatype Preset = Preset(
    id: String, name: String, baseUrl: String, models: seq<ModelOption>, useAnthropicSdk: Option<bool>)

  const PROVIDER_PRESETS: seq<Preset> := [
    Preset("openai", "OpenAI", "https://api.openai.com/v1",
      [ModelOption("gpt-4o", "GPT-4o"), ModelOption("gpt-4o-mini", "GPT-4o Mini"),
       ModelOption("gpt-3.5-turbo", "GPT-3.5 Turbo")], None),
    Preset("anthropic", "Anthropic", "https://api.anthropic.com",
      [ModelOption("claude-sonnet-4-20250514", "Claude Sonnet 4"),
       ModelOption("claude-3-5-haiku-20241022", "Claude 3.5 Haiku")], Some(true)),
    Preset("deepseek", "DeepSeek", "https://api.deepseek.com/v1",
      [ModelOption("deepseek-chat", "DeepSeek Chat (V3)"),
       ModelOption("deepseek-reasoner", "DeepSeek Reasoner (R1)")], None),
    Preset("qwen", "通义千问 (Qwen)", "https://dashscope.aliyuncs.com/compatible-mode/v1",
      [ModelOption("qwen-max", "Qwen Max"), ModelOption("qwen-plus", "Qwen Plus"),
       ModelOption("qwen-turbo", "Qwen Turbo")], None),
    Preset("zhipu", "智谱 GLM", "https://open.bigmodel.cn/api/paas/v4",
      [ModelOption("glm-4-plus", "GLM-4 Plus"), ModelOption("glm-4-flash", "GLM-4 Flash")], None),
    Preset("moonshot", "月之暗面 (Moonshot)", "https://api.moonshot.cn/v1",
      [ModelOption("moonshot-v1-8k", "Moonshot v1 8K"), ModelOption("moonshot-v1-32k", "Moonshot v1 32K"),
       ModelOption("moonshot-v1-128k", "Moonshot v1 128K")], None),
    Preset("custom", "Custom", "", [], None)
  ]

  /** `presets.find(p => p.id === id)`: the first preset with that id. */
  function FindPreset(presets: seq<Preset>, id: String): (r: Option<Preset>)
    ensures r.None? <==> forall i | 0 <= i < |presets| :: presets[i].id != id
    ensures r.Some? ==> exists i | 0 <= i < |presets| ::
      presets[i] == r.value && r.value.id == id && forall j | 0 <= j < i :: presets[j].id != id
    decreases |presets|
  {
    if |presets| == 0 then None
    else if presets[0].id == id then Some(presets[0])
    else
      var r := FindPreset(presets[1..], id);
      assert r.Some? ==> exists i | 0 <= i < |presets| ::
        presets[i] == r.value && r.value.id == id && forall j | 0 <= j < i :: presets[j].id != id by {
        if r.Some? {
          var i :| 0 <= i < |presets[1..]| && presets[1..][i] == r.value && r.value.id == id
                   && forall j | 0 <= j < i :: presets[1..][j].id != id;
          assert presets[i + 1] == r.value;
          assert forall j | 0 <= j < i + 1 :: presets[j].id != id by {
            forall j | 0 <= j < i + 1 ensures presets[j].id != id {
              if j > 0 { assert presets[j] == presets[1..][j - 1]; }
            }
          }
        }
      }
      r
  }

  /** `getPresetById`. */
  function GetPresetById(id: String): Option<Preset> {
    FindPreset(PROVIDER_PRESETS, id)
  }

  /** No two presets share an id (their first letters already differ). */
  lemma PresetIdsDistinct()
    ensures forall i, j | 0 <= i < j < |PROVIDER_PRESETS| :: PROVIDER_PRESETS[i].id != PROVIDER_PRESETS[j].id
  {
    var firsts := "oadqzmc";
    forall i | 0 <= i < |PROVIDER_PRESETS|
      ensures |PROVIDER_PRESETS[i].id| > 0 && PROVIDER_PRESETS[i].id[0] == firsts[i]
    {
    }
  }

  /** So the lookup finds each preset by its own id, and nothing else. */
  lemma LookupById(id: String)
    ensures forall i | 0 <= i < |PROVIDER_PRESETS| :: GetPresetById(PROVIDER_PRESETS[i].id) == Some(PROVIDER_PRESETS[i])
    ensures GetPresetById(id).Some? ==> GetPresetById(id).value.id == id && GetPresetById(id).value in PROVIDER_PRESETS
  {
    PresetIdsDistinct();
  }

  /** Only the `anthropic` preset sets the SDK flag, and it sets it to true. */
  lemma OnlyAnthropicUsesSdk()
    ensures forall i | 0 <= i < |PROVIDER_PRESETS| ::
      PROVIDER_PRESETS[i].useAnthropicSdk.Some? <==> PROVIDER_PRESETS[i].id == "anthropic"
    ensures forall i | 0 <= i < |PROVIDER_PRESETS| && PROVIDER_PRESETS[i].useAnthropicSdk.Some? ::
      PROVIDER_PRESETS[i].useAnthropicSdk.value
  {
    PresetIdsDistinct();
    assert PROVIDER_PRESETS[1].id == "anthropic";
  }

  /** `custom` has no endpoint and no models; every other preset has an
      endpoint and at least one model. */
  lemma CustomIsTheOnlyEmptyPreset()
    ensures forall i | 0 <= i < |PROVIDER_PRESETS| ::
      (PROVIDER_PRESETS[i].id == "custom" <==> PROVIDER_PRESETS[i].models == [])
    ensures forall i | 0 <= i < |PROVIDER_PRESETS| ::
      (PROVIDER_PRESETS[i].id == "custom" <==> PROVIDER_PRESETS[i].baseUrl == [])
  {
    PresetIdsDistinct();
    assert PROVIDER_PRESETS[6].id == "custom";
  }

  /** `openai` leads the table, and its models are the fallback list. */
  lemma OpenAIFirst()
    ensures |PROVIDER_PRESETS| > 0 && PROVIDER_PRESETS[0].id == "openai"
    ensures GetPresetById("openai") == Some(PROVIDER_PRESETS[0]) && |PROVIDER_PRESETS[0].models| == 3
  {
  }
}

=== FILE: rag.dfy ===
/** Retrieval-augmented generation: fetching the stored chunks nearest to a
    query, and folding the retrieved chunks into the system prompt. The
    vector search is a parameter: a function from the search request to the
    rows it returns (possibly none) or a database error. */
module Rag {
  import opened Wrappers
  import opened Text
  import Json
  import Embedding

  const MATCH_THRESHOLD: real := 0.5
  const MATCH_COUNT: nat := 5

  /** The arguments of the `match_documents` call. */
  datatype SearchRequest = SearchRequest(
    queryEmbedding: Embedding.Vector, botId: String, threshold: real, count: nat)

  /** One row of the search result, with its optional columns. */
  datatype MatchRow = MatchRow(content: String, metadata: Option<Json.Record>, similarity: Option<real>)

  /** One retrieved chunk as the rest of the system sees it. */
  datatype RetrievedContext = RetrievedContext(content: String, metadata: Json.Record, similarity: Option<real>)

  /** The search: the rows (`None` for a null result) or the error message. */
  type Search = SearchRequest -> Result<Option<seq<MatchRow>>, String>

  function Normalize(row: MatchRow): (c: RetrievedContext)
    ensures c.content == row.content && c.similarity == row.similarity
    ensures c.metadata == if row.metadata.Some? then row.metadata.value else map[]
  {
    RetrievedContext(row.content, row.metadata.GetOr(map[]), row.similarity)
  }

  /** `retrieveContext`: a blank query retrieves nothing; otherwise the query
      is embedded with the default model and no caller credentials (a failure
      there propagates), the nearest chunks of the bot above the threshold
      are fetched, and a search error retrieves nothing. */
  function RetrieveContext(botId: String, query: String, env: Embedding.EmbeddingEnv, search: Search)
    : (r: Result<seq<RetrievedContext>, String>)
    ensures IsBlank(query) ==> r == Success([])
    ensures r.Failure? ==> StartsWith(r.error, Embedding.EMBEDDING_ERROR_PREFIX)
  {
    if Trim(query) == [] then Success([])
    else
      match Embedding.GenerateEmbedding(query, Embedding.DEFAULT_EMBEDDING_MODEL, None, env)
      case Failure(e) => Failure(e)
      case Success(embedding) =>
        match search(SearchRequest(embedding, botId, MATCH_THRESHOLD, MATCH_COUNT))
        case Failure(_) => Success([])
        case Success(rows) =>
          var found := rows.GetOr([]);
          Success(seq(|found|, i requires 0 <= i < |found| => Normalize(found[i])))
  }

  /** The request a non-blank query leads to: the query's embedding, the
      bot, threshold 0.5 and at most five matches. */
  function SearchRequestFor(botId: String, query: String, env: Embedding.EmbeddingEnv): Option<SearchRequest> {
    if Trim(query) == [] then None
    else
      match Embedding.GenerateEmbedding(query, Embedding.DEFAULT_EMBEDDING_MODEL, None, env)
      case Failure(_) => None
      case Success(embedding) => Some(SearchRequest(embedding, botId, MATCH_THRESHOLD, MATCH_COUNT))
  }

  /** A blank query makes no call at all: the outcome is the same for every
      embedding environment and every search. */
  lemma BlankQueryRetrievesNothing(botId: String, query: String)
    requires IsBlank(query)
    ensures forall env: Embedding.EmbeddingEnv, search: Search ::
      RetrieveContext(botId, query, env, search) == Success([])
  {
  }

  /** For a non-blank query: an embedding failure is the outcome whatever the
      search would return; the search is asked for at most five matches of
      this bot at similarity 0.5; a search error retrieves nothing; and the
      rows come back one for one, in order, with their content and
      similarity and with missing metadata replaced by the empty record. */
  lemma RetrieveContextOutcomes(botId: String, query: String, env: Embedding.EmbeddingEnv, search: Search)
    requires !IsBlank(query)
    ensures var emb := Embedding.GenerateEmbedding(query, Embedding.DEFAULT_EMBEDDING_MODEL, None, env);
      var r := RetrieveContext(botId, query, env, search);
      && (emb.Failure? ==> SearchRequestFor(botId, query, env).None?
                           && forall s: Search :: RetrieveContext(botId, query, env, s) == Failure(emb.error))
      && (emb.Success? ==>
            var req := SearchRequestFor(botId, query, env);
            && req == Some(SearchRequest(emb.value, botId, 0.5, 5))
            && (search(req.value).Failure? ==> r == Success([]))
            && (search(req.value).Success? ==>
                  var rows := search(req.value).value.GetOr([]);
                  && r.Success? && |r.value| == |rows|
                  && forall i | 0 <= i < |rows| ::
                       && r.value[i].content == rows[i].content
                       && r.value[i].similarity == rows[i].similarity
                       && (rows[i].metadata.Some? ==> r.value[i].metadata == rows[i].metadata.value)
                       && (rows[i].metadata.None? ==> r.value[i].metadata == map[])))
  {
  }

  const GROUNDING_INSTRUCTION: String :=
    "请优先根据以下参考文档来回答用户的问题。回答时不需要提及\"根据文档\"等字眼，用自然的语气回复即可。如果参考文档中确实没有相关信息，请坦诚告知用户你暂时没有这方面的信息，而不是自行编造答案。"

  const CONTEXT_OPEN: String := "\n\n<context>\n"
  const CONTEXT_CLOSE: String := "\n</context>"
  const BLOCK_SEPARATOR: String := "\n\n"

  /** The header of the `k`-th retrieved chunk, numbered from one. */
  function DocumentHeader(k: nat): String {
    "[Document " + NatToDecimal(k + 1) + "]\n"
  }

  function DocumentBlocks(contents: seq<String>): (blocks: seq<String>)
    ensures |blocks| == |contents|
    ensures forall k | 0 <= k < |contents| :: blocks[k] == DocumentHeader(k) + contents[k]
  {
    seq(|contents|, k requires 0 <= k < |contents| => DocumentHeader(k) + contents[k])
  }

  /** `buildContextPrompt`: the system prompt unchanged when nothing was
      retrieved; otherwise the prompt, the grounding instruction and the
      numbered chunks inside a `<context>` element. */
  function BuildContextPrompt(systemPrompt: String, contents: seq<String>): String {
    if |contents| == 0 then systemPrompt
    else systemPrompt + BLOCK_SEPARATOR + GROUNDING_INSTRUCTION + CONTEXT_OPEN
         + Join(DocumentBlocks(contents), BLOCK_SEPARATOR) + CONTEXT_CLOSE
  }

  /** Every part of a join occurs in it. */
  lemma {:induction false} JoinContainsPart(parts: seq<String>, sep: String, k: nat)
    requires k < |parts|
    ensures Contains(Join(parts, sep), parts[k])
    decreases |parts|
  {
    if |parts| == 1 {
      ContainsMiddle([], parts[0], []);
      assert [] + parts[0] + [] == Join(parts, sep);
    } else if k == 0 {
      ContainsMiddle([], parts[0], sep + Join(parts[1..], sep));
      assert [] + parts[0] + (sep + Join(parts[1..], sep)) == Join(parts, sep);
    } else {
      JoinContainsPart(parts[1..], sep, k - 1);
      ContainsWithin(parts[0] + sep, Join(parts[1..], sep), [], parts[k]);
      assert parts[0] + sep + Join(parts[1..], sep) + [] == Join(parts, sep);
    }
  }

  /** With nothing retrieved the prompt is unchanged. */
  lemma NoContextKeepsPrompt(systemPrompt: String)
    ensures BuildContextPrompt(systemPrompt, []) == systemPrompt
  {
  }

  /** With something retrieved, the prompt keeps the bot's system prompt as
      its beginning, carries the grounding instruction, ends by closing the
      context element, and includes every retrieved chunk under its
      one-based document number. */
  lemma ContextPromptGrounds(systemPrompt: String, contents: seq<String>)
    requires |contents| > 0
    ensures var p := BuildContextPrompt(systemPrompt, contents);
      && StartsWith(p, systemPrompt)
      && Contains(p, GROUNDING_INSTRUCTION)
      && EndsWith(p, CONTEXT_CLOSE)
      && forall k | 0 <= k < |contents| :: Contains(p, DocumentHeader(k) + contents[k])
  {
    var p := BuildContextPrompt(systemPrompt, contents);
    var body := Join(DocumentBlocks(contents), BLOCK_SEPARATOR);
    var head := systemPrompt + BLOCK_SEPARATOR + GROUNDING_INSTRUCTION + CONTEXT_OPEN;
    assert p == head + body + CONTEXT_CLOSE;
    ContainsMiddle(systemPrompt + BLOCK_SEPARATOR, GROUNDING_INSTRUCTION, CONTEXT_OPEN + body + CONTEXT_CLOSE);
    assert systemPrompt + BLOCK_SEPARATOR + GROUNDING_INSTRUCTION + (CONTEXT_OPEN + body + CONTEXT_CLOSE) == p;
    forall k | 0 <= k < |contents|
      ensures Contains(p, DocumentHeader(k) + contents[k])
    {
      JoinContainsPart(DocumentBlocks(contents), BLOCK_SEPARATOR, k);
      ContainsWithin(head, body, CONTEXT_CLOSE, DocumentBlocks(contents)[k]);
    }
  }
}

=== FILE: streams.dfy ===
/** Finite event streams that may end in a thrown error, and the
    filter-and-map that the streaming transports apply to a vendor's
    events. */
module Streams {
  import opened Wrappers

  /** The values a stream yields, in order, and the error it ends with when
      it ends by throwing. */
  datatype Stream<T> = Stream(items: seq<T>, failure: Option<string>)

  /** Keep the elements `f` maps to a value, mapped, in order. */
  function FilterMap<T, U>(s: seq<T>, f: T -> Option<U>): seq<U>
    decreases |s|
  {
    if |s| == 0 then []
    else (if f(s[0]).Some? then [f(s[0]).value] else []) + FilterMap(s[1..], f)
  }

  /** How many elements `f` maps to a value. */
  function CountKept<T, U>(s: seq<T>, f: T -> Option<U>): nat
    decreases |s|
  {
    if |s| == 0 then 0 else (if f(s[0]).Some? then 1 else 0) + CountKept(s[1..], f)
  }

  lemma {:induction false} FilterMapAppend<T, U>(a: seq<T>, b: seq<T>, f: T -> Option<U>)
    ensures FilterMap(a + b, f) == FilterMap(a, f) + FilterMap(b, f)
    ensures CountKept(a + b, f) == CountKept(a, f) + CountKept(b, f)
    decreases |a|
  {
    if |a| == 0 {
      assert a + b == b;
    } else {
      assert (a + b)[0] == a[0];
      assert (a + b)[1..] == a[1..] + b;
      assert FilterMap(a[1..] + b, f) == FilterMap(a[1..], f) + FilterMap(b, f)
          && CountKept(a[1..] + b, f) == CountKept(a[1..], f) + CountKept(b, f) by {
        FilterMapAppend(a[1..], b, f);
      }
    }
  }

  /** The filter has one element per kept input. */
  lemma {:induction false} FilterMapLength<T, U>(s: seq<T>, f: T -> Option<U>)
    ensures |FilterMap(s, f)| == CountKept(s, f)
    decreases |s|
  {
    if |s| > 0 {
      FilterMapLength(s[1..], f);
    }
  }

  /** The filter preserves order: the kept input at position `i` lands at
      the position given by how many inputs before it were kept. */
  lemma {:induction false} FilterMapPlaces<T, U>(s: seq<T>, f: T -> Option<U>, i: nat)
    requires i < |s| && f(s[i]).Some?
    ensures CountKept(s[..i], f) < |FilterMap(s, f)|
    ensures FilterMap(s, f)[CountKept(s[..i], f)] == f(s[i]).value
  {
    assert s == s[..i] + [s[i]] + s[i + 1..];
    FilterMapAppend(s[..i] + [s[i]], s[i + 1..], f);
    FilterMapAppend(s[..i], [s[i]], f);
    FilterMapLength(s[..i], f);
    assert FilterMap([s[i]], f) == [f(s[i]).value] by {
      assert [s[i]][1..] == [];
    }
  }

  /** Every output of the filter is the image of some input. */
  lemma {:induction false} FilterMapFrom<T, U>(s: seq<T>, f: T -> Option<U>, k: nat)
    requires k < |FilterMap(s, f)|
    ensures exists i | 0 <= i < |s| :: f(s[i]) == Some(FilterMap(s, f)[k])
    decreases |s|
  {
    var head: seq<U> := if f(s[0]).Some? then [f(s[0]).value] else [];
    var tail := FilterMap(s[1..], f);
    assert FilterMap(s, f) == head + tail;
    if k < |head| {
      assert f(s[0]) == Some(FilterMap(s, f)[k]);
    } else {
      FilterMapFrom(s[1..], f, k - |head|);
      var i :| 0 <= i < |s[1..]| && f(s[1..][i]) == Some(tail[k - |head|]);
      assert f(s[i + 1]) == Some(FilterMap(s, f)[k]);
    }
  }

  /** When every element is kept, the filter is the element-wise map. */
  lemma {:induction false} FilterMapKeepsAll<T, U>(s: seq<T>, f: T -> Option<U>)
    requires forall i | 0 <= i < |s| :: f(s[i]).Some?
    ensures |FilterMap(s, f)| == |s|
    ensures forall i | 0 <= i < |s| :: FilterMap(s, f)[i] == f(s[i]).value
    decreases |s|
  {
    if |s| > 0 {
      FilterMapKeepsAll(s[1..], f);
      forall i | 0 <= i < |s|
        ensures FilterMap(s, f)[i] == f(s[i]).value
      {
        if i > 0 { assert s[1..][i - 1] == s[i]; }
      }
    }
  }

  /** No more inputs are kept than there are. */
  lemma {:induction false} CountKeptAtMost<T, U>(s: seq<T>, f: T -> Option<U>)
    ensures CountKept(s, f) <= |s|
    decreases |s|
  {
    if |s| > 0 {
      CountKeptAtMost(s[1..], f);
    }
  }

  /** A kept input adds one to the count of every longer prefix. */
  lemma CountKeptGrows<T, U>(s: seq<T>, f: T -> Option<U>, i: nat, j: nat)
    requires i < j <= |s| && f(s[i]).Some?
    ensures CountKept(s[..i], f) < CountKept(s[..j], f)
  {
    assert s[..j] == s[..i] + [s[i]] + s[i + 1..j];
    FilterMapAppend(s[..i] + [s[i]], s[i + 1..j], f);
    FilterMapAppend(s[..i], [s[i]], f);
    assert CountKept([s[i]], f) == 1 by {
      assert [s[i]][1..] == [];
    }
  }
}

=== FILE: text.dfy ===
/** The JavaScript string operations the core relies on, on `seq<char>`.
    One element of a string is one character; lengths are counted in
    elements, as JavaScript counts UTF-16 code units. */
module Text {

  type String = seq<char>

  /** The characters matched by JavaScript's `\s` and removed by `trim()`:
      the WhiteSpace and LineTerminator productions of ECMAScript. */
  predicate IsSpace(c: char) {
    c == '\t' || c == '\n' || c == '\U{000B}' || c == '\U{000C}' || c == '\r' || c == ' '
    || c == '\U{00A0}' || c == '\U{1680}' || ('\U{2000}' <= c <= '\U{200A}')
    || c == '\U{2028}' || c == '\U{2029}' || c == '\U{202F}' || c == '\U{205F}'
    || c == '\U{3000}' || c == '\U{FEFF}'
  }

  /** A string that `trim()` turns into `''`, i.e. one that JavaScript's
      `s.trim()` treats as falsy. */
  predicate IsBlank(s: String) {
    forall i | 0 <= i < |s| :: IsSpace(s[i])
  }

  /** A string with no white space at either end. */
  predicate IsTrimmed(s: String) {
    s == [] || (!IsSpace(s[0]) && !IsSpace(s[|s| - 1]))
  }

  /** The first index at or after `i` that does not hold white space, or
      `|s|` when there is none. */
  function SkipSpace(s: String, i: nat): (n: nat)
    requires i <= |s|
    ensures i <= n <= |s|
    ensures forall j | i <= j < n :: IsSpace(s[j])
    ensures n == |s| || !IsSpace(s[n])
    decreases |s| - i
  {
    if i < |s| && IsSpace(s[i]) then SkipSpace(s, i + 1) else i
  }

  /** The index just past the last character before `j` that is not white
      space, or 0 when there is none. */
  function SkipSpaceBack(s: String, j: nat): (n: nat)
    requires j <= |s|
    ensures n <= j
    ensures forall k | n <= k < j :: IsSpace(s[k])
    ensures n == 0 || !IsSpace(s[n - 1])
    decreases j
  {
    if j > 0 && IsSpace(s[j - 1]) then SkipSpaceBack(s, j - 1) else j
  }

  /** `s.trim()`: the text between the leading and the trailing white
      space. */
  function Trim(s: String): (r: String)
    ensures IsTrimmed(r)
    ensures r == [] <==> IsBlank(s)
    ensures |r| <= |s|
  {
    var a := SkipSpace(s, 0);
    var b := SkipSpaceBack(s, |s|);
    if b <= a then [] else s[a..b]
  }

  /** Trimming a string that has no white space at its ends changes nothing. */
  lemma TrimOfTrimmed(s: String)
    requires IsTrimmed(s)
    ensures Trim(s) == s
  {
    if s != [] {
      assert SkipSpace(s, 0) == 0;
      assert SkipSpaceBack(s, |s|) == |s|;
    }
  }

  /** Trimming a string that starts with a non-space character keeps every
      character up to any later non-space one. */
  lemma TrimKeepsPrefix(s: String, k: nat)
    requires k < |s| && !IsSpace(s[0]) && !IsSpace(s[k])
    ensures s[..k + 1] <= Trim(s)
  {
    assert SkipSpace(s, 0) == 0;
    var b := SkipSpaceBack(s, |s|);
    assert k < b;
    assert Trim(s) == s[..b];
  }

  predicate StartsWith(s: String, prefix: String) {
    prefix <= s
  }

  predicate EndsWith(s: String, suffix: String) {
    |suffix| <= |s| && s[|s| - |suffix|..] == suffix
  }

  /** `s.includes(sub)`. */
  predicate Contains(s: String, sub: String) {
    exists i | 0 <= i <= |s| - |sub| :: sub <= s[i..]
  }

  lemma ContainsMiddle(a: String, sub: String, b: String)
    ensures Contains(a + sub + b, sub)
  {
    var s := a + sub + b;
    assert sub <= s[|a|..];
  }

  /** If `s` contains `sub`, so does any string that has `s` in it. */
  lemma ContainsWithin(a: String, s: String, b: String, sub: String)
    requires Contains(s, sub)
    ensures Contains(a + s + b, sub)
  {
    var i :| 0 <= i <= |s| - |sub| && sub <= s[i..];
    var t := a + s + b;
    assert t[|a| + i..][..|sub|] == s[i..][..|sub|];
    assert sub <= t[|a| + i..];
  }

  /** A string contains its trimmed form. */
  lemma ContainsTrim(s: String)
    ensures Contains(s, Trim(s))
  {
    var a := SkipSpace(s, 0);
    var b := SkipSpaceBack(s, |s|);
    if b <= a {
      assert Trim(s) <= s[0..];
    } else {
      assert Trim(s) <= s[a..];
    }
  }

  /** Trimming keeps every part of a string that has no white space at its
      ends, since it removes white space only. */
  lemma TrimKeepsInner(s: String, t: String)
    requires Contains(s, t) && t != [] && IsTrimmed(t)
    ensures Contains(Trim(s), t)
  {
    var i :| 0 <= i <= |s| - |t| && t <= s[i..];
    var a := SkipSpace(s, 0);
    var b := SkipSpaceBack(s, |s|);
    assert s[i] == t[0] && s[i + |t| - 1] == t[|t| - 1];
    assert a <= i;
    assert i + |t| <= b;
    var r := s[a..b];
    assert Trim(s) == r;
    forall k | 0 <= k < |t| ensures r[i - a + k] == t[k] {
      assert r[i - a + k] == s[i + k] == s[i..][k];
    }
    assert t <= r[i - a..];
  }

  /** `toLowerCase()` restricted to the ASCII letters, the only letters
      the core's keyword tables and file extensions use. */
  function ToLowerChar(c: char): (d: char)
    ensures 'A' <= c <= 'Z' ==> d as int == c as int + 32
    ensures !('A' <= c <= 'Z') ==> d == c
  {
    if 'A' <= c <= 'Z' then (c as int + 32) as char else c
  }

  function ToLower(s: String): (r: String)
    ensures |r| == |s|
    ensures forall i | 0 <= i < |s| :: r[i] == ToLowerChar(s[i])
  {
    seq(|s|, i requires 0 <= i < |s| => ToLowerChar(s[i]))
  }

  /** Lower-casing twice is lower-casing once. */
  lemma ToLowerIdempotent(s: String)
    ensures ToLower(ToLower(s)) == ToLower(s)
  {
    var l := ToLower(s);
    forall i | 0 <= i < |s|
      ensures ToLower(l)[i] == l[i]
    {
      assert !('A' <= l[i] <= 'Z');
    }
  }

  /** `s.slice(-n)`: the last `n` elements, except that `slice(-0)` is
      `slice(0)` and keeps everything. */
  function SliceLast<T>(s: seq<T>, n: nat): (r: seq<T>)
    ensures |r| <= |s| && r == s[|s| - |r|..]
    ensures n == 0 ==> r == s
    ensures n > 0 ==> |r| == if n < |s| then n else |s|
  {
    if n == 0 || n >= |s| then s else s[|s| - n..]
  }

  /** `s.slice(0, n)`: at most the first `n` elements. */
  function Take<T>(s: seq<T>, n: nat): (r: seq<T>)
    ensures r <= s
    ensures |r| == if n < |s| then n else |s|
  {
    if n >= |s| then s else s[..n]
  }

  /** `s.split(sep)` for a one-character separator. */
  function Split(s: String, sep: char): (parts: seq<String>)
    ensures |parts| >= 1
    ensures forall k | 0 <= k < |parts| :: sep !in parts[k]
    decreases |s|
  {
    if |s| == 0 then [[]]
    else
      var rest := Split(s[1..], sep);
      if s[0] == sep then [[]] + rest
      else [[s[0]] + rest[0]] + rest[1..]
  }

  /** A string without the separator splits into itself alone. */
  lemma {:induction false} SplitWithoutSeparator(s: String, sep: char)
    requires sep !in s
    ensures Split(s, sep) == [s]
    decreases |s|
  {
    if |s| > 0 {
      assert sep !in s[1..] by {
        forall j | 0 <= j < |s| - 1 ensures s[1..][j] != sep {
          assert s[1..][j] == s[j + 1];
        }
      }
      SplitWithoutSeparator(s[1..], sep);
      assert [s[0]] + s[1..] == s;
    }
  }

  /** A split at a separator that ends a separator-free first piece starts
      with that piece. */
  lemma {:induction false} SplitAfterPiece(p: String, c: char, t: String)
    requires c !in p
    ensures Split(p + [c] + t, c) == [p] + Split(t, c)
    decreases |p|
  {
    var s := p + [c] + t;
    if |p| == 0 {
      assert s[0] == c && s[1..] == t;
    } else {
      assert c !in p[1..] by {
        forall j | 0 <= j < |p| - 1 ensures p[1..][j] != c {
          assert p[1..][j] == p[j + 1];
        }
      }
      SplitAfterPiece(p[1..], c, t);
      assert s[0] == p[0] && s[1..] == p[1..] + [c] + t;
      assert [p[0]] + p[1..] == p;
    }
  }

  /** `parts.join(sep)`. */
  function Join(parts: seq<String>, sep: String): String
    decreases |parts|
  {
    if |parts| == 0 then []
    else if |parts| == 1 then parts[0]
    else parts[0] + sep + Join(parts[1..], sep)
  }

  lemma JoinConsFirst(c: char, p: String, ps: seq<String>, sep: String)
    ensures Join([[c] + p] + ps, sep) == [c] + Join([p] + ps, sep)
  {
    if |ps| > 0 {
      assert ([[c] + p] + ps)[1..] == ps;
      assert ([p] + ps)[1..] == ps;
    }
  }

  /** Joining the pieces of a split restores the string. */
  lemma {:induction false} JoinSplit(s: String, c: char)
    ensures Join(Split(s, c), [c]) == s
    decreases |s|
  {
    if |s| > 0 {
      var rest := Split(s[1..], c);
      JoinSplit(s[1..], c);
      if s[0] == c {
        assert ([[]] + rest)[1..] == rest;
      } else {
        assert [rest[0]] + rest[1..] == rest;
        JoinConsFirst(s[0], rest[0], rest[1..], [c]);
      }
    }
  }

  /** Splitting a join of separator-free pieces gives the pieces back. */
  lemma {:induction false} SplitJoin(ps: seq<String>, c: char)
    requires |ps| >= 1
    requires forall k | 0 <= k < |ps| :: c !in ps[k]
    ensures Split(Join(ps, [c]), c) == ps
    decreases |ps|
  {
    if |ps| == 1 {
      SplitWithoutSeparator(ps[0], c);
    } else {
      SplitJoin(ps[1..], c);
      SplitAfterPiece(ps[0], c, Join(ps[1..], [c]));
      assert [ps[0]] + ps[1..] == ps;
    }
  }

  /** A join splits at any interior piece boundary into two joins. */
  lemma {:induction false} JoinSplitAt(parts: seq<String>, k: nat, sep: String)
    requires 0 < k < |parts|
    ensures Join(parts, sep) == Join(parts[..k], sep) + sep + Join(parts[k..], sep)
    decreases k
  {
    if k > 1 {
      JoinSplitAt(parts[1..], k - 1, sep);
      assert parts[1..][..k - 1] == parts[..k][1..];
      assert parts[1..][k - 1..] == parts[k..];
    }
  }

  /** All the strings of `ss`, one after the other. */
  function Concat(ss: seq<String>): String
    decreases |ss|
  {
    if |ss| == 0 then [] else ss[0] + Concat(ss[1..])
  }

  lemma ConcatCons(s: String, ss: seq<String>)
    ensures Concat([s] + ss) == s + Concat(ss)
  {
    assert ([s] + ss)[1..] == ss;
  }

  lemma {:induction false} ConcatAppend(ss: seq<String>, s: String)
    ensures Concat(ss + [s]) == Concat(ss) + s
    decreases |ss|
  {
    if |ss| > 0 {
      assert (ss + [s])[1..] == ss[1..] + [s];
      ConcatAppend(ss[1..], s);
    }
  }

  /** The characters of `s[i..j]` that are not white space, in order. */
  function RemoveSpaceIn(s: String, i: nat, j: nat): String
    requires i <= j <= |s|
    decreases j - i
  {
    if i == j then [] else (if IsSpace(s[i]) then [] else [s[i]]) + RemoveSpaceIn(s, i + 1, j)
  }

  /** The string with every white-space character left out. */
  function RemoveSpace(s: String): String {
    RemoveSpaceIn(s, 0, |s|)
  }

  /** Removing white space distributes over a cut of the range. */
  lemma {:induction false} RemoveSpaceInSplit(s: String, i: nat, k: nat, j: nat)
    requires i <= k <= j <= |s|
    ensures RemoveSpaceIn(s, i, j) == RemoveSpaceIn(s, i, k) + RemoveSpaceIn(s, k, j)
    decreases k - i
  {
    if i < k {
      RemoveSpaceInSplit(s, i + 1, k, j);
    }
  }

  lemma {:induction false} RemoveSpaceInBlank(s: String, i: nat, j: nat)
    requires i <= j <= |s|
    requires forall k | i <= k < j :: IsSpace(s[k])
    ensures RemoveSpaceIn(s, i, j) == []
    decreases j - i
  {
    if i < j {
      RemoveSpaceInBlank(s, i + 1, j);
    }
  }

  /** The range only matters through the characters it covers. */
  lemma {:induction false} RemoveSpaceInSame(s: String, i: nat, j: nat, t: String, d: int)
    requires i <= j <= |s| && 0 <= i + d && j + d <= |t|
    requires forall k | i <= k < j :: t[k + d] == s[k]
    ensures RemoveSpaceIn(s, i, j) == RemoveSpaceIn(t, i + d, j + d)
    decreases j - i
  {
    if i < j {
      RemoveSpaceInSame(s, i + 1, j, t, d);
    }
  }

  lemma RemoveSpaceAppend(a: String, b: String)
    ensures RemoveSpace(a + b) == RemoveSpace(a) + RemoveSpace(b)
  {
    var s := a + b;
    RemoveSpaceInSplit(s, 0, |a|, |s|);
    RemoveSpaceInSame(a, 0, |a|, s, 0);
    RemoveSpaceInSame(b, 0, |b|, s, |a|);
  }

  /** Removing white space from a text with a run of white space cut out
      of it gives what removing it from the whole text gives. */
  lemma RemoveSpaceAcrossGap(s: String, b: nat, c: nat)
    requires b <= c <= |s|
    requires forall j | b <= j < c :: IsSpace(s[j])
    ensures RemoveSpace(s) == RemoveSpace(s[..b]) + RemoveSpace(s[c..])
  {
    RemoveSpaceInSplit(s, 0, b, |s|);
    RemoveSpaceInSplit(s, b, c, |s|);
    RemoveSpaceInBlank(s, b, c);
    RemoveSpaceInSame(s[..b], 0, b, s, 0);
    RemoveSpaceInSame(s[c..], 0, |s| - c, s, c);
  }

  function DigitChar(d: nat): char
    requires d < 10
  {
    "0123456789"[d]
  }

  /** `String(n)` for a natural number: its decimal digits. */
  function NatToDecimal(n: nat): (r: String)
    ensures |r| >= 1
    decreases n
  {
    if n < 10 then [DigitChar(n)] else NatToDecimal(n / 10) + [DigitChar(n % 10)]
  }
}

=== FILE: upload_route.dfy ===
/** Document ingestion: the checks an upload passes before anything is
    stored, the text extraction dispatch, the batch loop that embeds and
    records the chunks, and the document's status from `processing` to
    `ready` or `error`. Storage is a sequence of rows; the parsers, the
    file download and the database writes' outcomes are parameters. */
module UploadRoute {
  import opened Wrappers
  import opened Text
  import Embedding
  import Chunker

  type Bytes = seq<bv8>

  const SUPPORTED_EXTS: seq<String> := ["pdf", "txt", "md", "doc", "docx"]
  const BATCH_SIZE: nat := 10
  /** The error messages of the route's replies. */
  const UNAUTHORIZED: String := "Unauthorized"
  const MISSING_FIELDS: String := "Missing required fields"
  const INVALID_MODEL: String := "Invalid embedding model"
  const UNSUPPORTED_TYPE: String := "Unsupported file type. Supported: PDF, TXT, MD, DOC, DOCX"
  const BOT_NOT_FOUND: String := "Bot not found"
  const DOWNLOAD_FAILED: String := "Failed to download file from storage"
  const UPLOAD_FAILED: String := "Upload failed"
  const NO_TEXT: String := "File contains no text content"
  const DOCUMENT_INSERT_FAILED: String := "Failed to create document record"
  const PROCESSING_FAILED: String := "Failed to process document"
  const WORD_PARSE_ERROR: String := "Failed to parse Word file."

  /** The document parsers: PDF, the structured DOCX reader, the generic
      Word reader (each may throw), and UTF-8 decoding. */
  datatype Parsers = Parsers(
    pdf: Bytes -> Result<String, String>,
    docx: Bytes -> Result<String, String>,
    word: Bytes -> Result<String, String>,
    utf8: Bytes -> String)

  /** `extractText`. */
  function ExtractText(buffer: Bytes, ext: String, parsers: Parsers): Result<String, String> {
    if ext == "pdf" then parsers.pdf(buffer)
    else if ext == "doc" || ext == "docx" then
      var structured := if ext == "docx" then parsers.docx(buffer) else Failure("");
      if structured.Success? && Trim(structured.value) != [] then structured
      else match parsers.word(buffer)
        case Success(body) => Success(body)
        case Failure(_) => Failure(WORD_PARSE_ERROR)
    else Success(parsers.utf8(buffer))
  }

  /** The dispatch table: PDF goes to the PDF parser; DOCX keeps the
      structured reader's text when it is not blank, and only otherwise
      asks the generic Word reader; DOC asks the generic reader alone; a
      failing generic reader becomes the fixed Word error; everything else
      is decoded as UTF-8. */
  lemma ExtractTextDispatch(buffer: Bytes, ext: String, parsers: Parsers)
    ensures ext == "pdf" ==> ExtractText(buffer, ext, parsers) == parsers.pdf(buffer)
    ensures ext == "docx" && parsers.docx(buffer).Success? && !IsBlank(parsers.docx(buffer).value) ==>
      forall word: Bytes -> Result<String, String> ::
        ExtractText(buffer, ext, parsers.(word := word)) == parsers.docx(buffer)
    ensures ext == "doc" ==> forall docx: Bytes -> Result<String, String> ::
      ExtractText(buffer, ext, parsers.(docx := docx)) == ExtractText(buffer, ext, parsers)
    ensures (ext == "doc" || (ext == "docx" && (parsers.docx(buffer).Failure? || IsBlank(parsers.docx(buffer).value)))) ==>
      ExtractText(buffer, ext, parsers)
      == (if parsers.word(buffer).Success? then parsers.word(buffer) else Failure(WORD_PARSE_ERROR))
    ensures ext !in {"pdf", "doc", "docx"} ==> ExtractText(buffer, ext, parsers) == Success(parsers.utf8(buffer))
  {
  }

  /** `fileName.split('.').pop().toLowerCase()`: the lower-cased text after
      the last dot, or the whole name when it has none. */
  function ExtensionOf(fileName: String): String {
    var parts := Split(fileName, '.');
    ToLower(parts[|parts| - 1])
  }

  /** The last piece of a split is what follows the last separator. */
  lemma {:induction false} LastPieceOfSplit(s: String, c: char, e: String)
    requires c !in e
    ensures var parts := Split(s + [c] + e, c); |parts| >= 2 && parts[|parts| - 1] == e
    decreases |s|
  {
    if |s| == 0 {
      assert s + [c] + e == [c] + e;
      assert ([c] + e)[1..] == e;
      SplitWithoutSeparator(e, c);
    } else {
      assert (s + [c] + e)[1..] == s[1..] + [c] + e;
      LastPieceOfSplit(s[1..], c, e);
    }
  }

  /** The extension is what follows the last dot; a name without a dot is
      its own extension. */
  lemma ExtensionAfterLastDot(base: String, e: String)
    requires '.' !in e
    ensures ExtensionOf(base + "." + e) == ToLower(e)
    ensures ExtensionOf(e) == ToLower(e)
  {
    LastPieceOfSplit(base, '.', e);
    SplitWithoutSeparator(e, '.');
  }

  /** The JSON body of an upload request; `""` is a missing field. */
  datatype UploadRequest = UploadRequest(filePath: String, fileName: String, botId: String, embeddingModel: String)

  /** The route's JSON replies. */
  datatype UploadResponse =
    | ErrorReply(status: nat, message: String)
    | Uploaded(id: nat, botId: String, name: String, tokenCount: nat, chunkCount: nat)

  /** What the request resolves to once it has passed every check. */
  datatype Accepted = Accepted(model: String, ext: String, text: String)

  /** The checks of `POST` up to the document insert, in the route's order:
      authentication, required fields, embedding model, extension, bot
      ownership, download, extraction, non-blank text. A throwing parser
      surfaces as the generic failure of the outer handler. */
  function CheckUpload(user: Option<String>, req: UploadRequest, botOwned: bool, download: Option<Bytes>,
                       parsers: Parsers): (r: Result<Accepted, UploadResponse>)
    ensures r.Failure? ==> r.error.ErrorReply?
    ensures r.Success? ==> r.value.model in Embedding.EMBEDDING_MODELS && r.value.ext in SUPPORTED_EXTS
                           && !IsBlank(r.value.text)
  {
    if user.None? then Failure(ErrorReply(401, UNAUTHORIZED))
    else if req.filePath == [] || req.fileName == [] || req.botId == [] then
      Failure(ErrorReply(400, MISSING_FIELDS))
    else
      var model := if req.embeddingModel != [] then req.embeddingModel else Embedding.DEFAULT_EMBEDDING_MODEL;
      var ext := ExtensionOf(req.fileName);
      if model !in Embedding.EMBEDDING_MODELS then Failure(ErrorReply(400, INVALID_MODEL))
      else if ext !in SUPPORTED_EXTS then
        Failure(ErrorReply(400, UNSUPPORTED_TYPE))
      else if !botOwned then Failure(ErrorReply(404, BOT_NOT_FOUND))
      else if download.None? then Failure(ErrorReply(500, DOWNLOAD_FAILED))
      else match ExtractText(download.value, ext, parsers)
        case Failure(_) => Failure(ErrorReply(500, UPLOAD_FAILED))
        case Success(text) =>
          if Trim(text) == [] then Failure(ErrorReply(400, NO_TEXT))
          else Success(Accepted(model, ext, text))
  }

  /** A request missing a field is refused before the model, the extension,
      the bot, the storage or a parser is consulted. */
  lemma MissingFieldsRefusedFirst(user: String, req: UploadRequest)
    requires req.filePath == [] || req.fileName == [] || req.botId == []
    ensures forall botOwned: bool, download: Option<Bytes>, parsers: Parsers ::
      CheckUpload(Some(user), req, botOwned, download, parsers) == Failure(ErrorReply(400, MISSING_FIELDS))
  {
  }

  /** An absent model means the remote default; a named model outside the
      table is refused before the bot or storage is consulted. */
  lemma EmbeddingModelChecked(user: String, req: UploadRequest, botOwned: bool, download: Option<Bytes>, parsers: Parsers)
    requires req.filePath != [] && req.fileName != [] && req.botId != []
    ensures req.embeddingModel == [] ==>
      CheckUpload(Some(user), req, botOwned, download, parsers).Success? ==>
        CheckUpload(Some(user), req, botOwned, download, parsers).value.model == "text-embedding-v3"
    ensures req.embeddingModel != [] && req.embeddingModel !in Embedding.EMBEDDING_MODELS ==>
      CheckUpload(Some(user), req, botOwned, download, parsers) == Failure(ErrorReply(400, INVALID_MODEL))
  {
  }

  /** The checks after the fields and the model, in order: an unsupported
      extension is 400, a bot the caller does not own 404, a failed download
      500, a throwing parser the generic 500, and text that is only white
      space 400; a request that passes them all is accepted with its model,
      extension and text. Without a user the reply is 401 whatever else. */
  lemma CheckUploadOutcomes(user: Option<String>, req: UploadRequest, botOwned: bool, download: Option<Bytes>, parsers: Parsers)
    ensures user.None? ==> CheckUpload(user, req, botOwned, download, parsers) == Failure(ErrorReply(401, UNAUTHORIZED))
    ensures var model := if req.embeddingModel != [] then req.embeddingModel else Embedding.DEFAULT_EMBEDDING_MODEL;
      var ext := ExtensionOf(req.fileName);
      var r := CheckUpload(user, req, botOwned, download, parsers);
      user.Some? && req.filePath != [] && req.fileName != [] && req.botId != [] && model in Embedding.EMBEDDING_MODELS ==>
        && (ext !in SUPPORTED_EXTS ==> r == Failure(ErrorReply(400, UNSUPPORTED_TYPE)))
        && (ext in SUPPORTED_EXTS && !botOwned ==> r == Failure(ErrorReply(404, BOT_NOT_FOUND)))
        && (ext in SUPPORTED_EXTS && botOwned && download.None? ==> r == Failure(ErrorReply(500, DOWNLOAD_FAILED)))
        && (ext in SUPPORTED_EXTS && botOwned && download.Some? ==>
              var text := ExtractText(download.value, ext, parsers);
              && (text.Failure? ==> r == Failure(ErrorReply(500, UPLOAD_FAILED)))
              && (text.Success? && IsBlank(text.value) ==> r == Failure(ErrorReply(400, NO_TEXT)))
              && (text.Success? && !IsBlank(text.value) ==> r == Success(Accepted(model, ext, text.value))))
  {
  }

  /** `Math.ceil(n / 4)`. */
  function CeilQuarter(n: nat): (q: nat)
    ensures 4 * q >= n && 4 * q < n + 4
  {
    (n + 3) / 4
  }

  /** The token estimate of the chunks from `i` to `j`. */
  function TokenSumIn(chunks: seq<String>, i: nat, j: nat): nat
    requires i <= j <= |chunks|
    decreases j - i
  {
    if i == j then 0 else TokenSumIn(chunks, i, j - 1) + CeilQuarter(|chunks[j - 1]|)
  }

  /** The token estimate of a sequence of chunks. */
  function TokenSum(chunks: seq<String>): nat {
    TokenSumIn(chunks, 0, |chunks|)
  }

  /** The number of characters in the chunks from `i` to `j`. */
  function TotalLengthIn(chunks: seq<String>, i: nat, j: nat): nat
    requires i <= j <= |chunks|
    decreases j - i
  {
    if i == j then 0 else TotalLengthIn(chunks, i, j - 1) + |chunks[j - 1]|
  }

  /** The estimate is a quarter of the text's length, rounded up per chunk:
      at least a quarter of the total, and less than a quarter plus one per
      chunk. */
  lemma {:induction false} TokenSumBounds(chunks: seq<String>, i: nat, j: nat)
    requires i <= j <= |chunks|
    ensures 4 * TokenSumIn(chunks, i, j) >= TotalLengthIn(chunks, i, j)
    ensures 4 * TokenSumIn(chunks, i, j) < TotalLengthIn(chunks, i, j) + 4 * (j - i) || i == j
    decreases j - i
  {
    if i < j {
      TokenSumBounds(chunks, i, j - 1);
    }
  }

  /** The estimate of consecutive runs of chunks adds up. */
  lemma {:induction false} TokenSumSplit(chunks: seq<String>, i: nat, k: nat, j: nat)
    requires i <= k <= j <= |chunks|
    ensures TokenSumIn(chunks, i, j) == TokenSumIn(chunks, i, k) + TokenSumIn(chunks, k, j)
    decreases j - k
  {
    if k < j {
      TokenSumSplit(chunks, i, k, j - 1);
    }
  }

  /** The fixed parts of every chunk record of one document. */
  datatype Ingest = Ingest(
    docId: nat, botId: String, fileName: String, model: String,
    config: Option<Embedding.RemoteConfig>, env: Embedding.EmbeddingEnv)

  /** One `document_chunks` row. */
  datatype ChunkRecord = ChunkRecord(
    documentId: nat, botId: String, content: String, embedding: Embedding.Vector,
    chunkIndex: nat, documentName: String)

  function Embed(chunk: String, ing: Ingest): Result<Embedding.Vector, String> {
    Embedding.GenerateEmbedding(chunk, ing.model, ing.config, ing.env)
  }

  function RecordFor(chunks: seq<String>, k: nat, ing: Ingest): ChunkRecord
    requires k < |chunks|
  {
    var e := Embed(chunks[k], ing);
    ChunkRecord(ing.docId, ing.botId, chunks[k], if e.Success? then e.value else [], k, ing.fileName)
  }

  /** The records of the first `m` chunks. */
  function Records(chunks: seq<String>, m: nat, ing: Ingest): (rs: seq<ChunkRecord>)
    requires m <= |chunks|
    ensures |rs| == m
    ensures forall k | 0 <= k < m ::
      && rs[k].chunkIndex == k && rs[k].content == chunks[k]
      && rs[k].documentId == ing.docId && rs[k].botId == ing.botId && rs[k].documentName == ing.fileName
  {
    seq(m, k requires 0 <= k < m => RecordFor(chunks, k, ing))
  }

  /** The position of the first chunk at or after `from` whose embedding
      throws, or the number of chunks when none does. */
  function FirstEmbeddingFailure(chunks: seq<String>, ing: Ingest, from: nat): (e: nat)
    requires from <= |chunks|
    ensures from <= e <= |chunks|
    ensures forall k | from <= k < e :: Embed(chunks[k], ing).Success?
    ensures e < |chunks| ==> Embed(chunks[e], ing).Failure?
    decreases |chunks| - from
  {
    if from == |chunks| then from
    else if Embed(chunks[from], ing).Failure? then from
    else FirstEmbeddingFailure(chunks, ing, from + 1)
  }

  function BatchEnd(n: nat, b: nat): nat {
    if BATCH_SIZE * b + BATCH_SIZE < n then BATCH_SIZE * b + BATCH_SIZE else n
  }

  /** The first batch, from `b` on, that fails: because one of its
      embeddings throws (its first failure is at `e`) or because inserting
      it fails. A value whose batch starts at or past the end means every
      batch went in. */
  function FirstFailingBatch(n: nat, e: nat, insertOk: nat -> bool, b: nat): (f: nat)
    ensures f >= b
    ensures BATCH_SIZE * f < n ==> e < BatchEnd(n, f) || !insertOk(f)
    ensures forall c | b <= c < f :: BATCH_SIZE * c < n && BatchEnd(n, c) <= e && insertOk(c)
    decreases n - BATCH_SIZE * b
  {
    if BATCH_SIZE * b >= n then b
    else if e < BatchEnd(n, b) || !insertOk(b) then b
    else FirstFailingBatch(n, e, insertOk, b + 1)
  }

  /** One batch, chunks `start` to `end`: each is embedded and recorded
      in order, and the first embedding that throws abandons the batch.
      Returns the batch's records and token estimate, or where it threw. */
  method EmbedBatch(chunks: seq<String>, start: nat, end: nat, ing: Ingest)
    returns (records: seq<ChunkRecord>, tokens: nat, failedAt: Option<nat>)
    requires start <= end <= |chunks|
    ensures failedAt.None? ==>
      && (forall k | start <= k < end :: Embed(chunks[k], ing).Success?)
      && |records| == end - start
      && (forall t | 0 <= t < end - start :: records[t] == RecordFor(chunks, start + t, ing))
      && tokens == TokenSumIn(chunks, start, end)
    ensures failedAt.Some? ==>
      && start <= failedAt.value < end
      && Embed(chunks[failedAt.value], ing).Failure?
      && forall k | start <= k < failedAt.value :: Embed(chunks[k], ing).Success?
  {
    var batch := chunks[start..end];
    records := [];
    tokens := 0;
    var j := 0;
    while j < |batch|
      invariant 0 <= j <= |batch|
      invariant forall k | start <= k < start + j :: Embed(chunks[k], ing).Success?
      invariant |records| == j
      invariant forall t | 0 <= t < j :: records[t] == RecordFor(chunks, start + t, ing)
      invariant tokens == TokenSumIn(chunks, start, start + j)
    {
      var chunk := batch[j];
      assert chunk == chunks[start + j];
      var embedding := Embed(chunk, ing);
      if embedding.Failure? {
        return records, tokens, Some(start + j);
      }
      var record := ChunkRecord(ing.docId, ing.botId, chunk, embedding.value, start + j, ing.fileName);
      assert record == RecordFor(chunks, start + j, ing);
      tokens := tokens + CeilQuarter(|chunk|);
      records := records + [record];
      j := j + 1;
    }
    failedAt := None;
  }

  /** A batch that starts before the end and fails is the first failing
      batch when every batch before it went in. */
  lemma FailingBatchIsFirst(n: nat, e: nat, insertOk: nat -> bool, b: nat)
    requires BATCH_SIZE * b < n
    requires e < BatchEnd(n, b) || !insertOk(b)
    ensures FirstFailingBatch(n, e, insertOk, b) == b
  {
  }

  /** A chunk that throws after a run of chunks that did not is the first
      failure, provided the run starts no later than the first failure. */
  lemma EmbeddingFailureAt(chunks: seq<String>, ing: Ingest, from: nat, p: nat)
    requires from <= p < |chunks| && from <= FirstEmbeddingFailure(chunks, ing, 0)
    requires forall k | from <= k < p :: Embed(chunks[k], ing).Success?
    requires Embed(chunks[p], ing).Failure?
    ensures FirstEmbeddingFailure(chunks, ing, 0) == p
  {
  }

  /** A run of chunks that embed, starting no later than the first
      failure, ends no later than it either. */
  lemma NoEmbeddingFailureIn(chunks: seq<String>, ing: Ingest, from: nat, end: nat)
    requires from <= end <= |chunks| && from <= FirstEmbeddingFailure(chunks, ing, 0)
    requires forall k | from <= k < end :: Embed(chunks[k], ing).Success?
    ensures end <= FirstEmbeddingFailure(chunks, ing, 0)
  {
  }

  /** A batch that went in hands the search for the first failing batch on
      to the next one, which starts where it ended (or past the end). */
  lemma BatchWentIn(n: nat, e: nat, insertOk: nat -> bool, b: nat, done: nat)
    requires done == BATCH_SIZE * b && done < n
    requires BatchEnd(n, b) <= e && insertOk(b)
    ensures FirstFailingBatch(n, e, insertOk, b) == FirstFailingBatch(n, e, insertOk, b + 1)
    ensures BatchEnd(n, b) == BATCH_SIZE * (b + 1) || (BatchEnd(n, b) == n && BATCH_SIZE * (b + 1) >= n)
  {
  }

  /** The records so far followed by a batch's records are the records up
      to the batch's end. */
  lemma RecordsExtend(chunks: seq<String>, ing: Ingest, done: nat, end: nat, records: seq<ChunkRecord>)
    requires done <= end <= |chunks|
    requires |records| == end - done
    requires forall t | 0 <= t < end - done :: records[t] == RecordFor(chunks, done + t, ing)
    ensures Records(chunks, done, ing) + records == Records(chunks, end, ing)
  {
    forall k | done <= k < end
      ensures (Records(chunks, done, ing) + records)[k] == Records(chunks, end, ing)[k]
    {
      assert records[k - done] == RecordFor(chunks, k, ing);
    }
  }

  /** Whether every batch of the document's chunks goes in. */
  predicate AllBatchesIn(chunks: seq<String>, ing: Ingest, insertOk: nat -> bool) {
    BATCH_SIZE * FirstFailingBatch(|chunks|, FirstEmbeddingFailure(chunks, ing, 0), insertOk, 0) >= |chunks|
  }

  /** How many of the chunks' records reach storage. */
  function StoredCount(chunks: seq<String>, ing: Ingest, insertOk: nat -> bool): (m: nat)
    ensures m <= |chunks|
    ensures AllBatchesIn(chunks, ing, insertOk) ==> m == |chunks|
  {
    var f := FirstFailingBatch(|chunks|, FirstEmbeddingFailure(chunks, ing, 0), insertOk, 0);
    if BATCH_SIZE * f < |chunks| then BATCH_SIZE * f else |chunks|
  }

  /** The batch loop of `POST`: chunks are embedded and recorded in order,
      ten at a time, each batch inserted at once (`insertOk(b)` says whether
      inserting batch `b` succeeds). An embedding that throws abandons its
      batch; a failed insert stops the loop. Returns the records that
      reached storage, the token estimate, and whether every batch went in. */
  method ProcessChunks(chunks: seq<String>, ing: Ingest, insertOk: nat -> bool)
    returns (inserted: seq<ChunkRecord>, totalTokens: nat, ok: bool)
    ensures ok <==> AllBatchesIn(chunks, ing, insertOk)
    ensures inserted == Records(chunks, StoredCount(chunks, ing, insertOk), ing)
    ensures ok ==> totalTokens == TokenSum(chunks)
  {
    var n := |chunks|;
    ghost var e := FirstEmbeddingFailure(chunks, ing, 0);
    ghost var f := FirstFailingBatch(n, e, insertOk, 0);
    inserted := [];
    totalTokens := 0;
    var b := 0;
    var done := 0;
    while done < n
      invariant done <= n
      invariant done == BATCH_SIZE * b || (done == n && BATCH_SIZE * b >= n)
      invariant f == FirstFailingBatch(n, e, insertOk, b)
      invariant done <= e
      invariant inserted == Records(chunks, done, ing)
      invariant totalTokens == TokenSumIn(chunks, 0, done)
      decreases n - done
    {
      var end := BatchEnd(n, b);
      var records, tokens, failedAt := EmbedBatch(chunks, done, end, ing);
      if failedAt.Some? {
        EmbeddingFailureAt(chunks, ing, done, failedAt.value);
        FailingBatchIsFirst(n, e, insertOk, b);
        ok := false;
        return;
      }
      if !insertOk(b) {
        FailingBatchIsFirst(n, e, insertOk, b);
        ok := false;
        return;
      }
      NoEmbeddingFailureIn(chunks, ing, done, end);
      BatchWentIn(n, e, insertOk, b, done);
      TokenSumSplit(chunks, 0, done, end);
      totalTokens := totalTokens + tokens;
      RecordsExtend(chunks, ing, done, end, records);
      inserted := inserted + records;
      b := b + 1;
      done := end;
    }
    ok := true;
  }

  /** `profile.openai_api_key ? { apiKey, baseUrl: base || undefined } :
      undefined`; `""` stands for a missing profile or column. */
  function ConfigFromProfile(apiKey: String, baseUrl: String): (c: Option<Embedding.RemoteConfig>)
    ensures c.Some? <==> apiKey != []
    ensures c.Some? ==> c.value.apiKey == apiKey && (c.value.baseUrl.Some? <==> baseUrl != [])
  {
    if apiKey == [] then None
    else Some(Embedding.RemoteConfig(apiKey, if baseUrl != [] then Some(baseUrl) else None))
  }

  datatype DocStatus = Processing | Ready | Errored

  /** One `documents` row; its id is its position in the table. */
  datatype DocumentRow = DocumentRow(
    id: nat, botId: String, name: String, content: String, status: DocStatus, tokenCount: nat)

  /** The outcomes of everything `POST` consults besides the request: bot
      ownership, the download, the parsers, the document insert, the
      owner's stored key and base URL, the embedding collaborators, each
      batch insert, and the two status updates. */
  datatype UploadEnv = UploadEnv(
    botOwned: bool, download: Option<Bytes>, parsers: Parsers, docInsertOk: bool,
    profileKey: String, profileBaseUrl: String, embed: Embedding.EmbeddingEnv,
    insertOk: nat -> bool, readyUpdateOk: bool, errorUpdateOk: bool)

  /** The documents table and the chunks table. */
  class DocumentStore {
    var documents: seq<DocumentRow>
    var chunkRows: seq<ChunkRecord>

    ghost predicate Valid()
      reads this
    {
      forall k | 0 <= k < |documents| :: documents[k].id == k
    }

    constructor ()
      ensures Valid() && documents == [] && chunkRows == []
    {
      documents := [];
      chunkRows := [];
    }

    /** `POST /api/upload`. A refused request, or a failed document insert,
        changes nothing. Otherwise the document is stored and ingested as
        `IngestOutcome` describes. */
    method Upload(user: Option<String>, req: UploadRequest, env: UploadEnv) returns (resp: UploadResponse)
      requires Valid()
      modifies this
      ensures Valid()
      ensures var check := CheckUpload(user, req, env.botOwned, env.download, env.parsers);
        check.Failure? ==> resp == check.error && documents == old(documents) && chunkRows == old(chunkRows)
      ensures var check := CheckUpload(user, req, env.botOwned, env.download, env.parsers);
        check.Success? && !env.docInsertOk ==>
          resp == ErrorReply(500, DOCUMENT_INSERT_FAILED)
          && documents == old(documents) && chunkRows == old(chunkRows)
      ensures var check := CheckUpload(user, req, env.botOwned, env.download, env.parsers);
        check.Success? && env.docInsertOk ==>
          IngestOutcome(old(documents), old(chunkRows), documents, chunkRows, check.value, req, env, resp)
    {
      var check := CheckUpload(user, req, env.botOwned, env.download, env.parsers);
      if check.Failure? {
        return check.error;
      }
      if !env.docInsertOk {
        return ErrorReply(500, DOCUMENT_INSERT_FAILED);
      }
      resp := StoreAndIngest(check.value, req, env);
    }

    /** The part of `POST` after the checks and a successful document
        insert: store the document as `processing`, chunk its text, run the
        batch loop and record the outcome. */
    method StoreAndIngest(acc: Accepted, req: UploadRequest, env: UploadEnv) returns (resp: UploadResponse)
      requires Valid()
      modifies this
      ensures Valid()
      ensures IngestOutcome(old(documents), old(chunkRows), documents, chunkRows, acc, req, env, resp)
    {
      var text := acc.text;
      var id := |documents|;
      documents := documents + [DocumentRow(id, req.botId, req.fileName, text, Processing, 0)];
      var chunks := Chunker.SplitTextIntoChunks(text, Chunker.DEFAULT_MAX_CHUNK_SIZE, Chunker.DEFAULT_OVERLAP);
      var ing := Ingest(id, req.botId, req.fileName, acc.model,
                        ConfigFromProfile(env.profileKey, env.profileBaseUrl), env.embed);
      var inserted, totalTokens, ok := ProcessChunks(chunks, ing, env.insertOk);
      chunkRows := chunkRows + inserted;
      var row := documents[id];
      if ok && env.readyUpdateOk {
        documents := documents[id := row.(status := Ready, tokenCount := totalTokens)];
        resp := Uploaded(id, req.botId, req.fileName, totalTokens, |chunks|);
      } else {
        if env.errorUpdateOk {
          documents := documents[id := row.(status := Errored)];
        }
        resp := ErrorReply(500, PROCESSING_FAILED);
      }
    }
  }

  /** The outcome of storing and ingesting an accepted upload: one new
      document row after the old ones, holding the text. It becomes `ready`,
      with the token estimate of all its chunks, only when every batch went
      in and the update succeeded; after any failure it is set to `error`
      (when that update succeeds) and is never `ready`. The chunk rows of
      the batches that went in stay stored. */
  predicate IngestOutcome(before: seq<DocumentRow>, rowsBefore: seq<ChunkRecord>,
                          after: seq<DocumentRow>, rowsAfter: seq<ChunkRecord>,
                          acc: Accepted, req: UploadRequest, env: UploadEnv, resp: UploadResponse)
  {
    var id := |before|;
    var chunks := Chunker.ChunksOf(acc.text, Chunker.DEFAULT_MAX_CHUNK_SIZE, Chunker.DEFAULT_OVERLAP);
    var ing := Ingest(id, req.botId, req.fileName, acc.model,
                      ConfigFromProfile(env.profileKey, env.profileBaseUrl), env.embed);
    var done := AllBatchesIn(chunks, ing, env.insertOk) && env.readyUpdateOk;
    && |after| == id + 1 && after[..id] == before
    && after[id].id == id && after[id].botId == req.botId && after[id].name == req.fileName
    && after[id].content == acc.text
    && rowsAfter == rowsBefore + Records(chunks, StoredCount(chunks, ing, env.insertOk), ing)
    && (done ==> after[id].status == Ready && after[id].tokenCount == TokenSum(chunks)
                 && resp == Uploaded(id, req.botId, req.fileName, TokenSum(chunks), |chunks|))
    && (!done ==> after[id].status == (if env.errorUpdateOk then Errored else Processing)
                  && resp == ErrorReply(500, PROCESSING_FAILED))
  }

  /** Every chunk of an ingested document is stored exactly once: a
      successful ingestion stores one record per chunk, with the chunk's
      position as its index, the chunk as its content, and the document,
      bot and file as its owners. */
  lemma EveryChunkRecordedOnce(chunks: seq<String>, ing: Ingest, insertOk: nat -> bool)
    requires AllBatchesIn(chunks, ing, insertOk)
    ensures var rs := Records(chunks, StoredCount(chunks, ing, insertOk), ing);
      && |rs| == |chunks|
      && (forall k | 0 <= k < |rs| :: rs[k].chunkIndex == k && rs[k].content == chunks[k] && rs[k].documentId == ing.docId)
      && (forall k, l | 0 <= k < l < |rs| :: rs[k].chunkIndex != rs[l].chunkIndex)
  {
  }

  /** Ingestion fails exactly when some batch that starts before the end
      contains a throwing embedding or has its insert fail. */
  lemma IngestionFailsAtABatch(chunks: seq<String>, ing: Ingest, insertOk: nat -> bool)
    ensures !AllBatchesIn(chunks, ing, insertOk) <==>
      exists b: nat | BATCH_SIZE * b < |chunks| ::
        !insertOk(b) || exists k | BATCH_SIZE * b <= k < BatchEnd(|chunks|, b) :: Embed(chunks[k], ing).Failure?
  {
    var n := |chunks|;
    var e := FirstEmbeddingFailure(chunks, ing, 0);
    var f := FirstFailingBatch(n, e, insertOk, 0);
    if BATCH_SIZE * f < n {
      if e < BatchEnd(n, f) {
        assert BATCH_SIZE * f <= e by {
          if f > 0 { assert BatchEnd(n, f - 1) <= e; }
        }
      }
    } else {
      forall b: nat | BATCH_SIZE * b < n
        ensures insertOk(b) && forall k | BATCH_SIZE * b <= k < BatchEnd(n, b) :: Embed(chunks[k], ing).Success?
      {
        assert b < f;
        assert BatchEnd(n, b) <= e;
      }
    }
  }
}

=== FILE: wrappers.dfy ===
/** Option and Result: the shapes that stand in for JavaScript's `undefined`
    and for a thrown exception throughout the model. */
module Wrappers {

  datatype Option<+T> = None | Some(value: T) {
    function GetOr(default: T): T {
      match this
      case Some(v) => v
      case None => default
    }
  }

  /** `Failure(e)` is a thrown error carrying its message. */
  datatype Result<+T, +E> = Success(value: T) | Failure(error: E)
}
